=== FILE: README.md ===
# Incident dashboard core in Dafny

This project models the computational core of a payment-routing incident
dashboard. The dashboard replays a deterministic three-hour outage of a
primary card processor (processor A) for one merchant. Traffic fails over to
two backup processors (B and C) and later recovers. Every figure the
dashboard shows is derived from a seeded synthetic stream of transactions and
a simulated clock.

The model has three parts:

- **The seeded scenario generator** (`lcg.dfy`, `generator.dfy`).
  - A 32-bit linear congruential generator, with `next`, `nextInt`, `pick` and
    `weightedPick`.
  - The five incident phases, with their traffic, authorization and status
    tables.
  - The country and payment-method distributions.
  - The 24-hour baseline stream, drawn from a second generator seeded with
    `seed + 1`.
  - The eight routing events, and `generateIncidentData` itself.
- **The store** (`store.dfy`), as a state machine. Its state is the simulated
  clock, the running flag, the speed, the filters, the alert threshold and the
  comparison flag. Every action is a pure `State -> State` function. An
  invariant holds in the initial state and is preserved by every admissible
  action.
- **The derived data**. The hooks and components compute it as pure functions
  of the records, the clock and the incident:
  - the binary-search time cutoff and the filter pipeline (`utils.dfy`,
    `filtered_data.dfy`);
  - the five-minute buckets (`time_buckets.dfy`);
  - the headline KPIs (`incident_metrics.dfy`);
  - the per-processor summaries (`processor_grid.dfy`);
  - the progressive reveal of routing events (`routing_timeline.dfy`);
  - the per-country and per-method rows (`country_heatmap.dfy`,
    `method_breakdown.dfy`);
  - the small helpers `getAlertLevel`, `formatDuration` and `cn`
    (`processors.dfy`, `utils.dfy`).

`seqs.dfy` holds the order-preserving filter `Keep` and the subsequence facts
shared by every module. `decimal.dfy` holds decimal rendering of naturals (the
`${n}` of template strings) and `split`/`join`. `domain.dfy` holds the data
model of `src/types/index.ts` and the fixed instants. `aggregates.dfy` holds
the counting shared by the charts.

How quantities are modelled:

- Timestamps are integer milliseconds since the epoch. The base date
  2024-11-15T17:00-03:00 is 1731700800000, which is a multiple of five
  minutes.
- Rates, weights and amounts are exact reals.
- The generator's 32-bit arithmetic (`Math.imul`, `>>> 0`) is written out
  modulo 2^32.
- The clock, the incident start and the baseline rate are parameters wherever
  the source reads them from the store or from module-level constants.
- `Utils.ParseDuration` reads a "1h 23m 40s" text back as whole seconds. It
  is not part of the source; it is the reference against which
  `formatDuration` is characterized.

The model follows the code where the code and its own documentation differ:

- The comment on `advanceSimulationTime` (src/store/dashboard.store.ts:84)
  says the clock loops back to the incident start. The code sets it to the
  base date (lines 148-150), and `Store.Advance` does the same.
- The filter pipeline treats any list of three countries, or of four methods,
  as "everything selected". `FilteredData.CountryFilter` and
  `FilteredData.MethodFilter` keep that shortcut as written.
  `FilteredData.ShortcutsAreMembership` proves it equals membership filtering
  for duplicate-free lists. `FilteredData.DuplicateDefeatsShortcut` shows a
  duplicated list where it does not. Every store action keeps the lists
  duplicate-free, given duplicate-free arguments to `setFilters`
  (`Store.ApplyPreservesValid`).

## Model

| member | source | states |
|---|---|---|
| Lcg.Create | src/data/generator.ts:44-45 | the initial state is the seed reduced modulo 2^32 |
| Lcg.ToInt32 | src/data/generator.ts:49 | the signed 32-bit reading used by `Math.imul` lies in [-2^31, 2^31) and is congruent to its argument modulo 2^32 |
| Lcg.StepIsAffine | src/data/generator.ts:49 | the update written with `Math.imul` and `>>> 0` is exactly s -> (1664525 s + 1013904223) mod 2^32 |
| Lcg.Next | src/data/generator.ts:47-51 | `next()` advances the state by the affine step and returns state / 2^32, a value in [0, 1) |
| Lcg.NextInt | src/data/generator.ts:53-56 | `nextInt(max)` consumes one draw and returns floor(next() * max); this lies in [0, max) for max > 0 and is 0 for max = 0 |
| Lcg.Pick | src/data/generator.ts:58-61 | `pick` returns an element of the array and consumes one draw |
| Lcg.WeightedPickIndex | src/data/generator.ts:64-72 | the returned index is the first one whose cumulative weight exceeds the draw, falling back to the last index; all earlier cumulative sums are at most the draw |
| Lcg.WeightedPick | src/data/generator.ts:63-72 | `weightedPick` returns a member of `items` and consumes one draw |
| Lcg.PickedWeightPositive | src/data/generator.ts:64-72 | for a non-negative draw, the picked index has a positive weight, unless it is the fallback last index with the draw at or above the total |
| Lcg.ZeroWeightNeverPicked | src/data/generator.ts:64-72 | an item of zero weight is never returned when it is not last or the weights sum to 1 |
| Lcg.PickedItemHasWeight | src/data/generator.ts:64-72 | when the weights sum to 1, the returned item sits at an index of positive weight |
| Generator.PhaseTableWellFormed | src/data/generator.ts:109-160 | there are five phases in order, each ending where the next starts, from minute 0 to minute 240; each phase's traffic shares sum to exactly 1 |
| Generator.SharesSumToOne | src/data/generator.ts:116-156 | every phase's processor traffic shares sum to exactly 1 |
| Generator.DistributionTablesWellFormed | src/data/generator.ts:174-198 | the country weights and each country's method weights sum to exactly 1; every listed method is allowed in its country (PIX only in BR, OXXO only in MX) |
| Generator.PickPaymentMethod | src/data/generator.ts:200-218 | the method is drawn from the country's own list, so it is allowed in that country; it consumes one draw |
| Generator.RoundCents | src/data/generator.ts:267 | the result is a whole number of cents, within half a cent of the value |
| Generator.RoundCentsUnique | src/data/generator.ts:267 | a whole number of cents within half a cent of the value (ties counted upward) is the rounded amount, so the rounding is determined |
| Generator.Amount | src/data/generator.ts:265-267 | an amount is a whole number of cents, lies within 0.7 to 1.3 times the method's average ticket up to half a cent, and is positive |
| Generator.Clamp01 | src/data/generator.ts:263 | the clamped probability is in [0, 1] and equals its argument when that is already in [0, 1] |
| Generator.Jitter | src/data/generator.ts:262 | the jitter lies in [-0.03, 0.03) |
| Generator.Authorize | src/data/generator.ts:263 | a non-positive base rate gives "declined" without drawing; a positive rate consumes one draw; a jittered rate of at least 1 authorizes and one of at most 0 declines |
| Generator.TrafficPickPositive | src/data/generator.ts:239-250 | with shares summing to 1, the drawn processor has a positive traffic share |
| Generator.GenTransaction | src/data/generator.ts:249-280 | one phase record carries its id, its time, the phase tag and the phase's status for its processor; its method is allowed in its country, its amount is positive, and a zero-rate processor never authorizes |
| Generator.PhaseTimestampInWindow | src/data/generator.ts:245-247 | every record of a phase is timed inside [start, end) of the phase |
| Generator.PhaseTimestampMonotone | src/data/generator.ts:245-247 | later records of a phase are never earlier |
| Generator.GenPhaseFrom | src/data/generator.ts:242-281 | the remaining iterations of the phase loop yield one record each, numbered `tx-(startId+i)`, in the window and sorted by time |
| Generator.GenPhase | src/data/generator.ts:230-284 | a phase emits round(duration * txPerMin) records with consecutive ids, sorted by time, each satisfying the phase guarantees |
| Generator.GenPhases | src/data/generator.ts:421-427 | the phase loop concatenates the phase runs in order, each phase's ids continuing from the previous phase's last |
| Generator.RunsCountAndIds | src/data/generator.ts:421-427 | the concatenated runs hold one record per iteration of every phase, with ids `tx-0`, `tx-1`, … in order |
| Generator.RunsIncident | src/data/generator.ts:421-427 | runs of phases taken from the phase table give records consistent with their own phase tag |
| Generator.RunsOrdered | src/data/generator.ts:421-427 | runs of chained phases are sorted by time and lie between the first phase's start and the last phase's end |
| Generator.PhaseTotals | src/data/generator.ts:109-160 | the five phases emit 300 + 30 + 90 + 500 + 300 = 1220 records |
| Generator.BaselineTimestampSpacing | src/data/generator.ts:308-312 | baseline record i is timed 24 h before the base date plus 12 s times i |
| Generator.GenBaselineTx | src/data/generator.ts:295-321 | a baseline record is id `baseline-i`, processor A, healthy, baseline-flagged, pre-incident phase; its method is allowed in its country and its amount is positive |
| Generator.GenBaselineFrom | src/data/generator.ts:288-325 | the baseline loop emits 24 * 60 * 5 = 7200 records, record i having the baseline shape for i |
| Generator.BaselineOrdered | src/data/generator.ts:294-322 | baseline records are strictly increasing in time, all before the base date, with distinct ids |
| Generator.EventIdsDistinct | src/data/generator.ts:329-396 | the eight event ids are pairwise distinct |
| Generator.RoutingEvents | src/data/generator.ts:329-396 | there are eight events at minutes 60, 62, 65, 67, 80, 180, 195 and 240 after the base date; their times strictly increase, the first is the incident start, and their ids are distinct |
| Generator.GenerateIncidentData | src/data/generator.ts:417-448 | the transactions are the phase runs drawn from `createLCG(seed)` and the 7200 baseline records are drawn from a second generator `createLCG(seed + 1)`, each record of baseline shape; the incident has its fixed id, start, 0.94 baseline and eight events; the seed is returned |
| Generator.IncidentTransactionsWellFormed | src/data/generator.ts:417-427 | the incident stream has 1220 records, ids `tx-0` to `tx-1219` in order, each consistent with its phase, sorted by time, within minutes 0 to 240 |
| Generator.IncidentIdsDistinct | src/data/generator.ts:243 | incident transaction ids are pairwise distinct |
| Generator.StabilizedAvoidsProcessorA | src/data/generator.ts:146 | no stabilized-phase record is routed to processor A |
| Generator.ZeroRateNeverAuthorized | src/data/generator.ts:261-263 | a record whose processor has rate 0 in its phase is never authorized |
| Generator.BaselineBeforeIncident | src/data/generator.ts:286-325 | the baseline is strictly increasing in time with distinct ids, and every baseline record precedes every incident record |
| Generator.BaselineSeededNext | src/data/generator.ts:430 | the baseline generator's initial state is the main generator's plus one, modulo 2^32 |
| Generator.SeedModulo | src/data/generator.ts:44-45 | seeds that agree modulo 2^32 generate identical transactions and baseline |
| Decimal.NatToStringRoundTrip | src/lib/utils.ts:60-62 | the decimal rendering of a number reads back as that number |
| Decimal.NatToStringInjective | src/data/generator.ts:243 | different numbers render differently |
| Decimal.PrefixedInjective | src/data/generator.ts:311 | ids made of a fixed prefix and a number are distinct for distinct numbers |
| Decimal.SplitJoin | src/lib/utils.ts:63 | joining space-free pieces with a space and splitting again gives back the pieces |
| Utils.UpperBoundIndex | src/lib/utils.ts:79-103 | the result is -1 or an index of the array, is -1 on empty input, and points at an element satisfying the predicate; when the predicate holds on a prefix and fails after it, the result is the last index of that prefix |
| Utils.FormatDuration | src/lib/utils.ts:48-64 | non-positive durations give "0s"; the text reads back as the whole seconds of the duration and has three, two or one pieces as the duration reaches an hour, a minute, or neither |
| Utils.FormatDurationUnique | src/lib/utils.ts:48-64 | a text reads back as the whole seconds of `ms` exactly when it is `formatDuration(ms)`, so the format is fixed down to the digits (no leading zeros, no "0h" or "0m" pieces) |
| Utils.ClockParts | src/lib/utils.ts:54-62 | the pieces read back as the whole seconds, and there are three, two or one of them as the total reaches an hour, a minute, or neither |
| Utils.ClockPartsUnique | src/lib/utils.ts:54-62 | pieces read back as `total` exactly when they are the pieces rendered for `total`: "Nh Mm Ss" with N > 0, "Mm Ss" with M > 0, or "Ss", each number written without leading zeros |
| Utils.PartsOfReadBack | src/lib/utils.ts:59-63 | the pieces rendered for h, m < 60 and s < 60 read back as h*3600 + m*60 + s |
| Utils.ClockDecomposition | src/lib/utils.ts:54-57 | total = h*3600 + m*60 + s with m, s < 60; h > 0 exactly from 3600 s, and with h = 0, m > 0 exactly from 60 s |
| Utils.DurationPartsSplit | src/lib/utils.ts:59-63 | the pieces of a duration survive the join on spaces |
| Utils.DurationPartsParse | src/lib/utils.ts:52-63 | text whose space-separated pieces are a duration's pieces reads back as that duration's whole seconds |
| Utils.ClockPartsParse | src/lib/utils.ts:54-63 | the pieces for a positive number of whole seconds read back as that number |
| Utils.PartsOfParse | src/lib/utils.ts:59-63 | the pieces for h, m < 60 and s < 60 read back as h*3600 + m*60 + s |
| Utils.ParseHoursMinutesSeconds | src/lib/utils.ts:60-62 | "Nh Mm Ss" reads back as N*3600 + M*60 + S |
| Utils.ParseMinutesSeconds | src/lib/utils.ts:61-62 | "Mm Ss" reads back as M*60 + S |
| Utils.ParseSeconds | src/lib/utils.ts:62 | "Ss" reads back as S |
| Utils.TruthyNames | src/lib/utils.ts:7 | the kept names are, one for one and in order, the names of the arguments that pass the truthiness filter; all are non-empty |
| Utils.Cn | src/lib/utils.ts:6-8 | all-falsy arguments give the empty string; with space-free names and some truthy argument, the string splits on spaces into exactly the kept names |
| Utils.NoTruthyNoNames | src/lib/utils.ts:7 | when no argument is truthy, nothing is kept |
| Utils.SomeTruthyHasName | src/lib/utils.ts:7 | when some argument is truthy, at least one name is kept |
| Utils.CnSplits | src/lib/utils.ts:6-8 | with space-free class names and some truthy argument, the k-th space-separated piece is the name of the k-th truthy argument, there is one piece per truthy argument, and every truthy argument's name appears |
| Processors.ProcessorIds | src/constants/processors.ts:103 | processors A, B and C appear once each, A first |
| Processors.GetAlertLevel | src/constants/processors.ts:96-101 | critical exactly below half the threshold; warning exactly from half the threshold up to below it; for a non-negative threshold, normal exactly at or above it |
| Processors.AlertLevelMonotone | src/constants/processors.ts:97-101 | a higher rate never gives a more severe level |
| Processors.NegativeThresholdInversion | src/constants/processors.ts:97-98 | with a negative threshold, a rate above the threshold can still be critical (-0.3 at -0.4) |
| Processors.DefaultThresholdExamples | src/components/processors/ProcessorCard.test.tsx:40-54 | at threshold 0.8, 0.35 is critical, 0.75 warning and 0.94 normal |
| Store.AllCountries | src/store/dashboard.store.ts:53 | the default country list holds BR, MX and CO once each |
| Store.AllMethods | src/store/dashboard.store.ts:54 | the default method list holds the four methods once each |
| Store.DefaultFilters | src/store/dashboard.store.ts:51-55 | the defaults select since-incident, every country and every method |
| Store.Initial | src/store/dashboard.store.ts:105-112 | the store starts half an hour into the incident, running at speed 1, with default filters, threshold 0.8, no comparison, and satisfies the invariant |
| Store.Advance | src/store/dashboard.store.ts:141-152 | the clock moves by minutes * speed minutes; it wraps to the base date once that reaches the end of the window; it stays short of the end; nothing else changes |
| Store.AdvanceStaysInWindow | src/store/dashboard.store.ts:141-152 | from inside the window, a non-negative step stays in [base date, end) |
| Store.AdvanceExamples | src/store/dashboard.store.test.ts:43-66 | one minute at 1x moves 60000 ms and at 3x 180000 ms; five minutes from minute 239 wraps to the base date |
| Store.ToggleSimulation | src/store/dashboard.store.ts:154 | only the running flag changes, and it flips |
| Store.ToggleSimulationInvolutive | src/store/dashboard.store.ts:154 | toggling twice restores the state |
| Store.SetSpeed | src/store/dashboard.store.ts:157 | only the speed changes, to the given value |
| Store.ResetSimulation | src/store/dashboard.store.ts:159-164 | the clock returns to the base date and the simulation runs; nothing else changes |
| Store.Seek | src/store/dashboard.store.ts:166-172 | the clock is set to the target clamped into [base date, end of window]; nothing else changes |
| Store.SeekIdempotent | src/store/dashboard.store.ts:167-172 | seeking twice to the same target equals seeking once; seeking to the current in-window time changes nothing |
| Store.SetFilters | src/store/dashboard.store.ts:115-116 | each supplied filter field replaces the current one; absent fields and the rest of the state are kept |
| Store.SetFiltersLaws | src/store/dashboard.store.ts:115-116 | an empty update changes nothing and applying an update twice equals applying it once |
| Store.ResetFilters | src/store/dashboard.store.ts:139 | the filters return to since-incident, [BR, MX, CO] and the four methods, duplicate-free; nothing else changes |
| Store.Toggle | src/store/dashboard.store.ts:121-125 | an absent item is appended; a present item is removed unless it is the only one; the result is never empty and stays duplicate-free |
| Store.WithoutMembers | src/store/dashboard.store.ts:122 | removal deletes exactly the item and keeps every other entry |
| Store.WithoutKeepsNoDup | src/store/dashboard.store.ts:122 | removal keeps a duplicate-free list duplicate-free |
| Store.ToggleAddRemove | src/store/dashboard.store.ts:121-125 | toggling an absent item in and out again restores the list |
| Store.ToggleKeepsLastItem | src/store/dashboard.store.ts:124-125 | toggling the only selected item leaves it selected |
| Store.ToggleCountry | src/store/dashboard.store.ts:118-127 | only the country list changes, by the add-or-remove step |
| Store.TogglePaymentMethod | src/store/dashboard.store.ts:129-137 | only the method list changes, by the add-or-remove step |
| Store.ToggleCountryExamples | src/store/dashboard.store.test.ts:121-154 | toggling CO removes it from all three and adds it back to [BR, MX]; the last country stays; reset restores [BR, MX, CO] |
| Store.SetAlertThreshold | src/store/dashboard.store.ts:174-175 | the threshold is the argument clamped into [0, 1]; nothing else changes |
| Store.SetAlertThresholdIdempotent | src/store/dashboard.store.ts:174-175 | setting the stored threshold again changes nothing |
| Store.ToggleComparisonMode | src/store/dashboard.store.ts:177 | only the comparison flag changes, and it flips |
| Store.ApplyPreservesValid | src/store/dashboard.store.ts:114-177 | each admissible action keeps the clock in the window, the selections non-empty and duplicate-free, and the threshold in [0, 1] |
| Store.RunPreservesValid | src/store/dashboard.store.ts:103-178 | any sequence of admissible actions from a valid state keeps the invariant |
| FilteredData.WindowStart | src/hooks/useFilteredData.ts:43-55 | the period starts 15 min or 60 min before the clock, or at the incident start |
| FilteredData.SortedPrefixTrue | src/hooks/useFilteredData.ts:31-37 | on time-sorted records, those at or before any instant form a prefix |
| FilteredData.TimeSlice | src/hooks/useFilteredData.ts:34-40 | the slice up to the binary-search cutoff is a prefix of the input; on sorted input it is exactly the records at or before the clock |
| FilteredData.ThreeDistinctCountries | src/hooks/useFilteredData.ts:66 | three distinct countries are all the countries |
| FilteredData.FourDistinctMethods | src/hooks/useFilteredData.ts:74 | four distinct methods are all the methods |
| FilteredData.ShortcutsAreMembership | src/hooks/useFilteredData.ts:65-76 | with duplicate-free lists, the length shortcuts equal membership filtering |
| FilteredData.DuplicateDefeatsShortcut | src/hooks/useFilteredData.ts:66-68 | with [BR, BR, MX], a CO record passes the country step though CO is not selected |
| FilteredData.FilterTransactions | src/hooks/useFilteredData.ts:23-80 | the result is an order-preserving subsequence of the input and is empty for empty input; for sorted input and duplicate-free lists, it is exactly the records at or before the clock, in the period, in a selected country and with a selected method |
| FilteredData.EmptyStagesGiveEmpty | src/hooks/useFilteredData.ts:39-70 | each early return gives what the remaining stages would have produced |
| FilteredData.PipelineFacts | src/hooks/useFilteredData.ts:40-78 | after any prefix cutoff the stages give a subsequence of the input; on sorted input the result is sorted and, with duplicate-free lists, equals the reference selection |
| FilteredData.PipelineSubsequence | src/hooks/useFilteredData.ts:40-76 | every stage only deletes records |
| FilteredData.PipelineSelects | src/hooks/useFilteredData.ts:57-78 | after the exact time cutoff, with duplicate-free lists, the stages keep exactly the selected records |
| FilteredData.StagesSelect | src/hooks/useFilteredData.ts:57-76 | the four filters applied in sequence equal the single selection filter |
| TimeBuckets.FloorTo | src/hooks/useTimeBuckets.ts:28 | the boundary rounded down is a multiple of five minutes within one bucket below the value |
| TimeBuckets.CeilTo | src/hooks/useTimeBuckets.ts:29 | the boundary rounded up is a multiple of five minutes within one bucket above the value, equal to it on a boundary |
| TimeBuckets.BucketStarts | src/hooks/useTimeBuckets.ts:33 | the loop visits start + i*W for each i while below the end, and its last bucket reaches the end |
| TimeBuckets.BucketCount | src/hooks/useTimeBuckets.ts:33 | from start to n widths later the loop runs n times |
| TimeBuckets.BucketStartsCount | src/hooks/useTimeBuckets.ts:28-33 | between two boundaries the loop runs (end - start) / W times |
| TimeBuckets.ProcessorBucketOf | src/hooks/useTimeBuckets.ts:45-65 | per processor, volume counts its records; authorized counts its authorized records and declined is the rest; the rate is authorized / volume (0 without records), in [0, 1]; the status is that of its last record; the baseline is the fixed table entry |
| TimeBuckets.ProcessorBuckets | src/hooks/useTimeBuckets.ts:44-66 | each processor gets its own figures and the three volumes add up to the bucket's records |
| TimeBuckets.MakeBucket | src/hooks/useTimeBuckets.ts:33-79 | a bucket covers [t, t + W); its total volume counts those records and equals the sum of the processor volumes; the overall rate is the authorized share of those records, and 0 for an empty bucket |
| TimeBuckets.BucketsAt | src/hooks/useTimeBuckets.ts:33-80 | one bucket per start, in order |
| TimeBuckets.Bucketize | src/hooks/useTimeBuckets.ts:20-84 | empty input gives no buckets; otherwise there is one bucket per start of the as-written range |
| TimeBuckets.StartsShape | src/hooks/useTimeBuckets.ts:25-33 | on sorted input the starts are contiguous from the first record's boundary and span up to the rounded-up end |
| TimeBuckets.CoveringAddsBoundaryBucket | src/hooks/useTimeBuckets.ts:29-33 | the covering range has one more bucket than the as-written one exactly when the last record lies on a boundary |
| TimeBuckets.BucketIndexUnique | src/hooks/useTimeBuckets.ts:38-40 | an instant lies in bucket i of a range exactly when i is its bucket index |
| TimeBuckets.InstantInOneBucket | src/hooks/useTimeBuckets.ts:33-40 | an instant inside the range lies in exactly one bucket |
| TimeBuckets.AsWrittenPlacesRecordsBelowEnd | src/hooks/useTimeBuckets.ts:28-40 | as written, a record below the rounded-up end lies in a bucket |
| TimeBuckets.BoundaryRecordDropped | src/hooks/useTimeBuckets.ts:29-40 | as written, a last record exactly on a boundary lies in no bucket |
| TimeBuckets.LoneBoundaryRecordGivesNoBuckets | src/hooks/useTimeBuckets.ts:22-40 | as written, a lone record at 18:00 gives no buckets, while the covering range gives one bucket holding it |
| TimeBuckets.BucketizeCovering | src/hooks/useTimeBuckets.ts:28-33 | the corrected aggregation: one bucket per start of the range ending one bucket after the last record's boundary |
| TimeBuckets.CoveringPlacesEveryRecord | src/hooks/useTimeBuckets.ts:28-40 | with the corrected range, every record of sorted input lies in exactly one bucket |
| IncidentMetrics.DurationSince | src/hooks/useIncidentMetrics.ts:68-71 | the duration is max(0, now - start) |
| IncidentMetrics.ComputeMetrics | src/hooks/useIncidentMetrics.ts:36-82 | authorized + declined = total = the number of records; the rate is authorized / total, in [0, 1]; the delta is rate - baseline for non-empty input; the revenue impact is -(declined * 65) <= 0; empty input gives all zeros with the baseline passed through |
| IncidentMetrics.RevenueIgnoresAmounts | src/hooks/useIncidentMetrics.ts:65 | the revenue impact depends only on which records were authorized, not on their amounts |
| IncidentMetrics.SameAuthorizedCount | src/hooks/useIncidentMetrics.ts:56 | records with the same authorization flags have the same authorized count |
| IncidentMetrics.EmptyDeltaIsZero | src/hooks/useIncidentMetrics.ts:39-53 | the empty branch reports a delta of 0, not minus the baseline |
| IncidentMetrics.MetricsExamples | src/hooks/useIncidentMetrics.test.ts:33-73 | two of four authorized gives rate 0.5 with two declined; two declined cost 130; half an hour after the start the duration is positive |
| Aggregates.AuthorizedCount | src/hooks/useIncidentMetrics.ts:56 | the authorized count is the number of authorized records and at most the total |
| Aggregates.Rate | src/components/processors/ProcessorStatusGrid.tsx:23-24 | a guarded rate is 0 for an empty whole, otherwise part / whole, and in [0, 1] when part <= whole |
| Aggregates.LastStatusOfProcessor | src/components/processors/ProcessorStatusGrid.tsx:27-28 | a processor shows the status of its latest record, and healthy exactly when it has none |
| Aggregates.ProcessorVolumesSum | src/components/processors/ProcessorStatusGrid.tsx:17-19 | the three processor volumes add up to the number of records |
| Aggregates.CountryVolumesSum | src/components/charts/CountryHeatmap.tsx:33-36 | the three country volumes add up to the number of records |
| Aggregates.MethodVolumesSum | src/components/charts/PaymentMethodBreakdown.tsx:38-41 | the four method volumes add up to the number of records |
| Aggregates.TallyOf | src/components/charts/CountryHeatmap.tsx:35-40 | a group's volume counts its records, its authorized count is at most that, and its rate is authorized / volume (0 when empty), in [0, 1] |
| ProcessorGrid.SummaryOf | src/components/processors/ProcessorStatusGrid.tsx:17-38 | a summary's volume counts the processor's records; its rate is authorized / volume and its share volume / total, both guarded and in [0, 1]; its status is that of the latest record and its baseline the fixed entry |
| ProcessorGrid.Summaries | src/components/processors/ProcessorStatusGrid.tsx:14-39 | there is one summary per processor, in display order |
| ProcessorGrid.SummaryVolumesSum | src/components/processors/ProcessorStatusGrid.tsx:17-19 | the three summary volumes add up to the number of records |
| ProcessorGrid.SharesSumToOne | src/components/processors/ProcessorStatusGrid.tsx:24 | with at least one record, the three volume shares sum to exactly 1 |
| ProcessorGrid.MaxVolume | src/components/processors/ProcessorStatusGrid.tsx:41 | the bar scale is at least 1, at least every volume, and either 1 or some volume |
| RoutingTimeline.VisibleEvents | src/components/charts/RoutingTimeline.tsx:48-52 | the visible events are an order-preserving subsequence holding every event at or before the clock and no other |
| RoutingTimeline.VisibleIsPrefix | src/components/charts/RoutingTimeline.tsx:49-52 | with strictly increasing times the visible events are a prefix, and every later event is after the clock |
| RoutingTimeline.LatestIsNewest | src/components/charts/RoutingTimeline.tsx:75-77 | the visible event marked latest is at least as late as every event that has happened |
| RoutingTimeline.AllVisibleOnceLastHappened | src/components/charts/RoutingTimeline.tsx:49-52 | once the newest event has happened, every event is visible |
| RoutingTimeline.NoEventsBeforeIncident | src/components/charts/RoutingTimeline.test.tsx:11-17 | before the incident starts no event is visible |
| RoutingTimeline.FirstTwoEventsAtTwoMinutes | src/components/charts/RoutingTimeline.test.tsx:19-29 | two minutes into the incident exactly the first two events are visible |
| RoutingTimeline.AllEventsAtEnd | src/components/charts/RoutingTimeline.test.tsx:31-37 | from minute 240 on, all eight events are visible |
| CountryHeatmap.RowOf | src/components/charts/CountryHeatmap.tsx:34-44 | a row counts its country's records, its rate is authorized / volume in [0, 1] and 0 without records, and its baseline is BR 0.94, MX 0.94 or CO 0.93 |
| CountryHeatmap.AllRows | src/components/charts/CountryHeatmap.tsx:32-44 | there is one row per country in the order BR, MX, CO |
| CountryHeatmap.HeatmapRows | src/components/charts/CountryHeatmap.tsx:31-46 | the shown rows keep country order, each has records, and a country's row is shown exactly when it has records |
| CountryHeatmap.KeptRows | src/components/charts/CountryHeatmap.tsx:45 | dropping empty rows keeps exactly the countries with records |
| CountryHeatmap.AllRowsIndexed | src/components/charts/CountryHeatmap.tsx:32-44 | every row is its own country's row and every country has one |
| CountryHeatmap.HeatmapVolumesSum | src/components/charts/CountryHeatmap.tsx:33-45 | the shown row volumes add up to the number of records |
| CountryHeatmap.HeatmapEmpty | src/components/charts/CountryHeatmap.tsx:45 | no records give no rows |
| MethodBreakdown.RowOf | src/components/charts/PaymentMethodBreakdown.tsx:39-49 | a row counts its method's records, its rate is authorized / volume in [0, 1] and 0 without records, and its name is the method's label |
| MethodBreakdown.AllRows | src/components/charts/PaymentMethodBreakdown.tsx:37-49 | there is one row per method in the order credit card, debit card, PIX, OXXO |
| MethodBreakdown.BreakdownRows | src/components/charts/PaymentMethodBreakdown.tsx:36-51 | the shown rows keep method order, each has records, and a method's row is shown exactly when it has records |
| MethodBreakdown.KeptRows | src/components/charts/PaymentMethodBreakdown.tsx:50 | dropping empty rows keeps exactly the methods with records |
| MethodBreakdown.AllRowsIndexed | src/components/charts/PaymentMethodBreakdown.tsx:37-49 | every row is its own method's row and every method has one |
| MethodBreakdown.BreakdownVolumesSum | src/components/charts/PaymentMethodBreakdown.tsx:38-50 | the shown row volumes add up to the number of records |
| MethodBreakdown.BreakdownEmpty | src/components/charts/PaymentMethodBreakdown.tsx:50 | no records give no rows |

## Left out

- IEEE-754 doubles. Draws, weights, cumulative sums, jitter, the clamp and amounts are exact reals. `Math.round` of an amount is modelled as floor(x * 100 + 1/2) / 100. Float rounding of cumulative weights, for example 0.55 + 0.25 + 0.20 not being exactly 1 in binary, is not modelled.
- `Date` truncation of fractional-minute offsets. A phase record's time is the base date plus startMin minutes plus the integer quotient (i * duration * 60000) / total. The source computes this offset in floating point and truncates it when building the `Date`.
- Lcg.WeightedPick: states membership and the positive-weight facts on exact reals. It does not state the float-level walk.
- Lcg.Pick: requires a non-empty array. On an empty array the source indexes out of bounds and returns `undefined`; `pick` has no caller in the source.
- Generator.GenerateIncidentData: states the structure of the data, not its statistics. "Roughly 50/30/20 countries" and "different seeds give different data" are empirical claims about the drawn values.
- The sort of the incident stream in the store (src/store/dashboard.store.ts:36-38). It is not modelled as an operation. `Generator.IncidentTransactionsWellFormed` proves the generated stream is already sorted by time, so the sort returns it unchanged.
- The titles and descriptions of routing events. They are display text and are not part of the model's event record.
- Display: the bucket `label` (`formatTimeLabel`, which depends on a time-zone database), `formatCurrency`, `formatPercent` and `formatDelta` (`toFixed`/`toLocaleString`, NaN and Infinity). Rendering, colours, class tables and charts are also left out.
- The interval ticker (src/hooks/useSimulation.ts), Zustand's `create`/`set` and selectors, and `useMemo` memoisation. The store is a record with pure transitions, and the hooks are functions of explicit parameters: the clock `now`, the incident start and the baseline rate.
- Store.Advance: the speed and the minute step are integers. The source accepts any number, but the UI only uses 1x, 3x, 5x and whole minutes.
- Store.ApplyPreservesValid: the invariant is proved for admissible actions, meaning a non-negative step and non-empty, duplicate-free lists passed to `setFilters`. The source does not check what `setFilters` receives.
- FilteredData.FilterTransactions: equality with the reference selection is stated for time-sorted input with duplicate-free lists. The source's length shortcuts and binary search rely on exactly these conditions; on other input only the subsequence and emptiness facts are stated.
- The export button and the other components outside the summaries, the bucket range, the event reveal, and the country and method rows.

## Findings

| source | as written | input that shows it | evidently intended | confidence | as-written member | corrected member |
|---|---|---|---|---|---|---|
| src/hooks/useTimeBuckets.ts:29-33 | the range ends at ceil(last / W) * W and the loop runs while t < end, so a last record exactly on a five-minute boundary falls in no bucket | a lone record at 18:00 (the incident start, a five-minute boundary), as when the clock stands at 18:00 with "since incident" selected: zero buckets, though one record is in the window | every record lies in one bucket: the range ends one bucket after floor(last / W) * W | not executed | TimeBuckets.BoundaryRecordDropped, TimeBuckets.LoneBoundaryRecordGivesNoBuckets | TimeBuckets.CoveringPlacesEveryRecord |

=== FILE: aggregates.dfy ===
/** The counting shared by the charts and KPIs: records of a processor, country
    or method, authorized counts, the guarded rate, and the status a processor
    shows (that of its latest record, healthy when it has none). */
module Aggregates {
  import opened Seqs
  import opened Domain

  function IsAuthorized(): Transaction -> bool {
    (t: Transaction) => t.authorized
  }

  function OfProcessor(p: ProcessorId): Transaction -> bool {
    (t: Transaction) => t.processorId == p
  }

  function OfCountry(c: Country): Transaction -> bool {
    (t: Transaction) => t.country == c
  }

  function OfMethod(m: PaymentMethod): Transaction -> bool {
    (t: Transaction) => t.paymentMethod == m
  }

  /** The number of authorized records: never more than there are records. */
  function AuthorizedCount(s: seq<Transaction>): (n: nat)
    ensures n <= |s|
    ensures n == |Keep(s, IsAuthorized())|
  {
    |Keep(s, IsAuthorized())|
  }

  /** `volume > 0 ? authorized / volume : 0`. */
  function Rate(part: nat, whole: nat): (r: real)
    ensures whole == 0 ==> r == 0.0
    ensures whole > 0 ==> r * whole as real == part as real
    ensures part <= whole ==> 0.0 <= r <= 1.0
  {
    if whole > 0 then part as real / whole as real else 0.0
  }

  /** `lastTx?.processorStatus ?? 'healthy'`. */
  function LastStatus(s: seq<Transaction>): ProcessorStatus {
    if |s| > 0 then s[|s| - 1].processorStatus else Healthy
  }

  /** The status a processor shows is that of its latest record in `s`, and
      healthy exactly when it has no record there or its latest one is healthy. */
  lemma LastStatusOfProcessor(s: seq<Transaction>, p: ProcessorId) returns (j: int)
    ensures -1 <= j < |s|
    ensures j == -1 <==> (forall k :: 0 <= k < |s| ==> s[k].processorId != p)
    ensures j == -1 ==> LastStatus(Keep(s, OfProcessor(p))) == Healthy
    ensures j >= 0 ==> s[j].processorId == p && LastStatus(Keep(s, OfProcessor(p))) == s[j].processorStatus
    ensures j >= 0 ==> forall k :: j < k < |s| ==> s[k].processorId != p
  {
    var own := Keep(s, OfProcessor(p));
    KeepEmpty(s, OfProcessor(p));
    if |own| > 0 {
      j := KeepLast(s, OfProcessor(p));
      assert OfProcessor(p)(s[j]);
      assert own[|own| - 1] == s[j];
      forall k | j < k < |s| ensures s[k].processorId != p {
        assert !OfProcessor(p)(s[k]);
      }
    } else {
      j := -1;
      forall k | 0 <= k < |s| ensures s[k].processorId != p {
        assert !OfProcessor(p)(s[k]);
      }
    }
  }

  /** Every record has exactly one processor, so the three volumes add up. */
  lemma {:induction false} ProcessorVolumesSum(s: seq<Transaction>)
    ensures |Keep(s, OfProcessor(ProcessorA))| + |Keep(s, OfProcessor(ProcessorB))| +
            |Keep(s, OfProcessor(ProcessorC))| == |s|
    decreases |s|
  {
    if |s| > 0 {
      ProcessorVolumesSum(s[1..]);
    }
  }

  /** Every record has exactly one country, so the three volumes add up. */
  lemma {:induction false} CountryVolumesSum(s: seq<Transaction>)
    ensures |Keep(s, OfCountry(BR))| + |Keep(s, OfCountry(MX))| + |Keep(s, OfCountry(CO))| == |s|
    decreases |s|
  {
    if |s| > 0 {
      CountryVolumesSum(s[1..]);
    }
  }

  /** Every record has exactly one method, so the four volumes add up. */
  lemma {:induction false} MethodVolumesSum(s: seq<Transaction>)
    ensures |Keep(s, OfMethod(CreditCard))| + |Keep(s, OfMethod(DebitCard))| +
            |Keep(s, OfMethod(Pix))| + |Keep(s, OfMethod(Oxxo))| == |s|
    decreases |s|
  {
    if |s| > 0 {
      MethodVolumesSum(s[1..]);
    }
  }

  /** The counts of one processor, country or method: its records, how many
      were authorized, and the guarded rate. */
  datatype Tally = Tally(volume: nat, authorized: nat, authRate: real)

  function TallyOf(s: seq<Transaction>, p: Transaction -> bool): (t: Tally)
    ensures t.volume == |Keep(s, p)|
    ensures t.authorized <= t.volume
    ensures t.authorized == |Keep(Keep(s, p), IsAuthorized())|
    ensures 0.0 <= t.authRate <= 1.0
    ensures t.volume > 0 ==> t.authRate == t.authorized as real / t.volume as real
    ensures t.volume == 0 ==> t.authRate == 0.0
  {
    var recs := Keep(s, p);
    var authorized := AuthorizedCount(recs);
    Tally(|recs|, authorized, Rate(authorized, |recs|))
  }
}

=== FILE: country_heatmap.dfy ===
/** The per-country breakdown of the filtered records: one row per country in
    BR, MX, CO order, dropped when the country has no records, each with its
    volume, authorization rate and fixed regional baseline. */
module CountryHeatmap {
  import opened Seqs
  import opened Domain
  import opened Aggregates

  datatype CountryRow = CountryRow(country: Country, authRate: real, baseline: real, volume: nat)

  /** The regional baseline shown next to each country (BASELINE_AUTH). */
  function CountryBaseline(c: Country): real {
    match c
    case BR => 0.94
    case MX => 0.94
    case CO => 0.93
  }

  function RowOf(txs: seq<Transaction>, c: Country): (r: CountryRow)
    ensures r.country == c
    ensures r.volume == |Keep(txs, OfCountry(c))|
    ensures 0.0 <= r.authRate <= 1.0
    ensures r.volume == 0 ==> r.authRate == 0.0
    ensures r.volume > 0 ==> r.authRate == |Keep(Keep(txs, OfCountry(c)), IsAuthorized())| as real / r.volume as real
    ensures r.baseline == CountryBaseline(c)
  {
    var tally := TallyOf(txs, OfCountry(c));
    CountryRow(c, tally.authRate, CountryBaseline(c), tally.volume)
  }

  /** The display order of the rows. */
  const COUNTRIES: seq<Country> := [BR, MX, CO]

  /** Every row in display order, before empty ones are dropped. */
  function AllRows(txs: seq<Transaction>): (all: seq<CountryRow>)
    ensures |all| == |COUNTRIES|
    ensures forall i :: 0 <= i < |all| ==> all[i] == RowOf(txs, COUNTRIES[i])
  {
    seq(|COUNTRIES|, i requires 0 <= i < |COUNTRIES| => RowOf(txs, COUNTRIES[i]))
  }

  function HasVolume(): CountryRow -> bool {
    (r: CountryRow) => r.volume > 0
  }

  /** The heatmap `data`: the rows with records, in country order. */
  function HeatmapRows(txs: seq<Transaction>): (rows: seq<CountryRow>)
    ensures IsSubsequence(rows, AllRows(txs))
    ensures forall i :: 0 <= i < |rows| ==> rows[i].volume > 0 && rows[i] == RowOf(txs, rows[i].country)
    ensures forall c :: RowOf(txs, c) in rows <==> |Keep(txs, OfCountry(c))| > 0
  {
    KeepIsSubsequence(AllRows(txs), HasVolume());
    KeptRows(txs);
    Keep(AllRows(txs), HasVolume())
  }

  lemma KeptRows(txs: seq<Transaction>)
    ensures forall i :: 0 <= i < |Keep(AllRows(txs), HasVolume())| ==>
      Keep(AllRows(txs), HasVolume())[i] == RowOf(txs, Keep(AllRows(txs), HasVolume())[i].country)
    ensures forall c :: RowOf(txs, c) in Keep(AllRows(txs), HasVolume()) <==> |Keep(txs, OfCountry(c))| > 0
  {
    AllRowsIndexed(txs);
    KeepIndexed(AllRows(txs), c => RowOf(txs, c), (r: CountryRow) => r.country, HasVolume());
  }

  /** Every entry of `AllRows` is its country's row, and every country has one. */
  lemma AllRowsIndexed(txs: seq<Transaction>)
    ensures forall i :: 0 <= i < |AllRows(txs)| ==> AllRows(txs)[i] == RowOf(txs, AllRows(txs)[i].country)
    ensures forall c :: RowOf(txs, c) in AllRows(txs)
  {
    var all := AllRows(txs);
    forall c
      ensures RowOf(txs, c) in all
    {
      match c
      case BR => assert all[0] == RowOf(txs, c);
      case MX => assert all[1] == RowOf(txs, c);
      case CO => assert all[2] == RowOf(txs, c);
    }
  }

  function RowVolume(r: CountryRow): int {
    r.volume
  }

  /** The rows account for every record once. */
  lemma HeatmapVolumesSum(txs: seq<Transaction>)
    ensures SumOf(HeatmapRows(txs), RowVolume) == |txs|
  {
    var all := AllRows(txs);
    assert all[0] == RowOf(txs, BR) && all[1] == RowOf(txs, MX) && all[2] == RowOf(txs, CO);
    CountryVolumesSum(txs);
    SumOfThree(all, RowVolume);
    SumKeepPositive(all, RowVolume, HasVolume());
  }

  /** No records, no rows. */
  lemma HeatmapEmpty(txs: seq<Transaction>)
    requires |txs| == 0
    ensures HeatmapRows(txs) == []
  {
    KeepEmpty(AllRows(txs), HasVolume());
  }
}

=== FILE: decimal.dfy ===
/** Decimal rendering of naturals (JavaScript's `${n}` for a non-negative
    integer) and the `split`/`join` string operations, with the facts that
    make rendered ids and durations readable back. */
module Decimal {

  predicate IsDigit(c: char) {
    '0' <= c <= '9'
  }

  predicate AllDigits(s: string) {
    forall i :: 0 <= i < |s| ==> IsDigit(s[i])
  }

  function DigitChar(d: nat): (c: char)
    requires d < 10
    ensures IsDigit(c)
  {
    "0123456789"[d]
  }

  function DigitValue(c: char): (d: nat)
    requires IsDigit(c)
    ensures d < 10
  {
    (c as int - '0' as int) as nat
  }

  /** Decimal notation of `n`, most significant digit first, no leading zero. */
  function NatToString(n: nat): (r: string)
    ensures |r| > 0 && AllDigits(r)
    ensures |r| > 1 ==> r[0] != '0'
  {
    if n < 10 then [DigitChar(n)] else NatToString(n / 10) + [DigitChar(n % 10)]
  }

  /** The number a string of digits denotes (the reading direction of `NatToString`). */
  function DigitsValue(s: string): nat
    requires AllDigits(s)
  {
    if |s| == 0 then 0 else 10 * DigitsValue(s[..|s| - 1]) + DigitValue(s[|s| - 1])
  }

  lemma {:induction false} NatToStringRoundTrip(n: nat)
    ensures DigitsValue(NatToString(n)) == n
    decreases n
  {
    var s := NatToString(n);
    if n >= 10 {
      NatToStringRoundTrip(n / 10);
      assert s[..|s| - 1] == NatToString(n / 10);
    }
  }

  lemma NatToStringInjective(m: nat, n: nat)
    ensures NatToString(m) == NatToString(n) ==> m == n
  {
    NatToStringRoundTrip(m);
    NatToStringRoundTrip(n);
  }

  /** Ids of the form `prefix` followed by a number are distinct for distinct numbers. */
  lemma PrefixedInjective(prefix: string, m: nat, n: nat)
    ensures prefix + NatToString(m) == prefix + NatToString(n) ==> m == n
  {
    if prefix + NatToString(m) == prefix + NatToString(n) {
      assert NatToString(m) == (prefix + NatToString(m))[|prefix|..];
      assert NatToString(n) == (prefix + NatToString(n))[|prefix|..];
      NatToStringInjective(m, n);
    }
  }

  /** `parts.join(sep)`. */
  function Join(parts: seq<string>, sep: char): string
  {
    if |parts| == 0 then ""
    else if |parts| == 1 then parts[0]
    else parts[0] + [sep] + Join(parts[1..], sep)
  }

  /** `s.split(sep)`: the maximal separator-free pieces; the empty string gives `[""]`. */
  function Split(s: string, sep: char): (r: seq<string>)
    ensures |r| > 0
    decreases |s|
  {
    if |s| == 0 then [""]
    else
      var rest := Split(s[1..], sep);
      if s[0] == sep then [""] + rest else [[s[0]] + rest[0]] + rest[1..]
  }

  lemma {:induction false} SplitNoSeparator(s: string, sep: char)
    requires sep !in s
    ensures Split(s, sep) == [s]
    decreases |s|
  {
    if |s| > 0 {
      SplitNoSeparator(s[1..], sep);
      assert [s[0]] + s[1..] == s;
    }
  }

  lemma {:induction false} SplitAtSeparator(p: string, sep: char, rest: string)
    requires sep !in p
    ensures Split(p + [sep] + rest, sep) == [p] + Split(rest, sep)
    decreases |p|
  {
    if |p| == 0 {
      assert p + [sep] + rest == [sep] + rest;
      assert ([sep] + rest)[1..] == rest;
    } else {
      SplitAtSeparator(p[1..], sep, rest);
      assert (p + [sep] + rest)[1..] == p[1..] + [sep] + rest;
      assert [p[0]] + p[1..] == p;
    }
  }

  /** Splitting and joining again gives the string back. */
  lemma {:induction false} JoinSplit(s: string, sep: char)
    ensures Join(Split(s, sep), sep) == s
    decreases |s|
  {
    if |s| > 0 {
      JoinSplit(s[1..], sep);
      var rest := Split(s[1..], sep);
      if s[0] == sep {
        assert Join([""] + rest, sep) == "" + [sep] + Join(rest, sep);
        assert [s[0]] + s[1..] == s;
      } else {
        var r := [[s[0]] + rest[0]] + rest[1..];
        if |rest| == 1 {
          assert Join(r, sep) == [s[0]] + rest[0];
        } else {
          assert r[1..] == rest[1..];
          assert Join(r, sep) == [s[0]] + rest[0] + [sep] + Join(rest[1..], sep);
        }
        assert [s[0]] + s[1..] == s;
      }
    }
  }

  /** Joining separator-free pieces and splitting again gives the pieces back. */
  lemma {:induction false} SplitJoin(parts: seq<string>, sep: char)
    requires |parts| > 0
    requires forall i :: 0 <= i < |parts| ==> sep !in parts[i]
    ensures Split(Join(parts, sep), sep) == parts
    decreases |parts|
  {
    if |parts| == 1 {
      SplitNoSeparator(parts[0], sep);
    } else {
      SplitJoin(parts[1..], sep);
      SplitAtSeparator(parts[0], sep, Join(parts[1..], sep));
    }
  }
}

=== FILE: domain.dfy ===
/** The data model of the incident dashboard: processors, countries, payment
    methods, generation phases, transactions, routing events, the incident,
    the filter selection and the fixed instants of the scenario.
    Instants are integer milliseconds since the Unix epoch. */
module Domain {
  import opened Seqs

  datatype ProcessorId = ProcessorA | ProcessorB | ProcessorC

  datatype ProcessorStatus = Healthy | Degraded | Down

  datatype Country = BR | MX | CO

  datatype PaymentMethod = CreditCard | DebitCard | Pix | Oxxo

  datatype TransactionPhase = PreIncident | IncidentStart | Rerouting | Stabilized | Recovery

  /** One payment attempt; `amount` is in US dollars. */
  datatype Transaction = Transaction(
    id: string,
    timestamp: int,
    processorId: ProcessorId,
    processorStatus: ProcessorStatus,
    country: Country,
    paymentMethod: PaymentMethod,
    amount: real,
    authorized: bool,
    isBaseline: bool,
    phase: TransactionPhase)

  datatype RoutingEventType =
    | AuthRateDrop
    | AlertTriggered
    | FailoverInitiated
    | TrafficRerouted
    | ProcessorDownEvent
    | RecoverySignal
    | TrafficRestored
    | SystemRecovered

  datatype Severity = Critical | Warning | Info | Success

  /** A routing event; its title and description are display text and are not modelled. */
  datatype RoutingEvent = RoutingEvent(id: string, timestamp: int, eventType: RoutingEventType, severity: Severity)

  datatype Incident = Incident(id: string, startTime: int, baselineAuthRate: real, events: seq<RoutingEvent>)

  datatype TimePeriod = Last15Min | LastHour | SinceIncident

  datatype DashboardFilters = DashboardFilters(
    timePeriod: TimePeriod,
    countries: seq<Country>,
    paymentMethods: seq<PaymentMethod>)

  datatype GeneratedData = GeneratedData(
    transactions: seq<Transaction>,
    baselineTransactions: seq<Transaction>,
    incident: Incident,
    seed: int)

  const MS_PER_MINUTE: int := 60000

  /** 2024-11-15T17:00-03:00. */
  const BASE_DATE: int := 1731700800000

  function MinutesAfterBase(minutes: int): int {
    BASE_DATE + minutes * MS_PER_MINUTE
  }

  const INCIDENT_START_OFFSET: int := 60

  /** 18:00 local time, one hour after the base date. */
  const INCIDENT_START: int := MinutesAfterBase(INCIDENT_START_OFFSET)

  /** The pre-incident authorization rate of each processor (BASELINE_AUTH_RATES). */
  function BaselineAuthRate(p: ProcessorId): real {
    match p
    case ProcessorA => 0.94
    case ProcessorB => 0.89
    case ProcessorC => 0.81
  }

  /** The country constraint on payment methods: PIX is Brazilian, OXXO Mexican,
      cards are accepted everywhere. */
  predicate MethodAllowedIn(m: PaymentMethod, c: Country) {
    match m
    case Pix => c == BR
    case Oxxo => c == MX
    case _ => true
  }

  function TimestampOf(t: Transaction): int {
    t.timestamp
  }

  predicate SortedByTime(s: seq<Transaction>) {
    SortedBy(s, TimestampOf)
  }
}

=== FILE: filtered_data.dfy ===
/** The filtered transaction slice (`useFilteredData`): a binary-search cutoff
    at the simulated clock, then the time-period window, then the country and
    payment-method selections. The clock, the filters and the sorted transaction
    list are parameters. */
module FilteredData {
  import opened Seqs
  import opened Domain
  import opened Utils

  /** The start of the selected time period, relative to the clock `now`. */
  function WindowStart(period: TimePeriod, now: int): (w: int)
    ensures period == Last15Min ==> w == now - 15 * MS_PER_MINUTE
    ensures period == LastHour ==> w == now - 60 * MS_PER_MINUTE
    ensures period == SinceIncident ==> w == INCIDENT_START
  {
    match period
    case Last15Min => now - 15 * MS_PER_MINUTE
    case LastHour => now - 60 * MS_PER_MINUTE
    case SinceIncident => INCIDENT_START
  }

  /** The reference definition: a record is shown when it happened at or before
      the clock, inside the selected period, in a selected country and with a
      selected payment method. */
  predicate Selected(t: Transaction, now: int, f: DashboardFilters) {
    && t.timestamp <= now
    && t.timestamp >= WindowStart(f.timePeriod, now)
    && t.country in f.countries
    && t.paymentMethod in f.paymentMethods
  }

  function SelectedBy(now: int, f: DashboardFilters): Transaction -> bool {
    t => Selected(t, now, f)
  }

  function AtOrBefore(now: int): Transaction -> bool {
    (t: Transaction) => t.timestamp <= now
  }

  function NotBefore(start: int): Transaction -> bool {
    (t: Transaction) => t.timestamp >= start
  }

  function InCountries(cs: seq<Country>): Transaction -> bool {
    (t: Transaction) => t.country in cs
  }

  function InMethods(ms: seq<PaymentMethod>): Transaction -> bool {
    (t: Transaction) => t.paymentMethod in ms
  }

  /** On records sorted by time, the ones at or before any instant form a prefix. */
  lemma SortedPrefixTrue(all: seq<Transaction>, now: int)
    requires SortedByTime(all)
    ensures PrefixTrue(all, AtOrBefore(now))
  {
    forall i, j | 0 <= i < j < |all| && AtOrBefore(now)(all[j])
      ensures AtOrBefore(now)(all[i])
    {
      assert TimestampOf(all[i]) <= TimestampOf(all[j]);
    }
  }

  /** Step 1: the records up to the last one at or before `now`, found by binary
      search. On sorted input this is exactly the records at or before `now`. */
  method TimeSlice(all: seq<Transaction>, now: int) returns (s: seq<Transaction>)
    ensures |s| <= |all| && s == all[..|s|]
    ensures SortedByTime(all) ==> s == Keep(all, AtOrBefore(now))
  {
    var cutoff := UpperBoundIndex(all, AtOrBefore(now));
    if cutoff == -1 {
      s := [];
    } else {
      s := all[..cutoff + 1];
    }
    if SortedByTime(all) {
      SortedPrefixTrue(all, now);
      KeepPrefix(all, AtOrBefore(now), cutoff + 1);
      assert all[..cutoff + 1] == s || cutoff == -1;
    }
  }

  /** Step 2 as written: both branches of the source keep the records at or
      after the window start. */
  function WindowFilter(recs: seq<Transaction>, f: DashboardFilters, now: int): seq<Transaction> {
    if f.timePeriod == SinceIncident then Keep(recs, NotBefore(INCIDENT_START))
    else Keep(recs, NotBefore(WindowStart(f.timePeriod, now)))
  }

  /** Step 3 as written: a list of three countries is taken to mean all of them. */
  function CountryFilter(recs: seq<Transaction>, cs: seq<Country>): seq<Transaction> {
    if |cs| == 3 then recs else Keep(recs, InCountries(cs))
  }

  /** Step 4 as written: a list of four methods is taken to mean all of them. */
  function MethodFilter(recs: seq<Transaction>, ms: seq<PaymentMethod>): seq<Transaction> {
    if |ms| == 4 then recs else Keep(recs, InMethods(ms))
  }

  /** Three distinct countries are all the countries. */
  lemma ThreeDistinctCountries(cs: seq<Country>)
    requires |cs| == 3 && NoDup(cs)
    ensures forall c: Country :: c in cs
  {
    forall c: Country
      ensures c in cs
    {
      assert cs[0] != cs[1] && cs[0] != cs[2] && cs[1] != cs[2];
      match c
      case BR =>
      case MX =>
      case CO =>
    }
  }

  /** Four distinct methods are all the methods. */
  lemma FourDistinctMethods(ms: seq<PaymentMethod>)
    requires |ms| == 4 && NoDup(ms)
    ensures forall m: PaymentMethod :: m in ms
  {
    forall m: PaymentMethod
      ensures m in ms
    {
      assert ms[0] != ms[1] && ms[0] != ms[2] && ms[0] != ms[3];
      assert ms[1] != ms[2] && ms[1] != ms[3] && ms[2] != ms[3];
      match m
      case CreditCard =>
      case DebitCard =>
      case Pix =>
      case Oxxo =>
    }
  }

  /** Filtering by a predicate every record satisfies changes nothing. */
  lemma KeepAll<T>(s: seq<T>, p: T -> bool)
    requires forall i :: 0 <= i < |s| ==> p(s[i])
    ensures Keep(s, p) == s
  {
    KeepPrefix(s, p, |s|);
    assert s[..|s|] == s;
  }

  /** With duplicate-free selections the length shortcuts agree with filtering
      by membership. */
  lemma ShortcutsAreMembership(recs: seq<Transaction>, f: DashboardFilters)
    requires NoDup(f.countries) && NoDup(f.paymentMethods)
    ensures CountryFilter(recs, f.countries) == Keep(recs, InCountries(f.countries))
    ensures MethodFilter(recs, f.paymentMethods) == Keep(recs, InMethods(f.paymentMethods))
  {
    if |f.countries| == 3 {
      ThreeDistinctCountries(f.countries);
      KeepAll(recs, InCountries(f.countries));
    }
    if |f.paymentMethods| == 4 {
      FourDistinctMethods(f.paymentMethods);
      KeepAll(recs, InMethods(f.paymentMethods));
    }
  }

  /** A repeated entry defeats the shortcut: [BR, BR, MX] has length three yet
      does not select Colombia, and the filter still shows Colombian records. */
  lemma DuplicateDefeatsShortcut(t: Transaction)
    requires t.country == CO
    ensures CountryFilter([t], [BR, BR, MX]) == [t]
    ensures Keep([t], InCountries([BR, BR, MX])) == []
  {
  }

  /** `useFilteredData`: the whole pipeline with its early returns. */
  method FilterTransactions(all: seq<Transaction>, now: int, f: DashboardFilters) returns (r: seq<Transaction>)
    ensures IsSubsequence(r, all)
    ensures SortedByTime(all) ==> SortedByTime(r)
    ensures |all| == 0 ==> r == []
    ensures SortedByTime(all) && NoDup(f.countries) && NoDup(f.paymentMethods) ==>
      r == Keep(all, SelectedBy(now, f))
    ensures SortedByTime(all) && NoDup(f.countries) && NoDup(f.paymentMethods) ==>
      (forall i :: 0 <= i < |r| ==> Selected(r[i], now, f)) &&
      (forall i :: 0 <= i < |all| && Selected(all[i], now, f) ==> all[i] in r)
  {
    if |all| == 0 {
      return [];
    }
    var timeSliced := TimeSlice(all, now);
    if |timeSliced| == 0 {
      r := [];
    } else {
      var windowFiltered := WindowFilter(timeSliced, f, now);
      if |windowFiltered| == 0 {
        r := [];
      } else {
        var countryFiltered := CountryFilter(windowFiltered, f.countries);
        if |countryFiltered| == 0 {
          r := [];
        } else {
          r := MethodFilter(countryFiltered, f.paymentMethods);
        }
      }
    }
    PipelineFacts(all, timeSliced, now, f);
    if |timeSliced| > 0 && |WindowFilter(timeSliced, f, now)| > 0 &&
       |CountryFilter(WindowFilter(timeSliced, f, now), f.countries)| > 0 {
      assert r == Pipeline(timeSliced, f, now);
    } else {
      EmptyStagesGiveEmpty(timeSliced, f, now);
      assert r == [];
    }
  }

  /** Steps 2 to 4 without the early returns. */
  function Pipeline(timeSliced: seq<Transaction>, f: DashboardFilters, now: int): seq<Transaction> {
    MethodFilter(CountryFilter(WindowFilter(timeSliced, f, now), f.countries), f.paymentMethods)
  }

  /** The early returns return what the remaining steps would have produced. */
  lemma EmptyStagesGiveEmpty(timeSliced: seq<Transaction>, f: DashboardFilters, now: int)
    requires |timeSliced| == 0 || |WindowFilter(timeSliced, f, now)| == 0 ||
      |CountryFilter(WindowFilter(timeSliced, f, now), f.countries)| == 0
    ensures Pipeline(timeSliced, f, now) == []
  {
  }

  lemma PipelineFacts(all: seq<Transaction>, timeSliced: seq<Transaction>, now: int, f: DashboardFilters)
    requires |timeSliced| <= |all| && timeSliced == all[..|timeSliced|]
    requires SortedByTime(all) ==> timeSliced == Keep(all, AtOrBefore(now))
    ensures IsSubsequence(Pipeline(timeSliced, f, now), all)
    ensures SortedByTime(all) ==> SortedByTime(Pipeline(timeSliced, f, now))
    ensures SortedByTime(all) && NoDup(f.countries) && NoDup(f.paymentMethods) ==>
      Pipeline(timeSliced, f, now) == Keep(all, SelectedBy(now, f))
  {
    PipelineSubsequence(all, timeSliced, now, f);
    if SortedByTime(all) {
      SubsequenceSorted(Pipeline(timeSliced, f, now), all, TimestampOf);
      if NoDup(f.countries) && NoDup(f.paymentMethods) {
        PipelineSelects(all, now, f);
      }
    }
  }

  /** Every stage only deletes records. */
  lemma PipelineSubsequence(all: seq<Transaction>, timeSliced: seq<Transaction>, now: int, f: DashboardFilters)
    requires |timeSliced| <= |all| && timeSliced == all[..|timeSliced|]
    ensures IsSubsequence(Pipeline(timeSliced, f, now), all)
  {
    var ws := WindowStart(f.timePeriod, now);
    var w := WindowFilter(timeSliced, f, now);
    var c := CountryFilter(w, f.countries);
    var m := MethodFilter(c, f.paymentMethods);
    assert w == Keep(timeSliced, NotBefore(ws));
    PrefixIsSubsequence(all, |timeSliced|);
    KeepIsSubsequence(timeSliced, NotBefore(ws));
    SubsequenceTrans(w, timeSliced, all);
    if |f.countries| != 3 {
      KeepIsSubsequence(w, InCountries(f.countries));
      SubsequenceTrans(c, w, all);
    }
    if |f.paymentMethods| != 4 {
      KeepIsSubsequence(c, InMethods(f.paymentMethods));
      SubsequenceTrans(m, c, all);
    }
  }

  /** After the exact time cutoff, the stages filter by the reference predicate. */
  lemma PipelineSelects(all: seq<Transaction>, now: int, f: DashboardFilters)
    requires NoDup(f.countries) && NoDup(f.paymentMethods)
    ensures Pipeline(Keep(all, AtOrBefore(now)), f, now) == Keep(all, SelectedBy(now, f))
  {
    var ws := WindowStart(f.timePeriod, now);
    var w := Keep(Keep(all, AtOrBefore(now)), NotBefore(ws));
    assert WindowFilter(Keep(all, AtOrBefore(now)), f, now) == w;
    ShortcutsAreMembership(w, f);
    var c := Keep(w, InCountries(f.countries));
    ShortcutsAreMembership(c, f);
    assert Pipeline(Keep(all, AtOrBefore(now)), f, now) == Keep(c, InMethods(f.paymentMethods));
    StagesSelect(all, now, f);
  }

  /** The four filters in sequence keep exactly the selected records. */
  lemma StagesSelect(all: seq<Transaction>, now: int, f: DashboardFilters)
    ensures Keep(Keep(Keep(Keep(all, AtOrBefore(now)), NotBefore(WindowStart(f.timePeriod, now))),
      InCountries(f.countries)), InMethods(f.paymentMethods)) == Keep(all, SelectedBy(now, f))
  {
    var ws := WindowStart(f.timePeriod, now);
    var p1 := (t: Transaction) => AtOrBefore(now)(t) && NotBefore(ws)(t);
    var p2 := (t: Transaction) => p1(t) && InCountries(f.countries)(t);
    var p3 := (t: Transaction) => p2(t) && InMethods(f.paymentMethods)(t);
    KeepKeep(all, AtOrBefore(now), NotBefore(ws), p1);
    KeepKeep(all, p1, InCountries(f.countries), p2);
    KeepKeep(all, p2, InMethods(f.paymentMethods), p3);
    KeepAgree(all, p3, SelectedBy(now, f));
  }
}

=== FILE: generator.dfy ===
/** The deterministic scenario generator: the five incident phases, the
    country and payment-method tables, per-phase transaction synthesis, the
    24-hour baseline stream, the fixed routing events and the assembled data
    set. Every draw threads the generator state explicitly, in the order the
    original draws: processor, country, method, jitter, authorization (only
    when the processor's rate is positive), amount. */
module Generator {
  import opened Seqs
  import opened Decimal
  import opened Domain
  import opened Lcg

  /** A number per processor (`Record<ProcessorId, number>`). */
  datatype Shares = Shares(a: real, b: real, c: real) {
    function Of(p: ProcessorId): real {
      match p
      case ProcessorA => a
      case ProcessorB => b
      case ProcessorC => c
    }

    /** The values in the insertion order of the record's keys. */
    function AsWeights(): (w: seq<real>)
      ensures |w| == |TRAFFIC_ORDER|
      ensures forall k :: 0 <= k < |w| ==> w[k] == Of(TRAFFIC_ORDER[k])
    {
      [a, b, c]
    }
  }

  /** A health status per processor. */
  datatype Statuses = Statuses(a: ProcessorStatus, b: ProcessorStatus, c: ProcessorStatus) {
    function Of(p: ProcessorId): ProcessorStatus {
      match p
      case ProcessorA => a
      case ProcessorB => b
      case ProcessorC => c
    }
  }

  /** `Object.keys(phase.traffic)`: processors in the order the tables list them. */
  const TRAFFIC_ORDER: seq<ProcessorId> := [ProcessorA, ProcessorB, ProcessorC]

  /** One phase of the scenario; minutes are offsets from the base date. */
  datatype PhaseConfig = PhaseConfig(
    phase: TransactionPhase,
    startMin: int,
    endMin: int,
    txPerMin: nat,
    traffic: Shares,
    authRate: Shares,
    processorStatus: Statuses)

  /** The configuration of each phase (the PHASES table). */
  function PhaseFor(tag: TransactionPhase): (p: PhaseConfig)
    ensures p.phase == tag
  {
    match tag
    case PreIncident =>
      PhaseConfig(PreIncident, 0, 60, 5,
        Shares(1.0, 0.0, 0.0), Shares(0.94, 0.0, 0.0),
        Statuses(Healthy, Healthy, Healthy))
    case IncidentStart =>
      PhaseConfig(IncidentStart, 60, 65, 6,
        Shares(0.55, 0.25, 0.20), Shares(0.28, 0.82, 0.75),
        Statuses(Degraded, Healthy, Healthy))
    case Rerouting =>
      PhaseConfig(Rerouting, 65, 80, 6,
        Shares(0.10, 0.55, 0.35), Shares(0.08, 0.87, 0.79),
        Statuses(Degraded, Healthy, Healthy))
    case Stabilized =>
      PhaseConfig(Stabilized, 80, 180, 5,
        Shares(0.0, 0.58, 0.42), Shares(0.0, 0.89, 0.81),
        Statuses(Down, Healthy, Healthy))
    case Recovery =>
      PhaseConfig(Recovery, 180, 240, 5,
        Shares(0.35, 0.40, 0.25), Shares(0.93, 0.89, 0.81),
        Statuses(Healthy, Healthy, Healthy))
  }

  /** The phases in the order they are generated. */
  function Phases(): seq<PhaseConfig> {
    [PhaseFor(PreIncident), PhaseFor(IncidentStart), PhaseFor(Rerouting),
     PhaseFor(Stabilized), PhaseFor(Recovery)]
  }

  /** Each phase ends no earlier than it starts and no later than any later phase starts. */
  predicate Chained(ps: seq<PhaseConfig>) {
    (forall i :: 0 <= i < |ps| ==> ps[i].startMin <= ps[i].endMin) &&
    (forall i, j :: 0 <= i < j < |ps| ==> ps[i].endMin <= ps[j].startMin)
  }

  /** Every phase is the table entry for its own tag. */
  predicate FromTable(ps: seq<PhaseConfig>) {
    forall i :: 0 <= i < |ps| ==> ps[i] == PhaseFor(ps[i].phase)
  }

  /** The phase table covers minutes 0 to 240 without overlap, and each phase's
      traffic shares sum to exactly 1. */
  lemma PhaseTableWellFormed()
    ensures |Phases()| == 5 && Chained(Phases()) && FromTable(Phases())
    ensures Phases()[0].startMin == 0 && Phases()[4].endMin == 240
    ensures forall i :: 0 <= i < |Phases()| ==> Total(Phases()[i].traffic.AsWeights()) == 1.0
  {
    var ps := Phases();
    forall i | 0 <= i < |ps|
      ensures Total(ps[i].traffic.AsWeights()) == 1.0
    {
      SharesSumToOne(ps[i].phase);
    }
  }

  lemma SharesSumToOne(ph: TransactionPhase)
    ensures Total(PhaseFor(ph).traffic.AsWeights()) == 1.0
  {
    TotalOfThree(PhaseFor(ph).traffic.AsWeights());
  }

  const COUNTRIES: seq<Country> := [BR, MX, CO]
  const COUNTRY_WEIGHTS: seq<real> := [0.50, 0.30, 0.20]

  /** The payment methods offered in a country, in table order. */
  function MethodsOf(c: Country): seq<PaymentMethod> {
    match c
    case BR => [Pix, CreditCard, DebitCard]
    case MX => [Oxxo, CreditCard, DebitCard]
    case CO => [CreditCard, DebitCard]
  }

  function MethodWeightsOf(c: Country): seq<real> {
    match c
    case BR => [0.15, 0.52, 0.33]
    case MX => [0.20, 0.52, 0.28]
    case CO => [0.60, 0.40]
  }

  /** The country and method tables are weight vectors summing to exactly 1,
      and a country's list holds only methods accepted there. */
  lemma DistributionTablesWellFormed(c: Country)
    ensures |COUNTRY_WEIGHTS| == |COUNTRIES| && Total(COUNTRY_WEIGHTS) == 1.0
    ensures |MethodWeightsOf(c)| == |MethodsOf(c)| > 0 && Total(MethodWeightsOf(c)) == 1.0
    ensures forall k :: 0 <= k < |MethodsOf(c)| ==> MethodAllowedIn(MethodsOf(c)[k], c)
  {
    TotalOfThree(COUNTRY_WEIGHTS);
    var w := MethodWeightsOf(c);
    if c == CO {
      TotalOfTwo(w);
    } else {
      TotalOfThree(w);
    }
  }

  /** `pickPaymentMethod`: a weighted draw from the country's own method list. */
  function PickPaymentMethod(c: Country, g: Rng): (r: Sample<PaymentMethod>)
    ensures r.value in MethodsOf(c)
    ensures MethodAllowedIn(r.value, c)
    ensures r.rng == Next(g).rng
  {
    WeightedPick(g, MethodsOf(c), MethodWeightsOf(c))
  }

  /** Average ticket size in US dollars (AVG_AMOUNT). */
  function AvgAmount(m: PaymentMethod): real {
    match m
    case CreditCard => 85.0
    case DebitCard => 52.0
    case Pix => 45.0
    case Oxxo => 30.0
  }

  /** `Math.round(x * 100) / 100`, with `Math.round(y)` = floor(y + 1/2): a
      whole number of cents within half a cent of `x` (by `RoundCentsUnique`,
      the only one, ties going up). */
  function RoundCents(x: real): (r: real)
    ensures x - 0.005 < r <= x + 0.005
    ensures (r * 100.0).Floor as real == r * 100.0
  {
    (x * 100.0 + 0.5).Floor as real / 100.0
  }

  /** A whole number of cents `c / 100` in (x - 0.005, x + 0.005] is `RoundCents(x)`. */
  lemma RoundCentsUnique(x: real, c: int)
    requires x - 0.005 < c as real / 100.0 <= x + 0.005
    ensures RoundCents(x) == c as real / 100.0
  {
    var k := (x * 100.0 + 0.5).Floor;
    assert x * 100.0 - 0.5 < c as real <= x * 100.0 + 0.5;
    assert k as real <= x * 100.0 + 0.5 < k as real + 1.0;
    assert k == c;
  }

  /** The amount drawn from `u`: the method's average scaled by 0.7 + 0.6u, to the cent. */
  function Amount(m: PaymentMethod, u: real): (r: real)
    requires 0.0 <= u < 1.0
    ensures 0.7 * AvgAmount(m) - 0.005 < r <= 1.3 * AvgAmount(m) + 0.005
    ensures (r * 100.0).Floor as real == r * 100.0
    ensures r > 0.0
  {
    var avg := AvgAmount(m);
    AmountFactorBounds(avg, u);
    RoundCents(avg * (0.7 + u * 0.6))
  }

  lemma AmountFactorBounds(avg: real, u: real)
    requires avg > 0.0 && 0.0 <= u < 1.0
    ensures 0.7 * avg <= avg * (0.7 + u * 0.6) < 1.3 * avg
  {
    assert avg * (0.7 + u * 0.6) == 0.7 * avg + 0.6 * (avg * u);
    assert 0.0 <= avg * u < avg;
  }

  /** `Math.max(0, Math.min(1, x))`. */
  function Clamp01(x: real): (r: real)
    ensures 0.0 <= r <= 1.0
    ensures 0.0 <= x <= 1.0 ==> r == x
  {
    if x < 0.0 then 0.0 else if x > 1.0 then 1.0 else x
  }

  /** The ±3% authorization jitter drawn from `u`. */
  function Jitter(u: real): (j: real)
    requires 0.0 <= u < 1.0
    ensures -0.03 <= j < 0.03
  {
    (u - 0.5) * 0.06
  }

  /** The authorization outcome: no draw at all when the rate is not positive,
      otherwise a draw compared with the jittered rate clamped to [0, 1]. */
  function Authorize(baseRate: real, jitter: real, g: Rng): (r: Sample<bool>)
    ensures baseRate <= 0.0 ==> !r.value && r.rng == g
    ensures baseRate > 0.0 ==> r.rng == Next(g).rng
    ensures baseRate > 0.0 && baseRate + jitter >= 1.0 ==> r.value
    ensures baseRate + jitter <= 0.0 ==> !r.value
  {
    if baseRate > 0.0 then
      var v := Next(g);
      Sample(v.value < Clamp01(baseRate + jitter), v.rng)
    else
      Sample(false, g)
  }

  /** The record-level guarantees of a phase's transaction, apart from id and time. */
  predicate PhaseShape(p: PhaseConfig, tx: Transaction) {
    && tx.phase == p.phase
    && !tx.isBaseline
    && tx.processorStatus == p.processorStatus.Of(tx.processorId)
    && MethodAllowedIn(tx.paymentMethod, tx.country)
    && (p.authRate.Of(tx.processorId) <= 0.0 ==> !tx.authorized)
    && tx.amount > 0.0
    && (Total(p.traffic.AsWeights()) == 1.0 ==> p.traffic.Of(tx.processorId) > 0.0)
  }

  /** With traffic shares summing to 1, the drawn processor has a positive share. */
  lemma TrafficPickPositive(g: Rng, traffic: Shares)
    requires Total(traffic.AsWeights()) == 1.0
    ensures traffic.Of(WeightedPick(g, TRAFFIC_ORDER, traffic.AsWeights()).value) > 0.0
  {
    var k := PickedItemHasWeight(g, TRAFFIC_ORDER, traffic.AsWeights());
  }

  /** One transaction of a phase, with the draws in the original order. */
  function GenTransaction(p: PhaseConfig, g: Rng, id: string, ts: int): (r: Sample<Transaction>)
    ensures r.value.id == id && r.value.timestamp == ts
    ensures PhaseShape(p, r.value)
  {
    var proc := WeightedPick(g, TRAFFIC_ORDER, p.traffic.AsWeights());
    var country := WeightedPick(proc.rng, COUNTRIES, COUNTRY_WEIGHTS);
    var pm := PickPaymentMethod(country.value, country.rng);
    var jitterDraw := Next(pm.rng);
    var auth := Authorize(p.authRate.Of(proc.value), Jitter(jitterDraw.value), jitterDraw.rng);
    var amountDraw := Next(auth.rng);
    var tx := Transaction(id, ts, proc.value, p.processorStatus.Of(proc.value),
      country.value, pm.value, Amount(pm.value, amountDraw.value),
      auth.value, false, p.phase);
    if Total(p.traffic.AsWeights()) == 1.0 then
      TrafficPickPositive(g, p.traffic);
      Sample(tx, amountDraw.rng)
    else
      Sample(tx, amountDraw.rng)
  }

  /** `tx-<n>`. */
  function TxId(n: nat): string {
    "tx-" + NatToString(n)
  }

  /** `Math.round(durationMin * txPerMin)`; a loop bound that is not positive runs no iteration. */
  function TotalTx(p: PhaseConfig): nat {
    var n := (p.endMin - p.startMin) * p.txPerMin;
    if n > 0 then n else 0
  }

  /** The instant of the `i`-th transaction of a phase: the phase window split
      into equal steps, truncated to whole milliseconds as a `Date` does. */
  function PhaseTimestamp(p: PhaseConfig, i: nat): int
    requires TotalTx(p) > 0
  {
    MinutesAfterBase(p.startMin) + (i * ((p.endMin - p.startMin) * MS_PER_MINUTE)) / TotalTx(p)
  }

  lemma MulDivBelow(i: int, d: int, t: int)
    requires 0 <= i < t && d > 0
    ensures 0 <= (i * d) / t < d
  {
    var q := (i * d) / t;
    assert i * d < t * d;
    assert q * t <= i * d;
    assert q * t < d * t;
  }

  lemma MulDivMonotone(i: int, j: int, d: int, t: int)
    requires 0 <= i <= j && d > 0 && t > 0
    ensures (i * d) / t <= (j * d) / t
  {
    MulMonotone(i, j, d);
    DivMonotone(i * d, j * d, t);
  }

  lemma MulMonotone(i: int, j: int, d: int)
    requires i <= j && d > 0
    ensures i * d <= j * d
  {
    assert j * d - i * d == (j - i) * d;
  }

  lemma DivMonotone(a: int, b: int, t: int)
    requires a <= b && t > 0
    ensures a / t <= b / t
  {
    var qa, qb := a / t, b / t;
    assert qa * t + a % t == a && qb * t + b % t == b;
    if qa > qb {
      MulMonotone(qb + 1, qa, t);
    }
  }

  /** Every transaction of a phase falls inside the phase window. */
  lemma PhaseTimestampInWindow(p: PhaseConfig, i: nat)
    requires i < TotalTx(p)
    ensures MinutesAfterBase(p.startMin) <= PhaseTimestamp(p, i) < MinutesAfterBase(p.endMin)
  {
    MulDivBelow(i, (p.endMin - p.startMin) * MS_PER_MINUTE, TotalTx(p));
  }

  /** Later transactions of a phase are never earlier. */
  lemma PhaseTimestampMonotone(p: PhaseConfig, i: nat, j: nat)
    requires i <= j && TotalTx(p) > 0
    ensures PhaseTimestamp(p, i) <= PhaseTimestamp(p, j)
  {
    MulDivMonotone(i, j, (p.endMin - p.startMin) * MS_PER_MINUTE, TotalTx(p));
  }

  /** A run of generated records, and the generator state after them. */
  datatype Batch = Batch(records: seq<Transaction>, rng: Rng)

  /** The `n`-th transaction of a phase whose ids start at `startId`. */
  predicate PhaseRecord(p: PhaseConfig, startId: nat, n: nat, tx: Transaction) {
    && n < TotalTx(p)
    && tx.id == TxId(startId + n)
    && tx.timestamp == PhaseTimestamp(p, n)
    && MinutesAfterBase(p.startMin) <= tx.timestamp < MinutesAfterBase(p.endMin)
    && PhaseShape(p, tx)
  }

  /** Iterations `i` up to the end of `generateTransactionsForPhase(p, g, startId)`. */
  function GenPhaseFrom(p: PhaseConfig, g: Rng, startId: nat, i: nat): (r: Batch)
    requires i <= TotalTx(p)
    ensures |r.records| == TotalTx(p) - i
    ensures forall k :: 0 <= k < |r.records| ==> PhaseRecord(p, startId, i + k, r.records[k])
    ensures SortedByTime(r.records)
    decreases TotalTx(p) - i
  {
    if i == TotalTx(p) then Batch([], g)
    else
      var t := GenTransaction(p, g, TxId(startId + i), PhaseTimestamp(p, i));
      var rest := GenPhaseFrom(p, t.rng, startId, i + 1);
      PhaseTimestampInWindow(p, i);
      PhasePrepend(p, startId, i, t.value, rest.records);
      Batch([t.value] + rest.records, rest.rng)
  }

  lemma PhasePrepend(p: PhaseConfig, startId: nat, i: nat, head: Transaction, rest: seq<Transaction>)
    requires PhaseRecord(p, startId, i, head)
    requires forall k :: 0 <= k < |rest| ==> PhaseRecord(p, startId, i + 1 + k, rest[k])
    requires SortedByTime(rest)
    ensures forall k :: 0 <= k < |[head] + rest| ==> PhaseRecord(p, startId, i + k, ([head] + rest)[k])
    ensures SortedByTime([head] + rest)
  {
    forall k | 0 < k < |[head] + rest|
      ensures PhaseRecord(p, startId, i + k, ([head] + rest)[k])
    {
      assert ([head] + rest)[k] == rest[k - 1];
      assert PhaseRecord(p, startId, i + 1 + (k - 1), rest[k - 1]);
    }
    if |rest| > 0 {
      assert PhaseRecord(p, startId, i + 1 + 0, rest[0]);
      PhaseTimestampMonotone(p, i, i + 1);
      SortedAppend([head], rest, TimestampOf);
    }
  }

  /** The complete output of one phase: every record in place, sorted by time. */
  predicate PhaseRun(p: PhaseConfig, startId: nat, recs: seq<Transaction>) {
    && |recs| == TotalTx(p)
    && (forall k :: 0 <= k < |recs| ==> PhaseRecord(p, startId, k, recs[k]))
    && SortedByTime(recs)
  }

  /** `generateTransactionsForPhase(p, g, startId)`. */
  function GenPhase(p: PhaseConfig, g: Rng, startId: nat): (r: Batch)
    ensures PhaseRun(p, startId, r.records)
  {
    GenPhaseFrom(p, g, startId, 0)
  }

  /** `recs` is the output of the phases `ps` in order, ids continuing from
      one phase to the next starting at `startId`. */
  predicate PhaseRuns(ps: seq<PhaseConfig>, startId: nat, recs: seq<Transaction>)
    decreases |ps|
  {
    if |ps| == 0 then recs == []
    else
      var n := TotalTx(ps[0]);
      n <= |recs| && PhaseRun(ps[0], startId, recs[..n]) && PhaseRuns(ps[1..], startId + n, recs[n..])
  }

  /** The phase loop of `generateIncidentData`: phases in order, ids continuing
      from one phase to the next. */
  function GenPhases(ps: seq<PhaseConfig>, g: Rng, startId: nat): (r: Batch)
    ensures PhaseRuns(ps, startId, r.records)
    decreases |ps|
  {
    if |ps| == 0 then Batch([], g)
    else
      var b := GenPhase(ps[0], g, startId);
      var rest := GenPhases(ps[1..], b.rng, startId + |b.records|);
      RunsCons(ps, startId, b.records, rest.records);
      Batch(b.records + rest.records, rest.rng)
  }

  /** One phase's run followed by the runs of the later phases is a run of all of them. */
  lemma RunsCons(ps: seq<PhaseConfig>, startId: nat, b: seq<Transaction>, rest: seq<Transaction>)
    requires |ps| > 0
    requires PhaseRun(ps[0], startId, b)
    requires PhaseRuns(ps[1..], startId + |b|, rest)
    ensures PhaseRuns(ps, startId, b + rest)
  {
    assert (b + rest)[..|b|] == b;
    assert (b + rest)[|b|..] == rest;
  }

  function TotalOfPhases(ps: seq<PhaseConfig>): nat {
    if |ps| == 0 then 0 else TotalTx(ps[0]) + TotalOfPhases(ps[1..])
  }

  /** The phase runs hold one record per iteration of every phase, numbered from `startId`. */
  lemma {:induction false} RunsCountAndIds(ps: seq<PhaseConfig>, startId: nat, recs: seq<Transaction>)
    requires PhaseRuns(ps, startId, recs)
    ensures |recs| == TotalOfPhases(ps)
    ensures forall k :: 0 <= k < |recs| ==> recs[k].id == TxId(startId + k)
    decreases |ps|
  {
    if |ps| > 0 {
      var n := TotalTx(ps[0]);
      RunsCountAndIds(ps[1..], startId + n, recs[n..]);
      forall k | 0 <= k < |recs|
        ensures recs[k].id == TxId(startId + k)
      {
        if k < n {
          assert recs[k] == recs[..n][k];
          assert PhaseRecord(ps[0], startId, k, recs[..n][k]);
        } else {
          assert recs[k] == recs[n..][k - n];
        }
      }
    }
  }

  /** The record-level guarantees of an incident transaction, read off its own phase tag. */
  predicate IncidentRecord(tx: Transaction) {
    var p := PhaseFor(tx.phase);
    PhaseShape(p, tx) && MinutesAfterBase(p.startMin) <= tx.timestamp < MinutesAfterBase(p.endMin)
  }

  /** Phases taken from the table yield records consistent with their own phase tag. */
  lemma {:induction false} RunsIncident(ps: seq<PhaseConfig>, startId: nat, recs: seq<Transaction>)
    requires PhaseRuns(ps, startId, recs) && FromTable(ps)
    ensures forall k :: 0 <= k < |recs| ==> IncidentRecord(recs[k])
    decreases |ps|
  {
    if |ps| > 0 {
      var n := TotalTx(ps[0]);
      FromTableTail(ps);
      RunsIncident(ps[1..], startId + n, recs[n..]);
      forall k | 0 <= k < |recs|
        ensures IncidentRecord(recs[k])
      {
        if k < n {
          assert recs[k] == recs[..n][k];
          assert PhaseRecord(ps[0], startId, k, recs[..n][k]);
        } else {
          assert recs[k] == recs[n..][k - n];
        }
      }
    }
  }

  lemma FromTableTail(ps: seq<PhaseConfig>)
    requires |ps| > 0 && FromTable(ps)
    ensures FromTable(ps[1..]) && ps[0] == PhaseFor(ps[0].phase)
  {
    forall i | 0 <= i < |ps[1..]| ensures ps[1..][i] == PhaseFor(ps[1..][i].phase) {
      assert ps[1..][i] == ps[i + 1];
    }
  }

  /** Chained phases yield records sorted by time, inside the span of the phases. */
  lemma {:induction false} RunsOrdered(ps: seq<PhaseConfig>, startId: nat, recs: seq<Transaction>)
    requires PhaseRuns(ps, startId, recs) && Chained(ps)
    ensures |ps| > 0 ==> forall k :: 0 <= k < |recs| ==>
      MinutesAfterBase(ps[0].startMin) <= recs[k].timestamp < MinutesAfterBase(ps[|ps| - 1].endMin)
    ensures SortedByTime(recs)
    decreases |ps|
  {
    if |ps| > 0 {
      var n := TotalTx(ps[0]);
      assert Chained(ps[1..]);
      RunsOrdered(ps[1..], startId + n, recs[n..]);
      if |ps| == 1 {
        assert recs[n..] == [];
      }
      ChainedConcat(ps, startId, recs[..n], recs[n..]);
      assert recs[..n] + recs[n..] == recs;
    }
  }

  lemma ChainedConcat(ps: seq<PhaseConfig>, startId: nat, b: seq<Transaction>, rest: seq<Transaction>)
    requires |ps| > 0 && Chained(ps)
    requires forall k :: 0 <= k < |b| ==> PhaseRecord(ps[0], startId, k, b[k])
    requires SortedByTime(b) && SortedByTime(rest)
    requires |ps| == 1 ==> rest == []
    requires |ps| > 1 ==> forall k :: 0 <= k < |rest| ==>
      MinutesAfterBase(ps[1].startMin) <= rest[k].timestamp < MinutesAfterBase(ps[|ps| - 1].endMin)
    ensures forall k :: 0 <= k < |b + rest| ==>
      MinutesAfterBase(ps[0].startMin) <= (b + rest)[k].timestamp < MinutesAfterBase(ps[|ps| - 1].endMin)
    ensures SortedByTime(b + rest)
  {
    if |ps| > 1 {
      assert ps[0].endMin <= ps[1].startMin && ps[0].endMin <= ps[|ps| - 1].startMin;
      assert ps[0].startMin <= ps[0].endMin;
    }
    forall k | 0 <= k < |b + rest|
      ensures MinutesAfterBase(ps[0].startMin) <= (b + rest)[k].timestamp < MinutesAfterBase(ps[|ps| - 1].endMin)
    {
      if k < |b| {
        assert (b + rest)[k] == b[k];
        assert PhaseRecord(ps[0], startId, k, b[k]);
      } else {
        assert (b + rest)[k] == rest[k - |b|];
      }
    }
    forall i, j | 0 <= i < |b| && 0 <= j < |rest|
      ensures TimestampOf(b[i]) <= TimestampOf(rest[j])
    {
      assert PhaseRecord(ps[0], startId, i, b[i]);
    }
    SortedAppend(b, rest, TimestampOf);
  }

  const BASELINE_HOURS: int := 24
  const BASELINE_TX_PER_MIN: int := 5
  const BASELINE_TOTAL: nat := 7200

  /** `baseline-<i>`. */
  function BaselineId(i: nat): string {
    "baseline-" + NatToString(i)
  }

  /** The instant of the `i`-th baseline record: the 24 hours before the base
      date in equal steps. */
  function BaselineTimestamp(i: nat): int {
    MinutesAfterBase(-(BASELINE_HOURS * 60)) + (i * (BASELINE_HOURS * 60 * MS_PER_MINUTE)) / BASELINE_TOTAL
  }

  /** Baseline records are 12 seconds apart, the first one day before the base date. */
  lemma BaselineTimestampSpacing(i: nat)
    ensures BaselineTimestamp(i) == BASE_DATE - 86_400_000 + 12_000 * i
  {
    assert i * (BASELINE_HOURS * 60 * MS_PER_MINUTE) == (12_000 * i) * 7200;
  }

  /** The record-level guarantees of the `i`-th baseline record. */
  predicate BaselineShape(i: nat, tx: Transaction) {
    && tx.id == BaselineId(i)
    && tx.timestamp == BaselineTimestamp(i)
    && tx.processorId == ProcessorA
    && tx.processorStatus == Healthy
    && tx.isBaseline
    && tx.phase == PreIncident
    && MethodAllowedIn(tx.paymentMethod, tx.country)
    && tx.amount > 0.0
  }

  /** One baseline record: country, method, authorization against processor A's
      baseline rate, amount. */
  function GenBaselineTx(g: Rng, i: nat): (r: Sample<Transaction>)
    ensures BaselineShape(i, r.value)
  {
    var country := WeightedPick(g, COUNTRIES, COUNTRY_WEIGHTS);
    var pm := PickPaymentMethod(country.value, country.rng);
    var authDraw := Next(pm.rng);
    var amountDraw := Next(authDraw.rng);
    Sample(Transaction(BaselineId(i), BaselineTimestamp(i), ProcessorA, Healthy,
      country.value, pm.value, Amount(pm.value, amountDraw.value),
      authDraw.value < BaselineAuthRate(ProcessorA), true, PreIncident), amountDraw.rng)
  }

  /** Iterations `i` up to the end of `generateBaselineTransactions(g)`. */
  function GenBaselineFrom(g: Rng, i: nat): (r: Batch)
    requires i <= BASELINE_TOTAL
    ensures |r.records| == BASELINE_TOTAL - i
    ensures forall k :: 0 <= k < |r.records| ==> BaselineShape(i + k, r.records[k])
    decreases BASELINE_TOTAL - i
  {
    if i == BASELINE_TOTAL then Batch([], g)
    else
      var t := GenBaselineTx(g, i);
      var rest := GenBaselineFrom(t.rng, i + 1);
      BaselinePrepend(i, t.value, rest.records);
      Batch([t.value] + rest.records, rest.rng)
  }

  lemma BaselinePrepend(i: nat, head: Transaction, rest: seq<Transaction>)
    requires BaselineShape(i, head)
    requires forall k :: 0 <= k < |rest| ==> BaselineShape(i + 1 + k, rest[k])
    ensures forall k :: 0 <= k < |[head] + rest| ==> BaselineShape(i + k, ([head] + rest)[k])
  {
    forall k | 0 < k < |[head] + rest|
      ensures BaselineShape(i + k, ([head] + rest)[k])
    {
      assert ([head] + rest)[k] == rest[k - 1];
      assert BaselineShape(i + 1 + (k - 1), rest[k - 1]);
    }
  }

  /** The baseline stream is strictly increasing in time, ends before the base
      date and carries distinct ids. */
  lemma BaselineOrdered(records: seq<Transaction>)
    requires forall k :: 0 <= k < |records| ==> BaselineShape(k, records[k])
    requires |records| <= BASELINE_TOTAL
    ensures StrictlySortedBy(records, TimestampOf)
    ensures forall k :: 0 <= k < |records| ==> records[k].timestamp < BASE_DATE
    ensures forall i, j :: 0 <= i < j < |records| ==> records[i].id != records[j].id
  {
    forall i, j | 0 <= i < j < |records|
      ensures records[i].timestamp < records[j].timestamp
      ensures records[i].id != records[j].id
    {
      BaselineTimestampSpacing(i);
      BaselineTimestampSpacing(j);
      PrefixedInjective("baseline-", i, j);
    }
    forall k | 0 <= k < |records|
      ensures records[k].timestamp < BASE_DATE
    {
      BaselineTimestampSpacing(k);
    }
  }

  function EventTime(e: RoutingEvent): int {
    e.timestamp
  }

  /** The event narrative as a table: ids, minutes after the base date, types
      and severities, one column per field. */
  const EVENT_IDS: seq<string> := ["evt-1", "evt-2", "evt-3", "evt-4", "evt-5", "evt-6", "evt-7", "evt-8"]
  const EVENT_MINUTES: seq<int> := [60, 62, 65, 67, 80, 180, 195, 240]
  const EVENT_TYPES: seq<RoutingEventType> := [AuthRateDrop, AlertTriggered, FailoverInitiated,
    TrafficRerouted, ProcessorDownEvent, RecoverySignal, TrafficRestored, SystemRecovered]
  const EVENT_SEVERITIES: seq<Severity> := [Critical, Warning, Info, Info, Critical, Info, Success, Success]

  lemma EventIdsDistinct()
    ensures forall i, j :: 0 <= i < j < |EVENT_IDS| ==> EVENT_IDS[i] != EVENT_IDS[j]
  {
    forall i, j | 0 <= i < j < |EVENT_IDS|
      ensures EVENT_IDS[i] != EVENT_IDS[j]
    {
      assert EVENT_IDS[i][4] == "12345678"[i] && EVENT_IDS[j][4] == "12345678"[j];
    }
  }

  /** `buildRoutingEvents`: the eight events of the incident narrative. */
  function RoutingEvents(): (r: seq<RoutingEvent>)
    ensures |r| == 8
    ensures forall i :: 0 <= i < |r| ==> r[i].timestamp == MinutesAfterBase(EVENT_MINUTES[i])
    ensures StrictlySortedBy(r, EventTime)
    ensures r[0].timestamp == INCIDENT_START && r[7].timestamp == MinutesAfterBase(240)
    ensures forall i, j :: 0 <= i < j < |r| ==> r[i].id != r[j].id
  {
    var r := seq(8, i requires 0 <= i < 8 =>
      RoutingEvent(EVENT_IDS[i], MinutesAfterBase(EVENT_MINUTES[i]), EVENT_TYPES[i], EVENT_SEVERITIES[i]));
    StrictlySortedByAdjacent(r, EventTime);
    EventIdsDistinct();
    r
  }

  const INCIDENT_ID: string := "incident-vitashop-001"
  const INCIDENT_TX_TOTAL: nat := 1220

  lemma PhaseTotals()
    ensures TotalOfPhases(Phases()) == INCIDENT_TX_TOTAL
  {
    var ps := Phases();
    assert TotalTx(ps[0]) == 300 && TotalTx(ps[1]) == 30 && TotalTx(ps[2]) == 90;
    assert TotalTx(ps[3]) == 500 && TotalTx(ps[4]) == 300;
    assert ps[1..][1..][1..][1..][1..] == [];
  }

  /** `generateIncidentData(seed)`: the phases from `createLCG(seed)`, the
      baseline from a separate `createLCG(seed + 1)`, the events and the incident. */
  function GenerateIncidentData(seed: int): (d: GeneratedData)
    ensures PhaseRuns(Phases(), 0, d.transactions)
    ensures |d.baselineTransactions| == BASELINE_TOTAL
    ensures forall k :: 0 <= k < |d.baselineTransactions| ==> BaselineShape(k, d.baselineTransactions[k])
    ensures d.incident.id == INCIDENT_ID && d.incident.startTime == INCIDENT_START
    ensures d.incident.baselineAuthRate == BaselineAuthRate(ProcessorA)
    ensures d.incident.events == RoutingEvents()
    ensures d.seed == seed
    ensures d.transactions == GenPhases(Phases(), Create(seed), 0).records
    ensures d.baselineTransactions == GenBaselineFrom(Create(seed + 1), 0).records
  {
    var txs := GenPhases(Phases(), Create(seed), 0).records;
    var baseline := GenBaselineFrom(Create(seed + 1), 0).records;
    GeneratedData(txs, baseline, Incident(INCIDENT_ID, INCIDENT_START, 0.94, RoutingEvents()), seed)
  }

  /** The incident transactions: 1220 records with ids `tx-0` to `tx-1219` in
      order, every record consistent with its phase, sorted by time inside the
      four simulated hours. */
  lemma IncidentTransactionsWellFormed(txs: seq<Transaction>)
    requires PhaseRuns(Phases(), 0, txs)
    ensures |txs| == INCIDENT_TX_TOTAL
    ensures forall k :: 0 <= k < |txs| ==> txs[k].id == TxId(k)
    ensures forall k :: 0 <= k < |txs| ==> IncidentRecord(txs[k])
    ensures SortedByTime(txs)
    ensures forall k :: 0 <= k < |txs| ==> BASE_DATE <= txs[k].timestamp < MinutesAfterBase(240)
  {
    PhaseTableWellFormed();
    PhaseTotals();
    TableRunsWellFormed(Phases(), txs);
  }

  /** The runs of any chained table drawn from the phase table, spanning
      minutes 0 to 240 with 1220 transactions in all. */
  lemma TableRunsWellFormed(ps: seq<PhaseConfig>, txs: seq<Transaction>)
    requires PhaseRuns(ps, 0, txs) && Chained(ps) && FromTable(ps) && |ps| > 0
    requires ps[0].startMin == 0 && ps[|ps| - 1].endMin == 240
    requires TotalOfPhases(ps) == INCIDENT_TX_TOTAL
    ensures |txs| == INCIDENT_TX_TOTAL
    ensures forall k :: 0 <= k < |txs| ==> txs[k].id == TxId(k)
    ensures forall k :: 0 <= k < |txs| ==> IncidentRecord(txs[k])
    ensures SortedByTime(txs)
    ensures forall k :: 0 <= k < |txs| ==> BASE_DATE <= txs[k].timestamp < MinutesAfterBase(240)
  {
    RunsCountAndIds(ps, 0, txs);
    RunsIncident(ps, 0, txs);
    RunsOrdered(ps, 0, txs);
  }

  /** The incident transactions carry distinct ids. */
  lemma IncidentIdsDistinct(txs: seq<Transaction>)
    requires PhaseRuns(Phases(), 0, txs)
    ensures forall i, j :: 0 <= i < j < |txs| ==> txs[i].id != txs[j].id
  {
    IncidentTransactionsWellFormed(txs);
    forall i, j | 0 <= i < j < |txs|
      ensures txs[i].id != txs[j].id
    {
      PrefixedInjective("tx-", i, j);
    }
  }

  /** Processor A carries no traffic while it is down. */
  lemma StabilizedAvoidsProcessorA(tx: Transaction)
    requires IncidentRecord(tx) && tx.phase == Stabilized
    ensures tx.processorId != ProcessorA
  {
    TotalOfThree(PhaseFor(Stabilized).traffic.AsWeights());
  }

  /** A processor whose rate in the phase is zero never authorizes: processor A
      declines nothing and authorizes nothing while down. */
  lemma ZeroRateNeverAuthorized(tx: Transaction)
    requires IncidentRecord(tx) && PhaseFor(tx.phase).authRate.Of(tx.processorId) == 0.0
    ensures !tx.authorized
  {
  }

  /** The baseline records are strictly increasing in time, carry distinct ids
      and precede every incident transaction. */
  lemma BaselineBeforeIncident(baseline: seq<Transaction>, txs: seq<Transaction>)
    requires |baseline| == BASELINE_TOTAL
    requires forall k :: 0 <= k < |baseline| ==> BaselineShape(k, baseline[k])
    requires PhaseRuns(Phases(), 0, txs)
    ensures StrictlySortedBy(baseline, TimestampOf)
    ensures forall i, j :: 0 <= i < j < |baseline| ==> baseline[i].id != baseline[j].id
    ensures forall i, j :: 0 <= i < |baseline| && 0 <= j < |txs| ==>
      baseline[i].timestamp < txs[j].timestamp
  {
    IncidentTransactionsWellFormed(txs);
    BaselineOrdered(baseline);
  }

  /** The baseline stream's generator starts one state after the main stream's
      initial state. */
  lemma BaselineSeededNext(seed: int)
    ensures Create(seed + 1).state == (Create(seed).state + 1) % TWO_32
  {
    ModAddCongruent(seed, 1);
  }

  /** Seeds that agree modulo 2^32 generate the same records. */
  lemma SeedModulo(seed: int)
    ensures GenerateIncidentData(seed).transactions == GenerateIncidentData(seed + TWO_32).transactions
    ensures GenerateIncidentData(seed).baselineTransactions == GenerateIncidentData(seed + TWO_32).baselineTransactions
  {
    ModAddMultiple(seed, 1);
    ModAddMultiple(seed + 1, 1);
    assert Create(seed) == Create(seed + TWO_32);
    assert Create(seed + 1) == Create(seed + TWO_32 + 1);
  }
}

=== FILE: incident_metrics.dfy ===
/** The headline KPIs (`useIncidentMetrics`): authorization rate and its change
    against the baseline, counts, the revenue estimate and the time since the
    incident started. The clock, the incident start and the baseline rate are
    parameters. */
module IncidentMetrics {
  import opened Seqs
  import opened Domain
  import opened Aggregates

  /** The average ticket used to price a declined transaction, in US dollars. */
  const AVG_TICKET_USD: int := 65

  datatype Metrics = Metrics(
    currentAuthRate: real,
    baselineAuthRate: real,
    authRateDelta: real,
    totalTransactions: nat,
    authorizedCount: nat,
    declinedCount: int,
    estimatedRevenueImpact: int,
    incidentDurationMs: int)

  function DurationSince(now: int, incidentStart: int): (d: int)
    ensures d >= 0
    ensures d >= now - incidentStart
    ensures d == 0 || d == now - incidentStart
  {
    if now - incidentStart > 0 then now - incidentStart else 0
  }

  function ComputeMetrics(txs: seq<Transaction>, now: int, incidentStart: int, baselineAuthRate: real): (m: Metrics)
    ensures m.totalTransactions == |txs|
    ensures m.authorizedCount == |Keep(txs, IsAuthorized())|
    ensures m.authorizedCount + m.declinedCount == m.totalTransactions
    ensures m.declinedCount >= 0
    ensures 0.0 <= m.currentAuthRate <= 1.0
    ensures |txs| > 0 ==> m.currentAuthRate == m.authorizedCount as real / |txs| as real
    ensures |txs| > 0 ==> m.authRateDelta == m.currentAuthRate - baselineAuthRate
    ensures m.baselineAuthRate == baselineAuthRate
    ensures m.estimatedRevenueImpact == -(m.declinedCount * AVG_TICKET_USD) <= 0
    ensures m.incidentDurationMs == DurationSince(now, incidentStart)
    ensures |txs| == 0 ==> m == Metrics(0.0, baselineAuthRate, 0.0, 0, 0, 0, 0, DurationSince(now, incidentStart))
  {
    var total := |txs|;
    if total == 0 then
      Metrics(0.0, baselineAuthRate, 0.0, 0, 0, 0, 0, DurationSince(now, incidentStart))
    else
      var authorizedCount := AuthorizedCount(txs);
      var declinedCount := total - authorizedCount;
      var currentAuthRate := Rate(authorizedCount, total);
      Metrics(currentAuthRate, baselineAuthRate, currentAuthRate - baselineAuthRate, total,
        authorizedCount, declinedCount, -(declinedCount * AVG_TICKET_USD), DurationSince(now, incidentStart))
  }

  /** The revenue estimate depends only on which records were authorized, not on
      their amounts. */
  lemma RevenueIgnoresAmounts(txs: seq<Transaction>, other: seq<Transaction>, now: int, start: int, base: real)
    requires |txs| == |other|
    requires forall i :: 0 <= i < |txs| ==> txs[i].authorized == other[i].authorized
    ensures ComputeMetrics(txs, now, start, base).estimatedRevenueImpact ==
            ComputeMetrics(other, now, start, base).estimatedRevenueImpact
  {
    SameAuthorizedCount(txs, other);
  }

  lemma {:induction false} SameAuthorizedCount(txs: seq<Transaction>, other: seq<Transaction>)
    requires |txs| == |other|
    requires forall i :: 0 <= i < |txs| ==> txs[i].authorized == other[i].authorized
    ensures |Keep(txs, IsAuthorized())| == |Keep(other, IsAuthorized())|
    decreases |txs|
  {
    if |txs| > 0 {
      SameAuthorizedCount(txs[1..], other[1..]);
    }
  }

  /** The empty branch reports no change rather than minus the baseline, unlike
      the non-empty formula at a zero rate. */
  lemma EmptyDeltaIsZero(now: int, start: int)
    ensures ComputeMetrics([], now, start, 0.94).authRateDelta == 0.0
    ensures ComputeMetrics([], now, start, 0.94).currentAuthRate - 0.94 != 0.0
  {
  }

  /** The cases the metrics tests exercise: two of four authorized gives rate one
      half with two declined; two declined cost 130; half an hour after the
      start the duration is positive. */
  lemma MetricsExamples(a: Transaction, d: Transaction, start: int)
    requires a.authorized && !d.authorized
    ensures ComputeMetrics([a, a, d, d], start, start, 0.94).currentAuthRate == 0.5
    ensures ComputeMetrics([a, a, d, d], start, start, 0.94).authorizedCount == 2
    ensures ComputeMetrics([a, a, d, d], start, start, 0.94).declinedCount == 2
    ensures ComputeMetrics([d, d], start, start, 0.94).estimatedRevenueImpact == -130
    ensures ComputeMetrics([], start + 30 * MS_PER_MINUTE, start, 0.94).incidentDurationMs > 0
  {
    assert Keep([d], IsAuthorized()) == [];
    assert Keep([d, d], IsAuthorized()) == [];
    assert [a, a, d, d][1..] == [a, d, d] && [a, d, d][1..] == [d, d];
    assert Keep([a, d, d], IsAuthorized()) == [a];
    assert Keep([a, a, d, d], IsAuthorized()) == [a, a];
  }
}

=== FILE: lcg.dfy ===
/** The seeded 32-bit linear congruential generator of the scenario generator
    (`createLCG`): the state update written with JavaScript's `Math.imul` and
    `>>> 0`, the uniform draw `next`, `nextInt`, `pick` and `weightedPick`.
    A generator is an immutable state; every draw returns the value together
    with the state after it. Draws are exact: `next` is the rational
    state / 2^32 rather than an IEEE double. */
module Lcg {
  import opened Seqs

  const TWO_32: int := 0x1_0000_0000
  const TWO_31: int := 0x8000_0000
  const MULTIPLIER: int := 1664525
  const INCREMENT: int := 1013904223

  type Uint32 = x: int | 0 <= x < TWO_32

  /** JavaScript's `x >>> 0` on an integer: its residue modulo 2^32. */
  function ToUint32(x: int): Uint32 {
    x % TWO_32
  }

  /** JavaScript's ToInt32 on an integer: the residue modulo 2^32 read as a
      two's-complement signed 32-bit value. */
  function ToInt32(x: int): (r: int)
    ensures -TWO_31 <= r < TWO_31
    ensures r == x % TWO_32 || r == x % TWO_32 - TWO_32
  {
    var u := x % TWO_32;
    if u >= TWO_31 then u - TWO_32 else u
  }

  /** `Math.imul(a, b)`: the low 32 bits of the product of the ToInt32 images, signed. */
  function Imul(a: int, b: int): int {
    ToInt32(ToInt32(a) * ToInt32(b))
  }

  /** One state update as the generator writes it. */
  function Step(s: Uint32): Uint32 {
    ToUint32(Imul(MULTIPLIER, s) + INCREMENT)
  }

  datatype Rng = Rng(state: Uint32)

  /** A drawn value and the generator state after the draw. */
  datatype Sample<T> = Sample(value: T, rng: Rng)

  /** `createLCG(seed)`: the initial state is the seed modulo 2^32. */
  function Create(seed: int): (g: Rng)
    ensures (seed - g.state) % TWO_32 == 0
  {
    Rng(ToUint32(seed))
  }

  lemma ModAddMultiple(b: int, k: int)
    ensures (b + k * TWO_32) % TWO_32 == b % TWO_32
  {
    var q := b / TWO_32;
    var r := b % TWO_32;
    assert b + k * TWO_32 == (q + k) * TWO_32 + r;
  }

  /** Adding `c` respects congruence modulo 2^32. */
  lemma ModAddCongruent(x: int, c: int)
    ensures (x % TWO_32 + c) % TWO_32 == (x + c) % TWO_32
    ensures (x % TWO_32 - TWO_32 + c) % TWO_32 == (x + c) % TWO_32
  {
    ModAddMultiple(x % TWO_32 + c, x / TWO_32);
    ModAddMultiple(x % TWO_32 - TWO_32 + c, x / TWO_32 + 1);
  }

  /** The update as written is the affine map s -> (1664525 s + 1013904223) mod 2^32. */
  lemma StepIsAffine(s: Uint32)
    ensures Step(s) == (MULTIPLIER * s + INCREMENT) % TWO_32
  {
    var a := ToInt32(MULTIPLIER);
    assert a == MULTIPLIER;
    var b := ToInt32(s);
    var p := a * b;
    // b is s or s - 2^32, so p is congruent to MULTIPLIER * s
    if b == s - TWO_32 {
      assert p == MULTIPLIER * s + (-MULTIPLIER) * TWO_32;
      ModAddMultiple(MULTIPLIER * s, -MULTIPLIER);
    } else {
      assert b == s;
    }
    assert p % TWO_32 == (MULTIPLIER * s) % TWO_32;
    ModAddCongruent(p, INCREMENT);
    ModAddCongruent(MULTIPLIER * s, INCREMENT);
    ModAddMultiple(p % TWO_32 + INCREMENT, 0);
  }

  /** `next()`: advance the state and return state / 2^32, a number in [0, 1). */
  function Next(g: Rng): (r: Sample<real>)
    ensures 0.0 <= r.value < 1.0
    ensures r.rng.state == (MULTIPLIER * g.state + INCREMENT) % TWO_32
    ensures r.value == r.rng.state as real / TWO_32 as real
  {
    StepIsAffine(g.state);
    var s := Step(g.state);
    Sample(s as real / TWO_32 as real, Rng(s))
  }

  lemma ScaledDrawInRange(s: int, max: int)
    requires 0 <= s < TWO_32 && max > 0
    ensures 0 <= (s * max) / TWO_32 < max
  {
    var q := (s * max) / TWO_32;
    assert s * max < TWO_32 * max;
    assert q * TWO_32 <= s * max;
    assert q * TWO_32 < max * TWO_32;
  }

  /** `nextInt(max)`: `Math.floor(next() * max)`, computed on the integer state. */
  function NextInt(g: Rng, max: int): (r: Sample<int>)
    ensures r.rng == Next(g).rng
    ensures r.value == (Next(g).value * max as real).Floor
    ensures max > 0 ==> 0 <= r.value < max
    ensures max == 0 ==> r.value == 0
  {
    var x := Next(g);
    Sample(ScaledDraw(x.value, x.rng.state, max), x.rng)
  }

  /** The draw `u = state / 2^32` scaled to `[0, max)`, computed as the integer
      quotient `state * max / 2^32`. */
  function ScaledDraw(u: real, state: int, max: int): (v: int)
    requires 0 <= state < TWO_32 && u == state as real / TWO_32 as real
    ensures v == (u * max as real).Floor
    ensures max > 0 ==> 0 <= v < max
    ensures max == 0 ==> v == 0
  {
    FloorOfScaled(u, state, max);
    if max > 0 then
      ScaledDrawInRange(state, max);
      (state * max) / TWO_32
    else
      (state * max) / TWO_32
  }

  /** For a draw `u = s / 2^32`, `floor(u * max)` is the integer quotient. */
  lemma FloorOfScaled(u: real, s: int, max: int)
    requires u == s as real / TWO_32 as real
    ensures (u * max as real).Floor == (s * max) / TWO_32
  {
    ScaleQuotient(u, s, max, TWO_32);
    DivIsFloor(s * max, TWO_32);
  }

  lemma ScaleQuotient(u: real, s: int, m: int, d: int)
    requires d > 0 && u == s as real / d as real
    ensures u * m as real == (s * m) as real / d as real
  {
  }

  /** Integer division rounds the exact quotient down. */
  lemma DivIsFloor(n: int, d: int)
    requires d > 0
    ensures (n as real / d as real).Floor == n / d
  {
    var q := n / d;
    var r := n % d;
    assert n == q * d + r && 0 <= r < d;
    assert n as real / d as real == q as real + r as real / d as real;
    assert 0.0 <= r as real / d as real < 1.0;
  }

  /** `pick(arr)`: an element at a drawn index, always inside the array. */
  function Pick<T>(g: Rng, arr: seq<T>): (r: Sample<T>)
    requires |arr| > 0
    ensures r.value in arr
    ensures r.rng == Next(g).rng
  {
    var i := NextInt(g, |arr|);
    Sample(arr[i.value], i.rng)
  }

  /** The sum of the first `n` weights. */
  function PrefixSum(w: seq<real>, n: nat): real
    requires n <= |w|
  {
    if n == 0 then 0.0 else PrefixSum(w, n - 1) + w[n - 1]
  }

  function Total(w: seq<real>): real {
    PrefixSum(w, |w|)
  }

  lemma TotalOfTwo(w: seq<real>)
    requires |w| == 2
    ensures Total(w) == w[0] + w[1]
  {
    assert PrefixSum(w, 1) == w[0];
  }

  lemma TotalOfThree(w: seq<real>)
    requires |w| == 3
    ensures Total(w) == w[0] + w[1] + w[2]
  {
    assert PrefixSum(w, 1) == w[0];
    assert PrefixSum(w, 2) == w[0] + w[1];
  }

  /** The loop of `weightedPick` from index `i` with running sum `cum`:
      the first index whose cumulative weight exceeds `r`, else the last. */
  function PickIndexFrom(r: real, w: seq<real>, i: nat, cum: real): (k: nat)
    requires 0 < |w| && i <= |w|
    requires cum == PrefixSum(w, i)
    ensures i <= k < |w| || (i == |w| && k == |w| - 1)
    ensures k < |w| - 1 ==> r < PrefixSum(w, k + 1)
    ensures k == |w| - 1 && i < |w| && r < Total(w) ==> r < PrefixSum(w, k + 1)
    ensures forall j :: i < j <= k ==> PrefixSum(w, j) <= r
    decreases |w| - i
  {
    if i == |w| then |w| - 1
    else if r < cum + w[i] then i
    else PickIndexFrom(r, w, i + 1, cum + w[i])
  }

  /** The index `weightedPick` returns for the draw `r`. */
  function WeightedPickIndex(r: real, w: seq<real>): (k: nat)
    requires |w| > 0
    ensures k < |w|
    ensures k < |w| - 1 || r < Total(w) ==> r < PrefixSum(w, k + 1)
    ensures forall j :: 0 < j <= k ==> PrefixSum(w, j) <= r
  {
    PickIndexFrom(r, w, 0, 0.0)
  }

  /** For a draw in [0, 1) the picked index has a positive weight whenever it is
      not the fallback last index or the weights reach past the draw. No sign
      condition on the weights is needed. */
  lemma {:induction false} PickedWeightPositive(r: real, w: seq<real>)
    requires |w| > 0 && 0.0 <= r
    requires WeightedPickIndex(r, w) < |w| - 1 || r < Total(w)
    ensures w[WeightedPickIndex(r, w)] > 0.0
  {
    var k := WeightedPickIndex(r, w);
    assert r < PrefixSum(w, k + 1);
    if k > 0 {
      assert PrefixSum(w, k) <= r;
    }
  }

  /** `weightedPick(items, weights)`: draws once and walks the cumulative weights. */
  function WeightedPick<T>(g: Rng, items: seq<T>, weights: seq<real>): (r: Sample<T>)
    requires |items| > 0 && |weights| == |items|
    ensures r.value in items
    ensures r.rng == Next(g).rng
  {
    var u := Next(g);
    Sample(items[WeightedPickIndex(u.value, weights)], u.rng)
  }

  /** An item of non-positive weight is never picked unless it is the last item
      and the weights sum to less than the draw; with weights summing to 1 it is
      never picked at all. */
  lemma ZeroWeightNeverPicked<T>(g: Rng, items: seq<T>, weights: seq<real>, j: nat)
    requires |items| > 0 && |weights| == |items| && NoDup(items)
    requires j < |items| && weights[j] <= 0.0
    requires j < |items| - 1 || Total(weights) == 1.0
    ensures WeightedPick(g, items, weights).value != items[j]
  {
    var u := Next(g).value;
    var k := WeightedPickIndex(u, weights);
    if k < |items| - 1 || u < Total(weights) {
      PickedWeightPositive(u, weights);
    }
  }

  /** When the weights sum to 1, the picked item sits at an index of positive weight. */
  lemma PickedItemHasWeight<T>(g: Rng, items: seq<T>, weights: seq<real>) returns (k: nat)
    requires |items| > 0 && |weights| == |items|
    requires Total(weights) == 1.0
    ensures k < |items| && items[k] == WeightedPick(g, items, weights).value
    ensures weights[k] > 0.0
  {
    var u := Next(g).value;
    k := WeightedPickIndex(u, weights);
    PickedWeightPositive(u, weights);
  }
}

=== FILE: method_breakdown.dfy ===
/** The per-method breakdown of the filtered records: one row per payment method
    in credit card, debit card, PIX, OXXO order, dropped when the method has no
    records, each with its display label, volume and authorization rate. */
module MethodBreakdown {
  import opened Seqs
  import opened Domain
  import opened Aggregates

  datatype MethodRow = MethodRow(id: PaymentMethod, name: string, volume: nat, authRate: real)

  /** METHOD_LABELS. */
  function MethodLabel(m: PaymentMethod): string {
    match m
    case CreditCard => "Credit Card"
    case DebitCard => "Debit Card"
    case Pix => "PIX"
    case Oxxo => "OXXO"
  }

  function RowOf(txs: seq<Transaction>, m: PaymentMethod): (r: MethodRow)
    ensures r.id == m && r.name == MethodLabel(m)
    ensures r.volume == |Keep(txs, OfMethod(m))|
    ensures 0.0 <= r.authRate <= 1.0
    ensures r.volume == 0 ==> r.authRate == 0.0
    ensures r.volume > 0 ==> r.authRate == |Keep(Keep(txs, OfMethod(m)), IsAuthorized())| as real / r.volume as real
  {
    var tally := TallyOf(txs, OfMethod(m));
    MethodRow(m, MethodLabel(m), tally.volume, tally.authRate)
  }

  /** The display order of the rows. */
  const METHODS: seq<PaymentMethod> := [CreditCard, DebitCard, Pix, Oxxo]

  /** Every row in display order, before empty ones are dropped. */
  function AllRows(txs: seq<Transaction>): (all: seq<MethodRow>)
    ensures |all| == |METHODS|
    ensures forall i :: 0 <= i < |all| ==> all[i] == RowOf(txs, METHODS[i])
  {
    seq(|METHODS|, i requires 0 <= i < |METHODS| => RowOf(txs, METHODS[i]))
  }

  function HasVolume(): MethodRow -> bool {
    (r: MethodRow) => r.volume > 0
  }

  /** The breakdown `data`: the rows with records, in method order. */
  function BreakdownRows(txs: seq<Transaction>): (rows: seq<MethodRow>)
    ensures IsSubsequence(rows, AllRows(txs))
    ensures forall i :: 0 <= i < |rows| ==> rows[i].volume > 0 && rows[i] == RowOf(txs, rows[i].id)
    ensures forall m :: RowOf(txs, m) in rows <==> |Keep(txs, OfMethod(m))| > 0
  {
    KeepIsSubsequence(AllRows(txs), HasVolume());
    KeptRows(txs);
    Keep(AllRows(txs), HasVolume())
  }

  lemma KeptRows(txs: seq<Transaction>)
    ensures forall i :: 0 <= i < |Keep(AllRows(txs), HasVolume())| ==>
      Keep(AllRows(txs), HasVolume())[i] == RowOf(txs, Keep(AllRows(txs), HasVolume())[i].id)
    ensures forall m :: RowOf(txs, m) in Keep(AllRows(txs), HasVolume()) <==> |Keep(txs, OfMethod(m))| > 0
  {
    AllRowsIndexed(txs);
    KeepIndexed(AllRows(txs), m => RowOf(txs, m), (r: MethodRow) => r.id, HasVolume());
  }

  /** Every entry of `AllRows` is its method's row, and every method has one. */
  lemma AllRowsIndexed(txs: seq<Transaction>)
    ensures forall i :: 0 <= i < |AllRows(txs)| ==> AllRows(txs)[i] == RowOf(txs, AllRows(txs)[i].id)
    ensures forall m :: RowOf(txs, m) in AllRows(txs)
  {
    var all := AllRows(txs);
    forall m
      ensures RowOf(txs, m) in all
    {
      match m
      case CreditCard => assert all[0] == RowOf(txs, m);
      case DebitCard => assert all[1] == RowOf(txs, m);
      case Pix => assert all[2] == RowOf(txs, m);
      case Oxxo => assert all[3] == RowOf(txs, m);
    }
  }

  function RowVolume(r: MethodRow): int {
    r.volume
  }

  /** The rows account for every record once. */
  lemma BreakdownVolumesSum(txs: seq<Transaction>)
    ensures SumOf(BreakdownRows(txs), RowVolume) == |txs|
  {
    var all := AllRows(txs);
    assert all[0] == RowOf(txs, CreditCard) && all[1] == RowOf(txs, DebitCard) && all[2] == RowOf(txs, Pix) && all[3] == RowOf(txs, Oxxo);
    MethodVolumesSum(txs);
    SumOfFour(all, RowVolume);
    SumKeepPositive(all, RowVolume, HasVolume());
  }

  /** No records, no rows. */
  lemma BreakdownEmpty(txs: seq<Transaction>)
    requires |txs| == 0
    ensures BreakdownRows(txs) == []
  {
    KeepEmpty(AllRows(txs), HasVolume());
  }
}

=== FILE: processor_grid.dfy ===
/** The processor status grid: one summary per processor over the filtered
    records (volume, authorization rate, share of the volume, latest status and
    baseline), and the largest volume used to scale the bars. */
module ProcessorGrid {
  import opened Seqs
  import opened Domain
  import opened Aggregates
  import opened Processors

  datatype ProcessorSummary = ProcessorSummary(
    processorId: ProcessorId,
    status: ProcessorStatus,
    authRate: real,
    baselineAuthRate: real,
    volume: nat,
    volumeShare: real)

  /** One processor's summary. */
  function SummaryOf(txs: seq<Transaction>, pid: ProcessorId): (s: ProcessorSummary)
    ensures s.processorId == pid
    ensures s.volume == |Keep(txs, OfProcessor(pid))| <= |txs|
    ensures 0.0 <= s.authRate <= 1.0
    ensures s.volume > 0 ==> s.authRate == |Keep(Keep(txs, OfProcessor(pid)), IsAuthorized())| as real / s.volume as real
    ensures s.volume == 0 ==> s.authRate == 0.0
    ensures 0.0 <= s.volumeShare <= 1.0
    ensures |txs| > 0 ==> s.volumeShare == s.volume as real / |txs| as real
    ensures |txs| == 0 ==> s.volumeShare == 0.0
    ensures s.status == LastStatus(Keep(txs, OfProcessor(pid)))
    ensures s.baselineAuthRate == BaselineAuthRate(pid)
  {
    var tally := TallyOf(txs, OfProcessor(pid));
    ProcessorSummary(pid, LastStatus(Keep(txs, OfProcessor(pid))), tally.authRate,
      BaselineAuthRate(pid), tally.volume, Rate(tally.volume, |txs|))
  }

  /** The `summaries` derivation: one summary per processor, in display order. */
  function Summaries(txs: seq<Transaction>): (ss: seq<ProcessorSummary>)
    ensures |ss| == |ProcessorIds()|
    ensures forall i :: 0 <= i < |ss| ==> ss[i] == SummaryOf(txs, ProcessorIds()[i])
  {
    seq(|ProcessorIds()|, i requires 0 <= i < |ProcessorIds()| => SummaryOf(txs, ProcessorIds()[i]))
  }

  /** The three volumes count every record once. */
  lemma SummaryVolumesSum(txs: seq<Transaction>)
    ensures Summaries(txs)[0].volume + Summaries(txs)[1].volume + Summaries(txs)[2].volume == |txs|
  {
    ProcessorVolumesSum(txs);
  }

  /** With at least one record the shares sum to exactly 1. */
  lemma SharesSumToOne(txs: seq<Transaction>)
    requires |txs| > 0
    ensures Summaries(txs)[0].volumeShare + Summaries(txs)[1].volumeShare + Summaries(txs)[2].volumeShare == 1.0
  {
    var ss := Summaries(txs);
    SummaryVolumesSum(txs);
    FractionsOfWhole(ss[0].volume, ss[1].volume, ss[2].volume, |txs|);
  }

  lemma FractionsOfWhole(a: nat, b: nat, c: nat, t: nat)
    requires t > 0 && a + b + c == t
    ensures a as real / t as real + b as real / t as real + c as real / t as real == 1.0
  {
    var r := t as real;
    assert a as real / r + b as real / r + c as real / r == (a + b + c) as real / r;
  }

  /** `Math.max(...volumes, 1)`. */
  function MaxVolume(ss: seq<ProcessorSummary>): (m: nat)
    ensures m >= 1
    ensures forall i :: 0 <= i < |ss| ==> ss[i].volume <= m
    ensures m == 1 || exists i :: 0 <= i < |ss| && ss[i].volume == m
  {
    if |ss| == 0 then 1
    else
      var rest := MaxVolume(ss[1..]);
      if ss[0].volume > rest then ss[0].volume else rest
  }
}

=== FILE: processors.dfy ===
/** Processor constants: the display order of processors and the alert level
    derived from an authorization rate and the alert threshold. */
module Processors {
  import opened Domain
  import opened Seqs

  /** PROCESSOR_IDS: every processor exactly once, primary first. */
  function ProcessorIds(): (ids: seq<ProcessorId>)
    ensures |ids| == 3 && NoDup(ids)
    ensures ProcessorA in ids && ProcessorB in ids && ProcessorC in ids
    ensures ids[0] == ProcessorA
  {
    [ProcessorA, ProcessorB, ProcessorC]
  }

  datatype AlertLevel = AlertCritical | AlertWarning | AlertNormal

  /** How severe a level is: critical 2, warning 1, normal 0. */
  function LevelRank(l: AlertLevel): nat {
    match l
    case AlertCritical => 2
    case AlertWarning => 1
    case AlertNormal => 0
  }

  /** getAlertLevel: critical below half the threshold, warning below the
      threshold, normal otherwise. For a non-negative threshold the three
      levels split the rates at half the threshold and at the threshold. */
  function GetAlertLevel(authRate: real, threshold: real): (r: AlertLevel)
    ensures r == AlertCritical <==> authRate < threshold * 0.5
    ensures r == AlertWarning <==> threshold * 0.5 <= authRate < threshold
    ensures threshold >= 0.0 ==> (r == AlertNormal <==> authRate >= threshold)
  {
    if authRate < threshold * 0.5 then AlertCritical
    else if authRate < threshold then AlertWarning
    else AlertNormal
  }

  /** A higher rate never raises the alert level. */
  lemma AlertLevelMonotone(a1: real, a2: real, threshold: real)
    requires a1 <= a2
    ensures LevelRank(GetAlertLevel(a2, threshold)) <= LevelRank(GetAlertLevel(a1, threshold))
  {
  }

  /** With a negative threshold a rate above the threshold can still be critical:
      the levels only partition by the threshold when it is non-negative. */
  lemma NegativeThresholdInversion()
    ensures GetAlertLevel(-0.3, -0.4) == AlertCritical
  {
  }

  /** The cases the processor card shows at the default 80% threshold. */
  lemma DefaultThresholdExamples()
    ensures GetAlertLevel(0.35, 0.8) == AlertCritical
    ensures GetAlertLevel(0.75, 0.8) == AlertWarning
    ensures GetAlertLevel(0.94, 0.8) == AlertNormal
  {
  }
}

=== FILE: routing_timeline.dfy ===
/** The routing timeline's progressive reveal: the events that have happened by
    the simulated clock, in their original order, and the marker on the newest
    one. The clock and the event list are parameters. */
module RoutingTimeline {
  import opened Seqs
  import opened Domain
  import opened Generator

  function HappenedBy(now: int): RoutingEvent -> bool {
    (e: RoutingEvent) => e.timestamp <= now
  }

  /** `visibleEvents`: the events at or before `now`, order kept. */
  function VisibleEvents(events: seq<RoutingEvent>, now: int): (v: seq<RoutingEvent>)
    ensures IsSubsequence(v, events) && |v| <= |events|
    ensures forall i :: 0 <= i < |v| ==> v[i].timestamp <= now
    ensures forall i :: 0 <= i < |events| && events[i].timestamp <= now ==> events[i] in v
  {
    KeepIsSubsequence(events, HappenedBy(now));
    Keep(events, HappenedBy(now))
  }

  /** With strictly increasing timestamps the visible events are a prefix:
      exactly the first `k` events, where every later event is still to come. */
  lemma VisibleIsPrefix(events: seq<RoutingEvent>, now: int) returns (k: nat)
    requires StrictlySortedBy(events, EventTime)
    ensures k <= |events| && VisibleEvents(events, now) == events[..k]
    ensures forall i :: k <= i < |events| ==> events[i].timestamp > now
  {
    k := 0;
    while k < |events| && events[k].timestamp <= now
      invariant k <= |events|
      invariant forall i :: 0 <= i < k ==> events[i].timestamp <= now
    {
      k := k + 1;
    }
    forall i | k <= i < |events|
      ensures events[i].timestamp > now
    {
      if i > k {
        assert EventTime(events[k]) < EventTime(events[i]);
      }
    }
    KeepPrefix(events, HappenedBy(now), k);
  }

  /** `isLatest`: the position of the last visible event. */
  function IsLatest(visible: seq<RoutingEvent>, idx: nat): bool {
    idx == |visible| - 1
  }

  /** The visible event `isLatest` marks is the newest event that has happened. */
  lemma LatestIsNewest(events: seq<RoutingEvent>, now: int)
    requires StrictlySortedBy(events, EventTime)
    requires |VisibleEvents(events, now)| > 0
    ensures forall i, j ::
              0 <= i < |VisibleEvents(events, now)| && IsLatest(VisibleEvents(events, now), i) &&
              0 <= j < |events| && events[j].timestamp <= now
              ==> events[j].timestamp <= VisibleEvents(events, now)[i].timestamp
  {
    var k := VisibleIsPrefix(events, now);
    var v := VisibleEvents(events, now);
    forall i | 0 <= i < |events| && events[i].timestamp <= now
      ensures events[i].timestamp <= v[|v| - 1].timestamp
    {
      assert i < k;
      if i < k - 1 {
        assert EventTime(events[i]) < EventTime(events[k - 1]);
      }
    }
  }

  /** Before the incident starts no event is visible. */
  lemma NoEventsBeforeIncident(now: int)
    requires now < INCIDENT_START
    ensures VisibleEvents(RoutingEvents(), now) == []
  {
    var k := VisibleIsPrefix(RoutingEvents(), now);
    assert k == 0;
  }

  /** Two minutes into the incident exactly the first two events are visible. */
  lemma FirstTwoEventsAtTwoMinutes()
    ensures VisibleEvents(RoutingEvents(), INCIDENT_START + 2 * MS_PER_MINUTE) == RoutingEvents()[..2]
  {
    var events := RoutingEvents();
    var k := VisibleIsPrefix(events, INCIDENT_START + 2 * MS_PER_MINUTE);
    assert events[1].timestamp <= INCIDENT_START + 2 * MS_PER_MINUTE < events[2].timestamp;
    assert k == 2;
  }

  /** Once the newest event has happened, every event is visible. */
  lemma AllVisibleOnceLastHappened(events: seq<RoutingEvent>, now: int)
    requires StrictlySortedBy(events, EventTime)
    requires |events| > 0 && events[|events| - 1].timestamp <= now
    ensures VisibleEvents(events, now) == events
  {
    var k := VisibleIsPrefix(events, now);
    assert k == |events|;
    assert events[..k] == events;
  }

  /** From the end of the simulated window on, all eight events are visible. */
  lemma AllEventsAtEnd(now: int)
    requires now >= MinutesAfterBase(240)
    ensures VisibleEvents(RoutingEvents(), now) == RoutingEvents()
  {
    AllVisibleOnceLastHappened(RoutingEvents(), now);
  }
}

=== FILE: seqs.dfy ===
/** Sequence helpers shared by the generator and the derived-data pipeline:
    order-preserving filtering (the model of `Array.prototype.filter`),
    subsequences, sortedness by an integer key and duplicate-freedom. */
module Seqs {

  /** The elements of `s` that satisfy `p`, in their original order. */
  function Keep<T(==)>(s: seq<T>, p: T -> bool): (r: seq<T>)
    ensures |r| <= |s|
    ensures forall i :: 0 <= i < |r| ==> r[i] in s && p(r[i])
    ensures forall i :: 0 <= i < |s| && p(s[i]) ==> s[i] in r
    decreases |s|
  {
    if |s| == 0 then []
    else (if p(s[0]) then [s[0]] else []) + Keep(s[1..], p)
  }

  /** `a` can be obtained from `b` by deleting elements (order is kept). */
  predicate IsSubsequence<T(==)>(a: seq<T>, b: seq<T>)
    decreases |b|
  {
    |a| == 0 ||
    (|b| > 0 && ((a[0] == b[0] && IsSubsequence(a[1..], b[1..])) || IsSubsequence(a, b[1..])))
  }

  /** Non-decreasing by `key`. */
  predicate SortedBy<T>(s: seq<T>, key: T -> int) {
    forall i, j :: 0 <= i <= j < |s| ==> key(s[i]) <= key(s[j])
  }

  /** Strictly increasing by `key`. */
  predicate StrictlySortedBy<T>(s: seq<T>, key: T -> int) {
    forall i, j :: 0 <= i < j < |s| ==> key(s[i]) < key(s[j])
  }

  predicate NoDup<T(==)>(s: seq<T>) {
    forall i, j :: 0 <= i < j < |s| ==> s[i] != s[j]
  }

  lemma {:induction false} KeepAppend<T>(a: seq<T>, b: seq<T>, p: T -> bool)
    ensures Keep(a + b, p) == Keep(a, p) + Keep(b, p)
    decreases |a|
  {
    if |a| == 0 {
      assert a + b == b;
    } else {
      assert (a + b)[1..] == a[1..] + b;
      KeepAppend(a[1..], b, p);
    }
  }

  /** Filtering with two predicates that agree on every element gives the same result. */
  lemma {:induction false} KeepAgree<T>(s: seq<T>, p: T -> bool, q: T -> bool)
    requires forall x :: x in s ==> p(x) == q(x)
    ensures Keep(s, p) == Keep(s, q)
    decreases |s|
  {
    if |s| > 0 {
      assert forall x :: x in s[1..] ==> x in s;
      KeepAgree(s[1..], p, q);
    }
  }

  /** Filtering twice is filtering once by the conjunction. */
  lemma {:induction false} KeepKeep<T>(s: seq<T>, p: T -> bool, q: T -> bool, pq: T -> bool)
    requires forall x :: pq(x) == (p(x) && q(x))
    ensures Keep(Keep(s, p), q) == Keep(s, pq)
    decreases |s|
  {
    if |s| > 0 {
      KeepKeep(s[1..], p, q, pq);
      var head := if p(s[0]) then [s[0]] else [];
      KeepAppend(head, Keep(s[1..], p), q);
      if p(s[0]) {
        assert Keep(head, q) == (if q(s[0]) then [s[0]] else []) + Keep(head[1..], q);
        assert head[1..] == [];
      } else {
        assert head == [];
      }
    }
  }

  /** On a sequence whose first `k` elements satisfy `p` and whose others do not,
      filtering by `p` is taking the first `k` elements. */
  lemma {:induction false} KeepPrefix<T>(s: seq<T>, p: T -> bool, k: nat)
    requires k <= |s|
    requires forall i :: 0 <= i < k ==> p(s[i])
    requires forall i :: k <= i < |s| ==> !p(s[i])
    ensures Keep(s, p) == s[..k]
    decreases |s|
  {
    if |s| > 0 {
      KeepPrefix(s[1..], p, if k == 0 then 0 else k - 1);
      if k > 0 {
        assert s[..k] == [s[0]] + s[1..][..k - 1];
      }
    }
  }

  lemma {:induction false} KeepIsSubsequence<T>(s: seq<T>, p: T -> bool)
    ensures IsSubsequence(Keep(s, p), s)
    decreases |s|
  {
    if |s| > 0 {
      KeepIsSubsequence(s[1..], p);
      var r := Keep(s, p);
      if p(s[0]) {
        assert r[0] == s[0] && r[1..] == Keep(s[1..], p);
      } else {
        assert r == Keep(s[1..], p);
      }
    }
  }

  /** Every element of a subsequence is an element of the original. */
  lemma {:induction false} SubsequenceMembers<T>(a: seq<T>, b: seq<T>)
    requires IsSubsequence(a, b)
    ensures forall x :: x in a ==> x in b
    decreases |b|
  {
    if |a| > 0 {
      if a[0] == b[0] && IsSubsequence(a[1..], b[1..]) {
        SubsequenceMembers(a[1..], b[1..]);
        assert forall x :: x in a ==> x == a[0] || x in a[1..];
      } else {
        SubsequenceMembers(a, b[1..]);
      }
    }
  }

  /** Deleting elements twice is deleting elements. */
  lemma {:induction false} SubsequenceTrans<T>(a: seq<T>, b: seq<T>, c: seq<T>)
    requires IsSubsequence(a, b) && IsSubsequence(b, c)
    ensures IsSubsequence(a, c)
    decreases |c|
  {
    if |a| > 0 {
      if b[0] == c[0] && IsSubsequence(b[1..], c[1..]) {
        if a[0] == b[0] && IsSubsequence(a[1..], b[1..]) {
          SubsequenceTrans(a[1..], b[1..], c[1..]);
        } else {
          SubsequenceTrans(a, b[1..], c[1..]);
        }
      } else {
        SubsequenceTrans(a, b, c[1..]);
      }
    }
  }

  /** A prefix is a subsequence. */
  lemma {:induction false} PrefixIsSubsequence<T>(s: seq<T>, n: nat)
    requires n <= |s|
    ensures IsSubsequence(s[..n], s)
    decreases n
  {
    if n > 0 {
      PrefixIsSubsequence(s[1..], n - 1);
      assert s[..n][1..] == s[1..][..n - 1];
    }
  }

  /** A subsequence of a sorted sequence is sorted. */
  lemma {:induction false} SubsequenceSorted<T>(a: seq<T>, b: seq<T>, key: T -> int)
    requires IsSubsequence(a, b)
    requires SortedBy(b, key)
    ensures SortedBy(a, key)
    decreases |b|
  {
    if |a| > 0 {
      assert SortedBy(b[1..], key);
      if a[0] == b[0] && IsSubsequence(a[1..], b[1..]) {
        SubsequenceSorted(a[1..], b[1..], key);
        SubsequenceMembers(a[1..], b[1..]);
        forall i, j | 0 <= i <= j < |a|
          ensures key(a[i]) <= key(a[j])
        {
          if i > 0 {
            assert a[i] == a[1..][i - 1] && a[j] == a[1..][j - 1];
          } else if j > 0 {
            assert a[j] in a[1..];
            var k :| 0 <= k < |b[1..]| && b[1..][k] == a[j];
            assert key(b[0]) <= key(b[k + 1]);
          }
        }
      } else {
        SubsequenceSorted(a, b[1..], key);
      }
    }
  }

  /** The last element kept is the last element of `s` that satisfies `p`;
      `j` is its index. */
  lemma {:induction false} KeepLast<T>(s: seq<T>, p: T -> bool) returns (j: nat)
    requires |Keep(s, p)| > 0
    ensures j < |s| && p(s[j])
    ensures Keep(s, p)[|Keep(s, p)| - 1] == s[j]
    ensures forall k :: j < k < |s| ==> !p(s[k])
    decreases |s|
  {
    var rest := Keep(s[1..], p);
    if |rest| > 0 {
      var j' := KeepLast(s[1..], p);
      j := j' + 1;
      assert Keep(s, p) == (if p(s[0]) then [s[0]] else []) + rest;
      forall k | j < k < |s| ensures !p(s[k]) {
        assert s[k] == s[1..][k - 1];
      }
    } else {
      j := 0;
      assert Keep(s, p) == (if p(s[0]) then [s[0]] else []) + rest;
      forall k | 0 < k < |s| ensures !p(s[k]) {
        assert s[k] == s[1..][k - 1];
        KeepEmpty(s[1..], p);
      }
    }
  }

  /** No element satisfies `p` exactly when nothing is kept. */
  lemma KeepEmpty<T>(s: seq<T>, p: T -> bool)
    ensures |Keep(s, p)| == 0 <==> forall i :: 0 <= i < |s| ==> !p(s[i])
  {
    if |Keep(s, p)| > 0 {
      var x := Keep(s, p)[0];
      assert x in Keep(s, p);
    } else {
      forall i | 0 <= i < |s| ensures !p(s[i]) {
        assert s[i] in s;
      }
    }
  }

  /** A table holding, for every key `k`, the row `row(k)`, and only such rows:
      filtering it by `p` keeps rows of the same shape, and keeps the row of a
      key exactly when `p` accepts that row. */
  lemma KeepIndexed<K, R>(all: seq<R>, row: K -> R, key: R -> K, p: R -> bool)
    requires forall i :: 0 <= i < |all| ==> all[i] == row(key(all[i]))
    requires forall k :: row(k) in all
    ensures forall i :: 0 <= i < |Keep(all, p)| ==> Keep(all, p)[i] == row(key(Keep(all, p)[i]))
    ensures forall k :: row(k) in Keep(all, p) <==> p(row(k))
  {
    var rows := Keep(all, p);
    forall i | 0 <= i < |rows|
      ensures rows[i] == row(key(rows[i]))
    {
      var j :| 0 <= j < |all| && all[j] == rows[i];
    }
    forall k
      ensures row(k) in rows <==> p(row(k))
    {
      assert row(k) in all;
      var j :| 0 <= j < |all| && all[j] == row(k);
    }
  }

  /** Two sorted sequences, every key of the first at most every key of the
      second, concatenate to a sorted sequence. */
  lemma SortedAppend<T>(a: seq<T>, b: seq<T>, key: T -> int)
    requires SortedBy(a, key) && SortedBy(b, key)
    requires forall i, j :: 0 <= i < |a| && 0 <= j < |b| ==> key(a[i]) <= key(b[j])
    ensures SortedBy(a + b, key)
  {
    forall i, j | 0 <= i <= j < |a + b|
      ensures key((a + b)[i]) <= key((a + b)[j])
    {
      if j < |a| {
        assert (a + b)[i] == a[i] && (a + b)[j] == a[j];
      } else if i < |a| {
        assert (a + b)[i] == a[i] && (a + b)[j] == b[j - |a|];
      } else {
        assert (a + b)[i] == b[i - |a|] && (a + b)[j] == b[j - |a|];
      }
    }
  }

  /** Increasing at every step is increasing throughout. */
  lemma {:induction false} StrictlySortedByAdjacent<T>(s: seq<T>, key: T -> int)
    requires forall i :: 0 < i < |s| ==> key(s[i - 1]) < key(s[i])
    ensures StrictlySortedBy(s, key)
    decreases |s|
  {
    if |s| > 1 {
      var t := s[..|s| - 1];
      assert forall i :: 0 < i < |t| ==> key(t[i - 1]) < key(t[i]) by {
        forall i | 0 < i < |t| ensures key(t[i - 1]) < key(t[i]) {
          assert t[i - 1] == s[i - 1] && t[i] == s[i];
        }
      }
      StrictlySortedByAdjacent(t, key);
      forall i, j | 0 <= i < j < |s|
        ensures key(s[i]) < key(s[j])
      {
        if j < |s| - 1 {
          assert s[i] == t[i] && s[j] == t[j];
        } else if i < j - 1 {
          assert s[i] == t[i] && s[j - 1] == t[j - 1];
        }
      }
    }
  }

  /** The sum of `f` over the elements of `s`. */
  function SumOf<T>(s: seq<T>, f: T -> int): int
    decreases |s|
  {
    if |s| == 0 then 0 else f(s[0]) + SumOf(s[1..], f)
  }

  /** Dropping the elements whose non-negative value is zero keeps the sum. */
  lemma {:induction false} SumKeepPositive<T>(s: seq<T>, f: T -> int, p: T -> bool)
    requires forall i :: 0 <= i < |s| ==> f(s[i]) >= 0
    requires forall x :: p(x) == (f(x) > 0)
    ensures SumOf(Keep(s, p), f) == SumOf(s, f)
    decreases |s|
  {
    if |s| > 0 {
      SumKeepPositive(s[1..], f, p);
      KeepAppend([s[0]], s[1..], p);
      assert s == [s[0]] + s[1..];
      if p(s[0]) {
        assert Keep(s, p) == [s[0]] + Keep(s[1..], p);
      } else {
        assert Keep(s, p) == Keep(s[1..], p);
      }
    }
  }

  lemma SumOfThree<T>(s: seq<T>, f: T -> int)
    requires |s| == 3
    ensures SumOf(s, f) == f(s[0]) + f(s[1]) + f(s[2])
  {
    var t := s[1..];
    var u := t[1..];
    assert SumOf(u, f) == f(u[0]) + SumOf(u[1..], f) && u[1..] == [];
    assert SumOf(t, f) == f(t[0]) + SumOf(u, f);
  }

  lemma SumOfFour<T>(s: seq<T>, f: T -> int)
    requires |s| == 4
    ensures SumOf(s, f) == f(s[0]) + f(s[1]) + f(s[2]) + f(s[3])
  {
    SumOfThree(s[1..], f);
  }
}

=== FILE: store.dfy ===
/** The dashboard store as a state machine: the simulated clock (time, running,
    speed), the filter selection, the alert threshold and the comparison flag,
    with one pure transition per store action. The incident record the store
    also holds is a constant no action touches and is not part of the state. */
module Store {
  import opened Seqs
  import opened Wrappers
  import opened Domain

  /** 21:00 local time: the end of recovery, four hours after the base date. */
  const SIMULATION_END: int := MinutesAfterBase(240)

  datatype State = State(
    time: int,
    running: bool,
    speed: int,
    filters: DashboardFilters,
    alertThreshold: real,
    comparisonMode: bool)

  /** The countries and methods in the order the default filter lists them. */
  function AllCountries(): (cs: seq<Country>)
    ensures NoDup(cs) && |cs| == 3
    ensures BR in cs && MX in cs && CO in cs
  {
    [BR, MX, CO]
  }

  function AllMethods(): (ms: seq<PaymentMethod>)
    ensures NoDup(ms) && |ms| == 4
    ensures CreditCard in ms && DebitCard in ms && Pix in ms && Oxxo in ms
  {
    [CreditCard, DebitCard, Pix, Oxxo]
  }

  /** DEFAULT_FILTERS: since the incident, every country, every method. */
  function DefaultFilters(): (f: DashboardFilters)
    ensures f.timePeriod == SinceIncident
    ensures f.countries == AllCountries() && f.paymentMethods == AllMethods()
  {
    DashboardFilters(SinceIncident, AllCountries(), AllMethods())
  }

  /** The store's invariant: the clock inside the simulated window, non-empty
      duplicate-free selections and a threshold in [0, 1]. */
  predicate Valid(s: State) {
    && BASE_DATE <= s.time <= SIMULATION_END
    && |s.filters.countries| > 0 && NoDup(s.filters.countries)
    && |s.filters.paymentMethods| > 0 && NoDup(s.filters.paymentMethods)
    && 0.0 <= s.alertThreshold <= 1.0
  }

  /** The state on load: half an hour into the incident, running at 1x, default
      filters, an 80% threshold and no comparison. */
  function Initial(): (s: State)
    ensures Valid(s)
    ensures s.time == INCIDENT_START + 30 * MS_PER_MINUTE && BASE_DATE < s.time < SIMULATION_END
    ensures s.running && s.speed == 1 && !s.comparisonMode
    ensures s.filters == DefaultFilters() && s.alertThreshold == 0.8
  {
    State(INCIDENT_START + 30 * MS_PER_MINUTE, true, 1, DefaultFilters(), 0.8, false)
  }

  /** `advanceSimulationTime(minutes)`: move the clock by minutes * speed minutes,
      wrapping to the base date once the end of the window is reached. */
  function Advance(s: State, minutes: int): (r: State)
    ensures s.time + minutes * s.speed * MS_PER_MINUTE < SIMULATION_END ==>
      r.time == s.time + minutes * s.speed * MS_PER_MINUTE
    ensures s.time + minutes * s.speed * MS_PER_MINUTE >= SIMULATION_END ==> r.time == BASE_DATE
    ensures r.time < SIMULATION_END
    ensures r.(time := s.time) == s
  {
    var next := s.time + minutes * s.speed * MS_PER_MINUTE;
    if next >= SIMULATION_END then s.(time := BASE_DATE) else s.(time := next)
  }

  /** Moving forward from inside the window stays inside it, short of its end. */
  lemma AdvanceStaysInWindow(s: State, minutes: int)
    requires BASE_DATE <= s.time <= SIMULATION_END
    requires minutes * s.speed >= 0
    ensures BASE_DATE <= Advance(s, minutes).time < SIMULATION_END
  {
    assert minutes * s.speed * MS_PER_MINUTE >= 0;
  }

  /** The cases the store tests exercise: one minute at 1x and 3x, and five
      minutes from minute 239, which wraps to the base date. */
  lemma AdvanceExamples(s: State)
    requires s.time == BASE_DATE
    ensures Advance(s.(speed := 1), 1).time - s.time == 60000
    ensures Advance(s.(speed := 3), 1).time - s.time == 3 * 60000
    ensures Advance(s.(speed := 1, time := MinutesAfterBase(239)), 5).time == BASE_DATE
  {
  }

  /** `toggleSimulation`: pause or resume. */
  function ToggleSimulation(s: State): (r: State)
    ensures r.running != s.running
    ensures r.(running := s.running) == s
  {
    s.(running := !s.running)
  }

  lemma ToggleSimulationInvolutive(s: State)
    ensures ToggleSimulation(ToggleSimulation(s)) == s
  {
  }

  /** `setSimulationSpeed(speed)`. */
  function SetSpeed(s: State, speed: int): (r: State)
    ensures r.speed == speed
    ensures r.(speed := s.speed) == s
  {
    s.(speed := speed)
  }

  /** `resetSimulation`: back to the base date, running. */
  function ResetSimulation(s: State): (r: State)
    ensures r.time == BASE_DATE && r.running
    ensures r.(time := s.time, running := s.running) == s
  {
    s.(time := BASE_DATE, running := true)
  }

  /** `seekToTime(target)`: jump to the target clamped into the window. */
  function Seek(s: State, target: int): (r: State)
    ensures BASE_DATE <= r.time <= SIMULATION_END
    ensures BASE_DATE <= target <= SIMULATION_END ==> r.time == target
    ensures target < BASE_DATE ==> r.time == BASE_DATE
    ensures target > SIMULATION_END ==> r.time == SIMULATION_END
    ensures r.(time := s.time) == s
  {
    var clamped := if target < BASE_DATE then BASE_DATE
      else if target > SIMULATION_END then SIMULATION_END
      else target;
    s.(time := clamped)
  }

  /** Seeking to the instant the clock already shows changes nothing, so a second
      seek to the same target is a no-op. */
  lemma SeekIdempotent(s: State, target: int)
    ensures Seek(Seek(s, target), target) == Seek(s, target)
    ensures BASE_DATE <= s.time <= SIMULATION_END ==> Seek(s, s.time) == s
  {
  }

  /** A partial filter update: `None` keeps the current value. */
  datatype FilterPatch = FilterPatch(
    timePeriod: Option<TimePeriod>,
    countries: Option<seq<Country>>,
    paymentMethods: Option<seq<PaymentMethod>>)

  function Override<T>(current: T, supplied: Option<T>): T {
    if supplied.Some? then supplied.value else current
  }

  /** `setFilters(partial)`: the supplied fields replace the current ones. */
  function SetFilters(s: State, patch: FilterPatch): (r: State)
    ensures patch.timePeriod.Some? ==> r.filters.timePeriod == patch.timePeriod.value
    ensures patch.timePeriod.None? ==> r.filters.timePeriod == s.filters.timePeriod
    ensures patch.countries.Some? ==> r.filters.countries == patch.countries.value
    ensures patch.countries.None? ==> r.filters.countries == s.filters.countries
    ensures patch.paymentMethods.Some? ==> r.filters.paymentMethods == patch.paymentMethods.value
    ensures patch.paymentMethods.None? ==> r.filters.paymentMethods == s.filters.paymentMethods
    ensures r.(filters := s.filters) == s
  {
    s.(filters := DashboardFilters(
      Override(s.filters.timePeriod, patch.timePeriod),
      Override(s.filters.countries, patch.countries),
      Override(s.filters.paymentMethods, patch.paymentMethods)))
  }

  /** An empty update changes nothing, and applying the same update twice is
      applying it once. */
  lemma SetFiltersLaws(s: State, patch: FilterPatch)
    ensures SetFilters(s, FilterPatch(None, None, None)) == s
    ensures SetFilters(SetFilters(s, patch), patch) == SetFilters(s, patch)
  {
  }

  /** `resetFilters`. */
  function ResetFilters(s: State): (r: State)
    ensures r.filters.timePeriod == SinceIncident
    ensures r.filters.countries == [BR, MX, CO]
    ensures r.filters.paymentMethods == [CreditCard, DebitCard, Pix, Oxxo]
    ensures NoDup(r.filters.countries) && NoDup(r.filters.paymentMethods)
    ensures r.(filters := s.filters) == s
  {
    s.(filters := DefaultFilters())
  }

  function Without<T(==)>(current: seq<T>, x: T): seq<T> {
    Keep(current, y => y != x)
  }

  /** The add-or-remove step shared by `toggleCountry` and `togglePaymentMethod`:
      remove a present item, append an absent one, and keep the list unchanged
      when removal would empty it. */
  function Toggle<T(==)>(current: seq<T>, x: T): (next: seq<T>)
    ensures x !in current ==> next == current + [x]
    ensures x in current && next != current ==> x !in next
    ensures x in current && next != current ==>
      (forall i :: 0 <= i < |next| ==> next[i] in current) &&
      (forall i :: 0 <= i < |current| && current[i] != x ==> current[i] in next)
    ensures x in current && (exists i :: 0 <= i < |current| && current[i] != x) ==> x !in next
    ensures |next| > 0
    ensures NoDup(current) ==> NoDup(next)
  {
    if x in current then
      var removed := Without(current, x);
      WithoutMembers(current, x);
      WithoutKeepsNoDup(current, x);
      if |removed| == 0 then current else removed
    else
      assert NoDup(current) ==> NoDup(current + [x]);
      current + [x]
  }

  lemma WithoutMembers<T>(current: seq<T>, x: T)
    ensures x !in Without(current, x)
    ensures forall i :: 0 <= i < |Without(current, x)| ==> Without(current, x)[i] in current
    ensures forall i :: 0 <= i < |current| && current[i] != x ==> current[i] in Without(current, x)
    ensures (exists i :: 0 <= i < |current| && current[i] != x) ==> |Without(current, x)| > 0
  {
  }

  lemma {:induction false} WithoutKeepsNoDup<T>(current: seq<T>, x: T)
    ensures NoDup(current) ==> NoDup(Without(current, x))
    decreases |current|
  {
    if |current| > 0 && NoDup(current) {
      assert NoDup(current[1..]);
      WithoutKeepsNoDup(current[1..], x);
      assert current == [current[0]] + current[1..];
      KeepAppend([current[0]], current[1..], y => y != x);
      WithoutMembers(current[1..], x);
      assert current[0] !in current[1..];
    }
  }

  /** Adding an absent item and toggling it again restores the list. */
  lemma ToggleAddRemove<T>(current: seq<T>, x: T)
    requires x !in current && |current| > 0
    ensures Toggle(Toggle(current, x), x) == current
  {
    KeepAppend(current, [x], y => y != x);
    KeepPrefix(current, y => y != x, |current|);
    assert current[..|current|] == current;
  }

  /** Removing the only selected item is refused. */
  lemma ToggleKeepsLastItem<T>(x: T)
    ensures Toggle([x], x) == [x]
  {
  }

  /** `toggleCountry(country)`. */
  function ToggleCountry(s: State, c: Country): (r: State)
    ensures r.filters.countries == Toggle(s.filters.countries, c)
    ensures r.(filters := s.filters) == s
    ensures r.filters.timePeriod == s.filters.timePeriod
    ensures r.filters.paymentMethods == s.filters.paymentMethods
  {
    var next := Toggle(s.filters.countries, c);
    s.(filters := s.filters.(countries := next))
  }

  /** `togglePaymentMethod(method)`. */
  function TogglePaymentMethod(s: State, m: PaymentMethod): (r: State)
    ensures r.filters.paymentMethods == Toggle(s.filters.paymentMethods, m)
    ensures r.(filters := s.filters) == s
    ensures r.filters.timePeriod == s.filters.timePeriod
    ensures r.filters.countries == s.filters.countries
  {
    var next := Toggle(s.filters.paymentMethods, m);
    s.(filters := s.filters.(paymentMethods := next))
  }

  /** The filter cases the store tests exercise. */
  lemma ToggleCountryExamples(s: State)
    requires s.filters.countries == [BR, MX, CO]
    ensures CO !in ToggleCountry(s, CO).filters.countries
    ensures CO in ToggleCountry(s.(filters := s.filters.(countries := [BR, MX])), CO).filters.countries
    ensures BR in ToggleCountry(s.(filters := s.filters.(countries := [BR])), BR).filters.countries
    ensures ResetFilters(ToggleCountry(s, CO)).filters.countries == [BR, MX, CO]
  {
    assert s.filters.countries[0] != CO;
  }

  /** `setAlertThreshold(t)`: the threshold clamped into [0, 1]. */
  function SetAlertThreshold(s: State, t: real): (r: State)
    ensures 0.0 <= r.alertThreshold <= 1.0
    ensures 0.0 <= t <= 1.0 ==> r.alertThreshold == t
    ensures t < 0.0 ==> r.alertThreshold == 0.0
    ensures t > 1.0 ==> r.alertThreshold == 1.0
    ensures r.(alertThreshold := s.alertThreshold) == s
  {
    var upper := if t < 1.0 then t else 1.0;
    s.(alertThreshold := if upper > 0.0 then upper else 0.0)
  }

  lemma SetAlertThresholdIdempotent(s: State, t: real)
    ensures SetAlertThreshold(SetAlertThreshold(s, t), SetAlertThreshold(s, t).alertThreshold)
      == SetAlertThreshold(s, t)
  {
  }

  /** `toggleComparisonMode`. */
  function ToggleComparisonMode(s: State): (r: State)
    ensures r.comparisonMode != s.comparisonMode
    ensures r.(comparisonMode := s.comparisonMode) == s
  {
    s.(comparisonMode := !s.comparisonMode)
  }

  /** Every store action, with its argument. */
  datatype Action =
    | AdvanceTime(minutes: int)
    | ToggleSim
    | SetSimSpeed(speed: int)
    | ResetSim
    | SeekTo(target: int)
    | SetFilterFields(patch: FilterPatch)
    | ResetAllFilters
    | ToggleCountryIn(country: Country)
    | ToggleMethodIn(paymentMethod: PaymentMethod)
    | SetThreshold(threshold: real)
    | ToggleComparison

  function Apply(s: State, a: Action): State {
    match a
    case AdvanceTime(minutes) => Advance(s, minutes)
    case ToggleSim => ToggleSimulation(s)
    case SetSimSpeed(speed) => SetSpeed(s, speed)
    case ResetSim => ResetSimulation(s)
    case SeekTo(target) => Seek(s, target)
    case SetFilterFields(patch) => SetFilters(s, patch)
    case ResetAllFilters => ResetFilters(s)
    case ToggleCountryIn(c) => ToggleCountry(s, c)
    case ToggleMethodIn(m) => TogglePaymentMethod(s, m)
    case SetThreshold(t) => SetAlertThreshold(s, t)
    case ToggleComparison => ToggleComparisonMode(s)
  }

  /** What an action needs to keep the invariant: a clock that does not run
      backwards, and supplied filter lists that are themselves valid. */
  predicate Admissible(s: State, a: Action) {
    match a
    case AdvanceTime(minutes) => minutes * s.speed >= 0
    case SetFilterFields(patch) =>
      && (patch.countries.Some? ==> |patch.countries.value| > 0 && NoDup(patch.countries.value))
      && (patch.paymentMethods.Some? ==> |patch.paymentMethods.value| > 0 && NoDup(patch.paymentMethods.value))
    case _ => true
  }

  /** The invariant holds initially and every admissible action preserves it. */
  lemma ApplyPreservesValid(s: State, a: Action)
    requires Valid(s) && Admissible(s, a)
    ensures Valid(Apply(s, a))
  {
    match a
    case AdvanceTime(minutes) => AdvanceStaysInWindow(s, minutes);
    case _ =>
  }

  /** Any admissible sequence of actions from the initial state keeps the invariant. */
  function Run(s: State, actions: seq<Action>): State
    decreases |actions|
  {
    if |actions| == 0 then s else Run(Apply(s, actions[0]), actions[1..])
  }

  predicate AllAdmissible(s: State, actions: seq<Action>)
    decreases |actions|
  {
    |actions| == 0 || (Admissible(s, actions[0]) && AllAdmissible(Apply(s, actions[0]), actions[1..]))
  }

  lemma {:induction false} RunPreservesValid(s: State, actions: seq<Action>)
    requires Valid(s) && AllAdmissible(s, actions)
    ensures Valid(Run(s, actions))
    decreases |actions|
  {
    if |actions| > 0 {
      ApplyPreservesValid(s, actions[0]);
      RunPreservesValid(Apply(s, actions[0]), actions[1..]);
    }
  }
}

=== FILE: time_buckets.dfy ===
/** The five-minute bucket aggregation (`useTimeBuckets`): the range runs from
    the first record's timestamp rounded down to the last one's rounded up, and
    each bucket counts, per processor and overall, the records in [t, t + 5 min).
    `Bucketize` is the aggregation as written; `BucketizeCovering` ends the
    range one bucket after the last record's bucket start, so that a record
    exactly on a five-minute boundary at the end is not dropped. */
module TimeBuckets {
  import opened Seqs
  import opened Domain
  import opened Aggregates

  const BUCKET_SIZE_MS: int := 5 * MS_PER_MINUTE

  /** `Math.floor(x / W) * W`: the bucket boundary at or below `x`. */
  function FloorTo(x: int): (r: int)
    ensures r % BUCKET_SIZE_MS == 0
    ensures r <= x < r + BUCKET_SIZE_MS
  {
    (x / BUCKET_SIZE_MS) * BUCKET_SIZE_MS
  }

  /** `Math.ceil(x / W) * W`: the bucket boundary at or above `x`. */
  function CeilTo(x: int): (r: int)
    ensures r % BUCKET_SIZE_MS == 0
    ensures r - BUCKET_SIZE_MS < x <= r
    ensures x % BUCKET_SIZE_MS == 0 ==> r == x
    ensures x % BUCKET_SIZE_MS != 0 ==> r == FloorTo(x) + BUCKET_SIZE_MS
  {
    var q := x / BUCKET_SIZE_MS;
    var m := x % BUCKET_SIZE_MS;
    assert x == q * BUCKET_SIZE_MS + m;
    if m == 0 then
      assert -x == (-q) * BUCKET_SIZE_MS;
      -((-x) / BUCKET_SIZE_MS) * BUCKET_SIZE_MS
    else
      assert -x == (-q - 1) * BUCKET_SIZE_MS + (BUCKET_SIZE_MS - m);
      -((-x) / BUCKET_SIZE_MS) * BUCKET_SIZE_MS
  }

  /** The loop `for (t = start; t < end; t += W)`: the bucket starts. */
  function BucketStarts(start: int, end: int): (ts: seq<int>)
    ensures forall i :: 0 <= i < |ts| ==> ts[i] == start + i * BUCKET_SIZE_MS
    ensures forall i :: 0 <= i < |ts| ==> ts[i] < end
    ensures start < end ==> end <= start + |ts| * BUCKET_SIZE_MS
    ensures start >= end ==> |ts| == 0
    decreases end - start
  {
    if start >= end then []
    else [start] + BucketStarts(start + BUCKET_SIZE_MS, end)
  }

  /** From `start` to `n` widths later the loop runs exactly `n` times. */
  lemma {:induction false} BucketCount(start: int, n: nat)
    ensures |BucketStarts(start, start + n * BUCKET_SIZE_MS)| == n
    decreases n
  {
    if n > 0 {
      BucketCount(start + BUCKET_SIZE_MS, n - 1);
      assert start + n * BUCKET_SIZE_MS == (start + BUCKET_SIZE_MS) + (n - 1) * BUCKET_SIZE_MS;
    }
  }

  /** Between two boundaries the loop runs once per bucket. */
  lemma BucketStartsCount(start: int, end: int)
    requires start <= end && (end - start) % BUCKET_SIZE_MS == 0
    ensures |BucketStarts(start, end)| * BUCKET_SIZE_MS == end - start
  {
    var k := (end - start) / BUCKET_SIZE_MS;
    assert end == start + k * BUCKET_SIZE_MS;
    BucketCount(start, k);
  }

  function InRange(lo: int, hi: int): Transaction -> bool {
    (t: Transaction) => lo <= t.timestamp < hi
  }

  datatype ProcessorBucket = ProcessorBucket(
    authRate: real,
    baselineAuthRate: real,
    volume: nat,
    authorized: nat,
    declined: int,
    status: ProcessorStatus)

  /** A value per processor (`Record<ProcessorId, T>`). */
  datatype PerProcessor<T> = PerProcessor(a: T, b: T, c: T) {
    function Of(p: ProcessorId): T {
      match p
      case ProcessorA => a
      case ProcessorB => b
      case ProcessorC => c
    }
  }

  datatype TimeBucket = TimeBucket(
    timestamp: int,
    processors: PerProcessor<ProcessorBucket>,
    totalVolume: nat,
    overallAuthRate: real)

  /** One processor's figures within a bucket. */
  function ProcessorBucketOf(inBucket: seq<Transaction>, pid: ProcessorId): (b: ProcessorBucket)
    ensures b.volume == |Keep(inBucket, OfProcessor(pid))|
    ensures b.authorized == |Keep(Keep(inBucket, OfProcessor(pid)), IsAuthorized())|
    ensures b.authorized <= b.volume && b.declined == b.volume - b.authorized
    ensures 0.0 <= b.authRate <= 1.0
    ensures b.volume > 0 ==> b.authRate == b.authorized as real / b.volume as real
    ensures b.volume == 0 ==> b.authRate == 0.0
    ensures b.baselineAuthRate == BaselineAuthRate(pid)
    ensures b.status == LastStatus(Keep(inBucket, OfProcessor(pid)))
  {
    var tally := TallyOf(inBucket, OfProcessor(pid));
    var procTx := Keep(inBucket, OfProcessor(pid));
    ProcessorBucket(tally.authRate, BaselineAuthRate(pid), tally.volume, tally.authorized,
      tally.volume - tally.authorized, LastStatus(procTx))
  }

  /** The per-processor figures of one bucket's records: the three volumes
      count every record once. */
  function ProcessorBuckets(inBucket: seq<Transaction>): (pb: PerProcessor<ProcessorBucket>)
    ensures pb.Of(ProcessorA) == ProcessorBucketOf(inBucket, ProcessorA)
    ensures pb.Of(ProcessorB) == ProcessorBucketOf(inBucket, ProcessorB)
    ensures pb.Of(ProcessorC) == ProcessorBucketOf(inBucket, ProcessorC)
    ensures pb.a.volume + pb.b.volume + pb.c.volume == |inBucket|
  {
    ProcessorVolumesSum(inBucket);
    PerProcessor(
      ProcessorBucketOf(inBucket, ProcessorA),
      ProcessorBucketOf(inBucket, ProcessorB),
      ProcessorBucketOf(inBucket, ProcessorC))
  }

  /** The bucket starting at `t`: the records in [t, t + W), per processor and overall. */
  function MakeBucket(recs: seq<Transaction>, t: int): (b: TimeBucket)
    ensures b.timestamp == t
    ensures b.totalVolume == |Keep(recs, InRange(t, t + BUCKET_SIZE_MS))|
    ensures b.totalVolume == b.processors.a.volume + b.processors.b.volume + b.processors.c.volume
    ensures b.processors.Of(ProcessorA) == ProcessorBucketOf(Keep(recs, InRange(t, t + BUCKET_SIZE_MS)), ProcessorA)
    ensures b.processors.Of(ProcessorB) == ProcessorBucketOf(Keep(recs, InRange(t, t + BUCKET_SIZE_MS)), ProcessorB)
    ensures b.processors.Of(ProcessorC) == ProcessorBucketOf(Keep(recs, InRange(t, t + BUCKET_SIZE_MS)), ProcessorC)
    ensures 0.0 <= b.overallAuthRate <= 1.0
    ensures b.totalVolume == 0 ==> b.overallAuthRate == 0.0
    ensures b.totalVolume > 0 ==>
      b.overallAuthRate == |Keep(Keep(recs, InRange(t, t + BUCKET_SIZE_MS)), IsAuthorized())| as real / b.totalVolume as real
  {
    var inBucket := Keep(recs, InRange(t, t + BUCKET_SIZE_MS));
    TimeBucket(t, ProcessorBuckets(inBucket), |inBucket|, Rate(AuthorizedCount(inBucket), |inBucket|))
  }

  function BucketsAt(recs: seq<Transaction>, starts: seq<int>): (bs: seq<TimeBucket>)
    ensures |bs| == |starts|
    ensures forall i :: 0 <= i < |bs| ==> bs[i] == MakeBucket(recs, starts[i])
  {
    seq(|starts|, i requires 0 <= i < |starts| => MakeBucket(recs, starts[i]))
  }

  /** The first bucket start: the first record's timestamp rounded down. */
  function RangeStart(recs: seq<Transaction>): int
    requires |recs| > 0
  {
    FloorTo(recs[0].timestamp)
  }

  /** The end of the range as written: the last record's timestamp rounded up. */
  function AsWrittenEnd(recs: seq<Transaction>): int
    requires |recs| > 0
  {
    CeilTo(recs[|recs| - 1].timestamp)
  }

  /** The corrected end: one bucket past the last record's bucket start. */
  function CoveringEnd(recs: seq<Transaction>): int
    requires |recs| > 0
  {
    FloorTo(recs[|recs| - 1].timestamp) + BUCKET_SIZE_MS
  }

  /** The bucket starts of the range as written. */
  function Starts(recs: seq<Transaction>): seq<int> {
    if |recs| == 0 then [] else BucketStarts(RangeStart(recs), AsWrittenEnd(recs))
  }

  /** The bucket starts of the corrected range. */
  function CoveringStarts(recs: seq<Transaction>): seq<int> {
    if |recs| == 0 then [] else BucketStarts(RangeStart(recs), CoveringEnd(recs))
  }

  /** `useTimeBuckets` as written: one bucket per start, empty input giving none. */
  function Bucketize(recs: seq<Transaction>): (bs: seq<TimeBucket>)
    ensures |recs| == 0 ==> bs == []
    ensures |bs| == |Starts(recs)|
    ensures forall i :: 0 <= i < |bs| ==> bs[i] == MakeBucket(recs, Starts(recs)[i])
  {
    BucketsAt(recs, Starts(recs))
  }

  /** The corrected aggregation over the covering range. */
  function BucketizeCovering(recs: seq<Transaction>): (bs: seq<TimeBucket>)
    ensures |recs| == 0 ==> bs == []
    ensures |bs| == |CoveringStarts(recs)|
    ensures forall i :: 0 <= i < |bs| ==> bs[i] == MakeBucket(recs, CoveringStarts(recs)[i])
  {
    BucketsAt(recs, CoveringStarts(recs))
  }

  /** The as-written range: contiguous W-wide buckets from the first record's
      boundary, as many as fit below the rounded-up last timestamp. */
  lemma StartsShape(recs: seq<Transaction>)
    requires |recs| > 0 && SortedByTime(recs)
    ensures forall i :: 0 <= i < |Starts(recs)| ==> Starts(recs)[i] == RangeStart(recs) + i * BUCKET_SIZE_MS
    ensures |Starts(recs)| * BUCKET_SIZE_MS == AsWrittenEnd(recs) - RangeStart(recs)
  {
    assert TimestampOf(recs[0]) <= TimestampOf(recs[|recs| - 1]);
    BucketStartsCount(RangeStart(recs), AsWrittenEnd(recs));
  }

  /** The corrected range has one more bucket than the as-written one exactly
      when the last timestamp is a boundary, and the same number otherwise. */
  lemma CoveringAddsBoundaryBucket(recs: seq<Transaction>)
    requires |recs| > 0 && SortedByTime(recs)
    ensures recs[|recs| - 1].timestamp % BUCKET_SIZE_MS == 0 ==> |CoveringStarts(recs)| == |Starts(recs)| + 1
    ensures recs[|recs| - 1].timestamp % BUCKET_SIZE_MS != 0 ==> |CoveringStarts(recs)| == |Starts(recs)|
  {
    var lo, last := RangeStart(recs), recs[|recs| - 1].timestamp;
    assert TimestampOf(recs[0]) <= TimestampOf(recs[|recs| - 1]);
    assert lo % BUCKET_SIZE_MS == 0 && lo <= last;
    BoundaryCount(lo, last);
    assert Starts(recs) == BucketStarts(lo, CeilTo(last));
    assert CoveringStarts(recs) == BucketStarts(lo, FloorTo(last) + BUCKET_SIZE_MS);
  }

  lemma BoundaryCount(lo: int, last: int)
    requires lo % BUCKET_SIZE_MS == 0 && lo <= last
    ensures last % BUCKET_SIZE_MS == 0 ==>
      |BucketStarts(lo, FloorTo(last) + BUCKET_SIZE_MS)| == |BucketStarts(lo, CeilTo(last))| + 1
    ensures last % BUCKET_SIZE_MS != 0 ==>
      |BucketStarts(lo, FloorTo(last) + BUCKET_SIZE_MS)| == |BucketStarts(lo, CeilTo(last))|
  {
    var n := last / BUCKET_SIZE_MS - lo / BUCKET_SIZE_MS;
    assert lo == (lo / BUCKET_SIZE_MS) * BUCKET_SIZE_MS;
    assert FloorTo(last) == lo + n * BUCKET_SIZE_MS;
    assert n >= 0;
    assert FloorTo(last) + BUCKET_SIZE_MS == lo + (n + 1) * BUCKET_SIZE_MS;
    BucketCount(lo, n + 1);
    if last % BUCKET_SIZE_MS == 0 {
      assert CeilTo(last) == lo + n * BUCKET_SIZE_MS;
      BucketCount(lo, n);
    } else {
      assert CeilTo(last) == lo + (n + 1) * BUCKET_SIZE_MS;
    }
  }

  /** Bucket `i` of a range starting at `start` contains `ts` exactly when `i`
      is the quotient of the offset by W. */
  lemma BucketIndexUnique(start: int, ts: int, i: int)
    requires start <= ts
    ensures (start + i * BUCKET_SIZE_MS <= ts < start + i * BUCKET_SIZE_MS + BUCKET_SIZE_MS)
      <==> i == (ts - start) / BUCKET_SIZE_MS
  {
    var q := (ts - start) / BUCKET_SIZE_MS;
    assert start + q * BUCKET_SIZE_MS <= ts < start + q * BUCKET_SIZE_MS + BUCKET_SIZE_MS;
    if i < q {
      assert (i + 1) * BUCKET_SIZE_MS <= q * BUCKET_SIZE_MS;
    } else if i > q {
      assert (q + 1) * BUCKET_SIZE_MS <= i * BUCKET_SIZE_MS;
    }
  }

  /** An instant inside [start, end) lies in exactly one bucket of the loop. */
  lemma InstantInOneBucket(start: int, end: int, ts: int) returns (i: nat)
    requires start <= ts < end
    ensures i < |BucketStarts(start, end)|
    ensures BucketStarts(start, end)[i] <= ts < BucketStarts(start, end)[i] + BUCKET_SIZE_MS
    ensures forall j :: (0 <= j < |BucketStarts(start, end)| &&
      BucketStarts(start, end)[j] <= ts < BucketStarts(start, end)[j] + BUCKET_SIZE_MS) ==> j == i
  {
    var bs := BucketStarts(start, end);
    i := (ts - start) / BUCKET_SIZE_MS;
    BucketIndexUnique(start, ts, i);
    var n := |bs|;
    assert i * BUCKET_SIZE_MS < n * BUCKET_SIZE_MS;
    forall j | 0 <= j < n && bs[j] <= ts < bs[j] + BUCKET_SIZE_MS
      ensures j == i
    {
      BucketIndexUnique(start, ts, j);
    }
  }

  /** With the corrected range, every record of time-sorted input lies in exactly
      one bucket. */
  lemma CoveringPlacesEveryRecord(recs: seq<Transaction>, k: nat) returns (i: nat)
    requires SortedByTime(recs) && k < |recs|
    ensures i < |CoveringStarts(recs)|
    ensures recs[k] in Keep(recs, InRange(CoveringStarts(recs)[i], CoveringStarts(recs)[i] + BUCKET_SIZE_MS))
    ensures forall j :: (0 <= j < |CoveringStarts(recs)| &&
      CoveringStarts(recs)[j] <= recs[k].timestamp < CoveringStarts(recs)[j] + BUCKET_SIZE_MS) ==> j == i
  {
    assert TimestampOf(recs[0]) <= TimestampOf(recs[k]) <= TimestampOf(recs[|recs| - 1]);
    i := InstantInOneBucket(RangeStart(recs), CoveringEnd(recs), recs[k].timestamp);
    assert InRange(CoveringStarts(recs)[i], CoveringStarts(recs)[i] + BUCKET_SIZE_MS)(recs[k]);
  }

  /** As written, a record below the rounded-up end is placed like in the
      corrected range; only one exactly at that end is left out. */
  lemma AsWrittenPlacesRecordsBelowEnd(recs: seq<Transaction>, k: nat) returns (i: nat)
    requires SortedByTime(recs) && k < |recs|
    requires recs[k].timestamp < AsWrittenEnd(recs)
    ensures i < |Starts(recs)|
    ensures recs[k] in Keep(recs, InRange(Starts(recs)[i], Starts(recs)[i] + BUCKET_SIZE_MS))
  {
    assert TimestampOf(recs[0]) <= TimestampOf(recs[k]);
    i := InstantInOneBucket(RangeStart(recs), AsWrittenEnd(recs), recs[k].timestamp);
    assert InRange(Starts(recs)[i], Starts(recs)[i] + BUCKET_SIZE_MS)(recs[k]);
  }

  /** As written, a last record exactly on a five-minute boundary lies in no
      bucket: the rounded-up end is its own timestamp and the loop stops before it. */
  lemma BoundaryRecordDropped(recs: seq<Transaction>)
    requires |recs| > 0
    requires recs[|recs| - 1].timestamp % BUCKET_SIZE_MS == 0
    ensures forall j :: 0 <= j < |Starts(recs)| ==>
      recs[|recs| - 1] !in Keep(recs, InRange(Starts(recs)[j], Starts(recs)[j] + BUCKET_SIZE_MS))
  {
    var last := recs[|recs| - 1];
    forall j | 0 <= j < |Starts(recs)|
      ensures last !in Keep(recs, InRange(Starts(recs)[j], Starts(recs)[j] + BUCKET_SIZE_MS))
    {
      assert Starts(recs)[j] < AsWrittenEnd(recs) == last.timestamp;
      assert Starts(recs)[j] + BUCKET_SIZE_MS <= last.timestamp by {
        assert Starts(recs)[j] % BUCKET_SIZE_MS == 0 by {
          assert Starts(recs)[j] == RangeStart(recs) + j * BUCKET_SIZE_MS;
          BoundaryShift(RangeStart(recs), j);
        }
        BoundaryGap(Starts(recs)[j], last.timestamp);
      }
    }
  }

  lemma BoundaryShift(b: int, j: int)
    requires b % BUCKET_SIZE_MS == 0
    ensures (b + j * BUCKET_SIZE_MS) % BUCKET_SIZE_MS == 0
  {
    var q := b / BUCKET_SIZE_MS;
    assert b + j * BUCKET_SIZE_MS == (q + j) * BUCKET_SIZE_MS;
  }

  /** Two distinct boundaries are at least W apart. */
  lemma BoundaryGap(a: int, b: int)
    requires a % BUCKET_SIZE_MS == 0 && b % BUCKET_SIZE_MS == 0 && a < b
    ensures a + BUCKET_SIZE_MS <= b
  {
    var qa := a / BUCKET_SIZE_MS;
    var qb := b / BUCKET_SIZE_MS;
    assert a == qa * BUCKET_SIZE_MS && b == qb * BUCKET_SIZE_MS;
    assert qa < qb;
    assert (qa + 1) * BUCKET_SIZE_MS <= qb * BUCKET_SIZE_MS;
  }

  /** The concrete case: a lone record at the incident start (18:00, a five-minute
      boundary) produces no bucket as written, and one bucket holding it when
      corrected. */
  lemma LoneBoundaryRecordGivesNoBuckets(tx: Transaction)
    requires tx.timestamp == INCIDENT_START
    ensures Bucketize([tx]) == []
    ensures |BucketizeCovering([tx])| == 1 && BucketizeCovering([tx])[0].totalVolume == 1
  {
    assert CoveringStarts([tx]) == [INCIDENT_START];
    assert Keep([tx], InRange(INCIDENT_START, INCIDENT_START + BUCKET_SIZE_MS)) == [tx];
  }
}

=== FILE: utils.dfy ===
/** Shared helpers: the binary search used for the time cutoff, the
    "1h 23m 40s" duration format and the class-name joiner. */
module Utils {
  import opened Seqs
  import opened Decimal
  import opened Wrappers

  /** Every element of `arr` that satisfies `pred` comes before every element
      that does not: the precondition under which the binary search is exact. */
  predicate PrefixTrue<T>(arr: seq<T>, pred: T -> bool) {
    forall i, j :: 0 <= i < j < |arr| && pred(arr[j]) ==> pred(arr[i])
  }

  /** Binary search for the index of the last element satisfying `pred`, or -1.
      Whatever `arr` holds, the result is -1 or an index whose element satisfies
      `pred`; when `pred` holds on a prefix of `arr` and fails on the rest, the
      result is the last index of that prefix. */
  method UpperBoundIndex<T>(arr: seq<T>, pred: T -> bool) returns (result: int)
    ensures -1 <= result < |arr|
    ensures |arr| == 0 ==> result == -1
    ensures result >= 0 ==> pred(arr[result])
    ensures PrefixTrue(arr, pred) ==>
              (forall i :: 0 <= i <= result ==> pred(arr[i])) &&
              (forall i :: result < i < |arr| ==> !pred(arr[i]))
  {
    var lo := 0;
    var hi := |arr| - 1;
    result := -1;
    while lo <= hi
      invariant 0 <= lo <= |arr|
      invariant -1 <= hi < |arr|
      invariant hi >= lo - 1
      invariant result == lo - 1
      invariant result >= 0 ==> pred(arr[result])
      invariant PrefixTrue(arr, pred) ==> forall i :: 0 <= i < lo ==> pred(arr[i])
      invariant PrefixTrue(arr, pred) ==> forall i :: hi < i < |arr| ==> !pred(arr[i])
      decreases hi - lo
    {
      var mid := (lo + hi) / 2;
      if pred(arr[mid]) {
        result := mid;
        lo := mid + 1;
      } else {
        hi := mid - 1;
      }
    }
  }

  // ---------------------------------------------------------------------------
  // formatDuration

  /** Whole seconds shown for a duration of `ms` milliseconds (none when `ms <= 0`). */
  function TotalSeconds(ms: int): nat {
    if ms <= 0 then 0 else ms / 1000
  }

  /** The space-separated pieces of `formatDuration(ms)`. */
  function DurationParts(ms: int): seq<string> {
    if ms <= 0 then ["0s"] else ClockParts(ms / 1000)
  }

  /** The pieces for a positive duration of `total` whole seconds: they read
      back as `total`, and (by `ClockPartsUnique`) they are the only pieces
      that do. */
  function ClockParts(total: nat): (r: seq<string>)
    ensures |r| == (if total >= 3600 then 3 else if total >= 60 then 2 else 1)
    ensures ParseDurationParts(r) == Some(total)
  {
    ClockDecomposition(total);
    PartsOfReadBack(total / 3600, (total % 3600) / 60, total % 60);
    PartsOf(total / 3600, (total % 3600) / 60, total % 60)
  }

  function PartsOf(h: nat, m: nat, s: nat): seq<string> {
    (if h > 0 then [NatToString(h) + "h"] else [])
    + (if m > 0 || h > 0 then [NatToString(m) + "m"] else [])
    + [NatToString(s) + "s"]
  }

  /** Reads one piece `<digits><unit>`, the digits written as `${n}` writes
      them (no leading zero). */
  function ParsePart(p: string, unit: char): Option<nat> {
    if |p| >= 2 && p[|p| - 1] == unit && AllDigits(p[..|p| - 1])
       && p[..|p| - 1] == NatToString(DigitsValue(p[..|p| - 1]))
    then Some(DigitsValue(p[..|p| - 1]))
    else None
  }

  /** A piece that reads as `n` is `${n}` followed by the unit. */
  lemma ParsePartCanonical(p: string, unit: char, n: nat)
    requires ParsePart(p, unit) == Some(n)
    ensures p == NatToString(n) + [unit]
  {
    assert p == p[..|p| - 1] + [unit];
  }

  /** Reads a duration written in the canonical format back as whole seconds:
      "Ss", "Mm Ss" with 0 < M, or "Hh Mm Ss" with 0 < H, and M, S below 60. */
  function ParseDuration(text: string): Option<nat> {
    ParseDurationParts(Split(text, ' '))
  }

  function ParseDurationParts(parts: seq<string>): Option<nat> {
    if |parts| == 1 then
      match ParsePart(parts[0], 's')
      case Some(s) => if s < 60 then Some(s) else None
      case None => None
    else if |parts| == 2 then
      match (ParsePart(parts[0], 'm'), ParsePart(parts[1], 's'))
      case (Some(m), Some(s)) => if 0 < m < 60 && s < 60 then Some(m * 60 + s) else None
      case _ => None
    else if |parts| == 3 then ParseHms(parts)
    else None
  }

  function ParseHms(parts: seq<string>): Option<nat>
    requires |parts| == 3
  {
    var h := ParsePart(parts[0], 'h');
    var m := ParsePart(parts[1], 'm');
    var s := ParsePart(parts[2], 's');
    if h.Some? && m.Some? && s.Some? && 0 < h.value && m.value < 60 && s.value < 60
    then Some(h.value * 3600 + m.value * 60 + s.value)
    else None
  }

  lemma ParsePartRendered(n: nat, unit: char)
    ensures ParsePart(NatToString(n) + [unit], unit) == Some(n)
  {
    var p := NatToString(n) + [unit];
    assert p[..|p| - 1] == NatToString(n);
    NatToStringRoundTrip(n);
  }

  lemma PartHasNoSpace(n: nat, unit: char)
    requires unit != ' '
    ensures ' ' !in NatToString(n) + [unit]
  {
    var p := NatToString(n) + [unit];
    forall i | 0 <= i < |p| ensures p[i] != ' ' {
      if i < |p| - 1 {
        assert p[i] == NatToString(n)[i];
      }
    }
  }

  /** `formatDuration(ms)`: "0s" for non-positive durations; otherwise the whole
      seconds written as hours, minutes and seconds, where the hours appear
      only when non-zero, the minutes only when they or the hours are non-zero,
      and the seconds always. Reading the text back gives the whole seconds, in
      the canonical form (minutes and seconds below 60). */
  function FormatDuration(ms: int): (r: string)
    ensures ms <= 0 ==> r == "0s"
    ensures ParseDuration(r) == Some(TotalSeconds(ms))
    ensures ms > 0 ==> |Split(r, ' ')| == (if ms / 1000 >= 3600 then 3 else if ms / 1000 >= 60 then 2 else 1)
  {
    var r := Join(DurationParts(ms), ' ');
    DurationPartsSplit(ms);
    DurationPartsParse(ms, r);
    r
  }

  /** The pieces of a rendered duration are separated by single spaces and hold none. */
  lemma DurationPartsSplit(ms: int)
    ensures Split(Join(DurationParts(ms), ' '), ' ') == DurationParts(ms)
  {
    if ms <= 0 {
      assert DurationParts(ms) == ["0s"];
      SplitNoSeparator("0s", ' ');
    } else {
      ClockPartsSplit(ms / 1000);
    }
  }

  lemma ClockPartsSplit(total: nat)
    ensures Split(Join(ClockParts(total), ' '), ' ') == ClockParts(total)
  {
    var h, m, s := total / 3600, (total % 3600) / 60, total % 60;
    var parts := PartsOf(h, m, s);
    if h > 0 {
      RenderedPartsSplit(parts, [h, m, s], "hms");
    } else if m > 0 {
      RenderedPartsSplit(parts, [m, s], "ms");
    } else {
      RenderedPartsSplit(parts, [s], "s");
    }
  }

  /** Any text whose pieces are those of a rendered duration reads back as its whole seconds. */
  lemma DurationPartsParse(ms: int, text: string)
    requires Split(text, ' ') == DurationParts(ms)
    ensures ParseDuration(text) == Some(TotalSeconds(ms))
  {
    if ms <= 0 {
      assert NatToString(0) + "s" == "0s";
      ParseSeconds(0, text);
    } else {
      ClockPartsParse(ms / 1000, text);
    }
  }

  /** The pieces for `total` seconds read back as `total`. */
  lemma ClockPartsParse(total: nat, text: string)
    requires Split(text, ' ') == ClockParts(total)
    ensures ParseDuration(text) == Some(total)
  {
    var h, m, s := Clock(total);
    PartsOfParse(h, m, s, text);
  }

  lemma PartsOfParse(h: nat, m: nat, s: nat, text: string)
    requires m < 60 && s < 60
    requires Split(text, ' ') == PartsOf(h, m, s)
    ensures ParseDuration(text) == Some(h * 3600 + m * 60 + s)
  {
    if h > 0 {
      assert PartsOf(h, m, s) == [NatToString(h) + "h", NatToString(m) + "m", NatToString(s) + "s"];
      ParseHoursMinutesSeconds(h, m, s, text);
    } else if m > 0 {
      assert PartsOf(h, m, s) == [NatToString(m) + "m", NatToString(s) + "s"];
      ParseMinutesSeconds(m, s, text);
    } else {
      assert PartsOf(h, m, s) == [NatToString(s) + "s"];
      ParseSeconds(s, text);
    }
  }

  /** The pieces for h, m, s read back as h * 3600 + m * 60 + s. */
  lemma PartsOfReadBack(h: nat, m: nat, s: nat)
    requires m < 60 && s < 60
    ensures ParseDurationParts(PartsOf(h, m, s)) == Some(h * 3600 + m * 60 + s)
  {
    var parts := PartsOf(h, m, s);
    ParsePartRendered(s, 's');
    if h > 0 {
      assert parts == [NatToString(h) + "h", NatToString(m) + "m", NatToString(s) + "s"];
      ParsePartRendered(h, 'h');
      ParsePartRendered(m, 'm');
      ReadHms(parts, h, m, s);
    } else if m > 0 {
      assert parts == [NatToString(m) + "m", NatToString(s) + "s"];
      ParsePartRendered(m, 'm');
      ReadMs(parts, m, s);
    } else {
      assert parts == [NatToString(s) + "s"];
    }
  }

  /** The pieces that read back as `total` are exactly `ClockParts(total)`:
      the rendering is the one canonical text for its number of seconds. */
  lemma ClockPartsUnique(total: nat, parts: seq<string>)
    ensures ParseDurationParts(parts) == Some(total) <==> parts == ClockParts(total)
  {
    if ParseDurationParts(parts) == Some(total) {
      var h, m, s := Clock(total);
      if |parts| == 1 {
        var v := ParsePart(parts[0], 's').value;
        ParsePartCanonical(parts[0], 's', v);
        assert h == 0 && m == 0 && s == v;
        assert parts == PartsOf(h, m, s);
      } else if |parts| == 2 {
        var mv := ParsePart(parts[0], 'm').value;
        var sv := ParsePart(parts[1], 's').value;
        ParsePartCanonical(parts[0], 'm', mv);
        ParsePartCanonical(parts[1], 's', sv);
        SplitClock(total, 0, mv, sv);
        assert parts == PartsOf(h, m, s);
      } else {
        var hv := ParsePart(parts[0], 'h').value;
        var mv := ParsePart(parts[1], 'm').value;
        var sv := ParsePart(parts[2], 's').value;
        ParsePartCanonical(parts[0], 'h', hv);
        ParsePartCanonical(parts[1], 'm', mv);
        ParsePartCanonical(parts[2], 's', sv);
        SplitClock(total, hv, mv, sv);
        assert parts == PartsOf(h, m, s);
      }
    }
  }

  /** Hours, minutes below 60 and seconds below 60 are the clock split of their total. */
  lemma SplitClock(total: nat, h: nat, m: nat, s: nat)
    requires m < 60 && s < 60 && total == h * 3600 + m * 60 + s
    ensures total / 3600 == h && (total % 3600) / 60 == m && total % 60 == s
  {
    assert m * 60 + s < 3600;
    assert (total % 3600) == m * 60 + s;
  }

  /** `formatDuration(ms)` is the one text that reads back as the whole
      seconds of `ms`: any other text reads as something else or not at all. */
  lemma FormatDurationUnique(ms: int, text: string)
    ensures ParseDuration(text) == Some(TotalSeconds(ms)) <==> text == FormatDuration(ms)
  {
    if ParseDuration(text) == Some(TotalSeconds(ms)) {
      ClockPartsUnique(TotalSeconds(ms), Split(text, ' '));
      if ms <= 0 {
        assert NatToString(0) + "s" == "0s";
        assert ClockParts(0) == PartsOf(0, 0, 0) == ["0s"];
      }
      assert DurationParts(ms) == ClockParts(TotalSeconds(ms));
      JoinSplit(text, ' ');
    }
  }

  /** Whole seconds split into hours, minutes below 60 and seconds below 60. */
  lemma ClockDecomposition(total: nat)
    ensures total == (total / 3600) * 3600 + ((total % 3600) / 60) * 60 + total % 60
    ensures (total % 3600) / 60 < 60 && total % 60 < 60
    ensures total / 3600 > 0 <==> total >= 3600
    ensures total / 3600 == 0 ==> ((total % 3600) / 60 > 0 <==> total >= 60)
  {
  }

  /** The hours, minutes and seconds `ClockParts` shows, named. */
  lemma Clock(total: nat) returns (h: nat, m: nat, s: nat)
    ensures h == total / 3600 && m == (total % 3600) / 60 && s == total % 60
    ensures total == h * 3600 + m * 60 + s && m < 60 && s < 60
  {
    h, m, s := total / 3600, (total % 3600) / 60, total % 60;
    ClockDecomposition(total);
  }

  lemma ParseHoursMinutesSeconds(h: nat, m: nat, s: nat, text: string)
    requires 0 < h && m < 60 && s < 60
    requires Split(text, ' ') == [NatToString(h) + "h", NatToString(m) + "m", NatToString(s) + "s"]
    ensures ParseDuration(text) == Some(h * 3600 + m * 60 + s)
  {
    var parts := Split(text, ' ');
    ParsePartRendered(h, 'h');
    ParsePartRendered(m, 'm');
    ParsePartRendered(s, 's');
    ReadHms(parts, h, m, s);
  }

  lemma ReadHms(parts: seq<string>, h: nat, m: nat, s: nat)
    requires |parts| == 3 && 0 < h && m < 60 && s < 60
    requires ParsePart(parts[0], 'h') == Some(h) && ParsePart(parts[1], 'm') == Some(m)
    requires ParsePart(parts[2], 's') == Some(s)
    ensures ParseDurationParts(parts) == Some(h * 3600 + m * 60 + s)
  {
  }

  lemma ParseMinutesSeconds(m: nat, s: nat, text: string)
    requires 0 < m < 60 && s < 60
    requires Split(text, ' ') == [NatToString(m) + "m", NatToString(s) + "s"]
    ensures ParseDuration(text) == Some(m * 60 + s)
  {
    var parts := Split(text, ' ');
    ParsePartRendered(m, 'm');
    ParsePartRendered(s, 's');
    ReadMs(parts, m, s);
  }

  lemma ReadMs(parts: seq<string>, m: nat, s: nat)
    requires |parts| == 2 && 0 < m < 60 && s < 60
    requires ParsePart(parts[0], 'm') == Some(m) && ParsePart(parts[1], 's') == Some(s)
    ensures ParseDurationParts(parts) == Some(m * 60 + s)
  {
  }

  lemma ParseSeconds(s: nat, text: string)
    requires s < 60
    requires Split(text, ' ') == [NatToString(s) + "s"]
    ensures ParseDuration(text) == Some(s)
  {
    ParsePartRendered(s, 's');
  }

  /** Rendered pieces `<n><unit>` survive a join and split on spaces. */
  lemma RenderedPartsSplit(parts: seq<string>, values: seq<nat>, units: string)
    requires |parts| == |values| == |units| > 0
    requires forall i :: 0 <= i < |parts| ==> units[i] != ' ' && parts[i] == NatToString(values[i]) + [units[i]]
    ensures Split(Join(parts, ' '), ' ') == parts
  {
    forall i | 0 <= i < |parts| ensures ' ' !in parts[i] {
      PartHasNoSpace(values[i], units[i]);
    }
    SplitJoin(parts, ' ');
  }

  // ---------------------------------------------------------------------------
  // cn

  /** One argument of `cn`: a class name, or `false`/`undefined`/`null`. */
  datatype ClassArg = ClassName(name: string) | NoClass

  predicate Truthy(a: ClassArg) {
    a.ClassName? && a.name != ""
  }

  /** The names of the truthy arguments, in order: the i-th name is the name
      of the i-th argument that survives filtering by `Truthy`. */
  function TruthyNames(args: seq<ClassArg>): (r: seq<string>)
    ensures |r| == |Keep(args, Truthy)|
    ensures forall i :: 0 <= i < |r| ==> r[i] == Keep(args, Truthy)[i].name
    ensures forall i :: 0 <= i < |r| ==> r[i] != ""
    decreases |args|
  {
    if |args| == 0 then []
    else (if Truthy(args[0]) then [args[0].name] else []) + TruthyNames(args[1..])
  }

  /** `cn(...classes)`: the truthy arguments joined by single spaces. When no
      class name holds a space, the string splits back into exactly the names
      of the truthy arguments, in order; with no truthy argument it is empty. */
  function Cn(args: seq<ClassArg>): (r: string)
    ensures (forall i :: 0 <= i < |args| ==> !Truthy(args[i])) ==> r == ""
    ensures (forall i :: 0 <= i < |args| && args[i].ClassName? ==> ' ' !in args[i].name) &&
            (exists i :: 0 <= i < |args| && Truthy(args[i])) ==>
              Split(r, ' ') == TruthyNames(args)
  {
    NoTruthyNoNames(args);
    TruthyNamesJoinSplit(args);
    Join(TruthyNames(args), ' ')
  }

  /** Space-free names, at least one, survive a join and split on spaces. */
  lemma TruthyNamesJoinSplit(args: seq<ClassArg>)
    ensures (forall i :: 0 <= i < |args| && args[i].ClassName? ==> ' ' !in args[i].name) &&
            (exists i :: 0 <= i < |args| && Truthy(args[i])) ==>
              Split(Join(TruthyNames(args), ' '), ' ') == TruthyNames(args)
  {
    if (forall i :: 0 <= i < |args| && args[i].ClassName? ==> ' ' !in args[i].name) &&
       (exists i :: 0 <= i < |args| && Truthy(args[i])) {
      TruthyNamesNoSpace(args);
      SomeTruthyHasName(args);
      SplitJoin(TruthyNames(args), ' ');
    }
  }

  lemma {:induction false} NoTruthyNoNames(args: seq<ClassArg>)
    ensures (forall i :: 0 <= i < |args| ==> !Truthy(args[i])) ==> TruthyNames(args) == []
    decreases |args|
  {
    if |args| > 0 {
      NoTruthyNoNames(args[1..]);
    }
  }

  /** When no class name contains a space, the joined string splits into one
      piece per truthy argument, the k-th piece being the k-th truthy
      argument's name: falsy arguments leave no trace and order is kept. */
  lemma CnSplits(args: seq<ClassArg>)
    requires forall i :: 0 <= i < |args| && args[i].ClassName? ==> ' ' !in args[i].name
    requires exists i :: 0 <= i < |args| && Truthy(args[i])
    ensures |Split(Cn(args), ' ')| == |Keep(args, Truthy)|
    ensures forall k :: 0 <= k < |Keep(args, Truthy)| ==> Split(Cn(args), ' ')[k] == Keep(args, Truthy)[k].name
    ensures forall i :: 0 <= i < |args| && Truthy(args[i]) ==> args[i].name in Split(Cn(args), ' ')
  {
    var kept := Keep(args, Truthy);
    var pieces := Split(Cn(args), ' ');
    forall i | 0 <= i < |args| && Truthy(args[i])
      ensures args[i].name in pieces
    {
      var k :| 0 <= k < |kept| && kept[k] == args[i];
      assert pieces[k] == args[i].name;
    }
  }

  lemma {:induction false} TruthyNamesNoSpace(args: seq<ClassArg>)
    requires forall i :: 0 <= i < |args| && args[i].ClassName? ==> ' ' !in args[i].name
    ensures forall k :: 0 <= k < |TruthyNames(args)| ==> ' ' !in TruthyNames(args)[k]
    decreases |args|
  {
    if |args| > 0 {
      TruthyNamesNoSpace(args[1..]);
      var r := TruthyNames(args);
      var rest := TruthyNames(args[1..]);
      forall k | 0 <= k < |r| ensures ' ' !in r[k] {
        if Truthy(args[0]) && k == 0 {
          assert r[0] == args[0].name;
        } else {
          assert r[k] == rest[if Truthy(args[0]) then k - 1 else k];
        }
      }
    }
  }

  lemma {:induction false} SomeTruthyHasName(args: seq<ClassArg>)
    requires exists i :: 0 <= i < |args| && Truthy(args[i])
    ensures |TruthyNames(args)| > 0
    decreases |args|
  {
    if !Truthy(args[0]) {
      var i :| 0 <= i < |args| && Truthy(args[i]);
      assert args[1..][i - 1] == args[i];
      SomeTruthyHasName(args[1..]);
    }
  }
}

=== FILE: wrappers.dfy ===
/** An optional value: a field a partial update may or may not supply, or the
    result of a parse that may fail. */
module Wrappers {
  datatype Option<T> = None | Some(value: T)
}
